=== FILE: README.md ===
# Daily backtest engine: a verified model

This project models the daily backtest engine of the repository and
proves properties of that model. The engine is the `Backtest` class of
BackTest3.py, covering stocks, futures and options. `CTA_backtest` in
BackTest2.py is this engine run with `runStock = false` and
`runFuture = runOption = true`. Its opening, closing, monitoring and
marking methods are textually the same as BackTest3.py's; its counters and
its evening roll differ in form but not in effect under those flags (see
the end of "## Model"). The project
also models two small pure helpers of basic.py, `element_counter` and
`reverse_Dict`.

A strategy drives the engine one trading day at a time. On each day it:

- sets the date;
- submits orders to one of three counters (stocks, futures, options);
- runs each counter pass, which expires, fills or keeps every pending order;
- runs the stop and expiry monitors, which force closes;
- marks the futures and options books to market at the settlement price;
- rolls the pending orders' reference settlement price forward.

Positions live in seven books:

- one stock book;
- futures: long and short;
- options: bought calls, sold calls, bought puts and sold puts.

Each book maps an instrument to its lots in entry order. Closes consume
lots oldest first, booking:

- realized profit against the entry prices;
- settlement profit against the reference settlement prices;
- released margin, which returns to cash.

## Layout

| file | module | what it holds |
|---|---|---|
| types.dfy | `Types` | instruments, dates, volumes, books, lots, bars, orders, records, the market-data gateway `Feed` |
| books.dfy | `Books` | a position book (`Book`: lots per instrument plus insertion order), held volume, per-unit views, `Append` / `Store` |
| fifo.dfy | `Fifo` | the FIFO close of one instrument (`Consume`), its loops (`CloseLots`, `CloseAll`, `ClosePart`) and their properties |
| positions.dfy | `Positions` | the trading state as a value (`Ledger`), the open and close operations on it |
| settlement.dfy | `Settlement` | the daily mark-to-market, its loops and the settlement identities |
| monitor.dfy | `Monitor` | the limit / contract-end / expiry / maximum-date monitor |
| counter.dfy | `Counter` | the counter pass, order expiry and fill decision, the evening roll |
| engine.dfy | `Engine` | the engine object `Backtest`: its fields and every method, each proved against the value-level operation it performs |
| aswritten.dfy | `AsWritten` | the source as written where it disagrees with its own bookkeeping (see Findings) |
| basic.dfy | `Basic` | `element_counter` and `reverse_Dict` over an insertion-ordered dictionary |

The engine's methods change the fields of one `Backtest` object. Each
method's `ensures` ties the new state, `Snapshot()` together with the
counters, to a function of the old state. The properties are proved about
those functions. The class invariant `Valid()` says:

- all seven books are present and well formed;
- every counter holds orders of its own asset class;
- every counter's orders carry increasing numbers;
- no order number is above `orderNum`.

## Model

| member | source | states |
|---|---|---|
| Books.Held | BackTest3.py:591-595 | the held volume of an instrument (`sum(current_vol_list)`) is non-negative and at least the volume of its oldest lot |
| Books.Append | BackTest3.py:444-461 | opening puts the new lot at the end of the instrument's list (a new instrument gets a one-lot list); the other instruments are untouched and the book stays well formed |
| Books.Without | BackTest3.py:609 | deleting an instrument's key removes exactly that instrument from the book's key order, without repeats, and leaves the order as it was when the instrument is not listed (the position it leaves is stated by `WithoutAt`) |
| Books.WithoutAt | BackTest3.py:609 | for an instrument listed once at position k, the new key order is the keys before k followed by the keys after k, in their old order |
| Books.Store | BackTest3.py:609-627 | after a close the instrument is deleted when nothing is left, its key leaving the order at its one position with the other keys in their old order; otherwise its list is replaced by what is left and the key order is kept |
| Books.AppendHeld | BackTest3.py:444-461 | an open raises the held volume by exactly the lot's volume and adds its units after the existing ones |
| Fifo.Shrink | BackTest3.py:626-627 | a cut lot keeps `vol - q` units, and its margin plus the closed share `pre_margin * q / vol` is the old margin; nothing else in the lot changes |
| Fifo.GainIsProduct | BackTest3.py:606-607 | the unit-by-unit profit `Gain` equals the source's `(to - from) * vol * LS` |
| Fifo.Consume | BackTest3.py:595-628 | closing `q` units never lengthens the lot list, and leaves it empty exactly when every held unit is closed |
| Fifo.Part | BackTest3.py:622-628 | closing fewer units than a lot holds leaves exactly that lot, cut to its remaining units and margin |
| Fifo.ConsumeHeld | BackTest3.py:595-628 | volume conservation: exactly `q` units leave the instrument |
| Fifo.ConsumeKeepsNewest | BackTest3.py:610-628 | FIFO: the units left are the latest-entered ones, in entry order (the held units minus the first `q`) |
| Fifo.ConsumePnl | BackTest3.py:606-624 | realized profit is `LS * Σ (price - entry)` over the `q` earliest-entered units; settlement profit is the same sum against the reference settlement prices |
| Fifo.ConsumeSingle | BackTest3.py:600-609 | a full close of one lot realizes `(price - entry) * vol * LS` and releases `margin + (price - pre_settle) * vol * LS` |
| Fifo.ConsumeMargin | BackTest3.py:608-627 | margin is conserved: released margin plus the margin left on the lots equals the margin held plus the settlement profit of the closed units |
| Fifo.ConsumeSuffix | BackTest3.py:616-621 | the lots after the new head are untouched old lots, the same suffix of the old list |
| Fifo.ConsumeHead | BackTest3.py:616-627 | the new head lot is the next old lot, either untouched or cut to fewer units carrying exactly `pre_margin * (1 - q / vol)` of its margin (`Shrink`); nothing else in it changes |
| Fifo.ConsumePart | BackTest3.py:622-628 | closing fewer units than the head lot holds cuts only the head lot |
| Fifo.CloseLots | BackTest3.py:595-628 | the close loop closes `min(held, vol)` units and produces exactly the fill `Consume` specifies |
| Fifo.CloseAll | BackTest3.py:600-609 | the full-close loop over every lot produces the fill of all held units |
| Fifo.ClosePart | BackTest3.py:610-628 | the partial-close loop (whole lots from the head, then one cut) produces the fill of `q` units |
| Positions.WithRecord | BackTest3.py:630-637 | logging appends exactly one row to the record of the asset class and changes nothing else |
| Positions.OpenStock | BackTest3.py:396-428 | a stock open keeps the trading state well formed |
| Positions.OpenFuture | BackTest3.py:430-478 | a futures open keeps the trading state well formed |
| Positions.OpenOption | BackTest3.py:480-534 | an option open keeps the trading state well formed |
| Positions.OptionMargin | BackTest3.py:491-498 | the margin an option lot carries: 0 for a buyer, the order's margin for a seller (stated for the new lot by `OpenOptionEffect`) |
| Positions.OpenFutureEffect | BackTest3.py:439-478 | `execute_future` makes the contract's list the old list plus exactly one lot at the end carrying the order's price, `pre_settle`, margin, limits, maximum date, volume and the first-day flag; the book's other contracts and the other books are untouched; held volume rises by `vol`; cash falls by exactly `margin`; one `open` row with pnl 0 goes into the futures record; profits and the other records are unchanged |
| Positions.OpenOptionEffect | BackTest3.py:482-534 | `execute_option` makes the option's list, in the book of its right and leg, the old list plus exactly one lot at the end carrying the order's fields, the first-day flag and margin 0 for a buyer or the order's margin for a seller; the other options and books are untouched; held volume rises by `vol`; a buy debits `vol * price`, a sell credits `vol * price - margin`; one buy/sell row with pnl 0 goes into the options record; profits and the other records are unchanged |
| Positions.OpenStockEffect | BackTest3.py:403-428 | `execute_stock` makes the stock's list the old list plus exactly one lot at the end (no margin, no first-day flag); the other stocks and books are untouched; held volume rises by `vol`; cash falls by `vol * price`; profits are unchanged; the row goes into the futures record while the stock and options records stay as they were |
| Positions.CloseHeld | BackTest3.py:580-645 | a close of a held instrument keeps the state well formed, changes only its own book, never adds lots, and leaves every other instrument of the book unchanged |
| Positions.BookFill | BackTest3.py:629-645 | booking a fill keeps the state well formed and changes no other book |
| Positions.Close | BackTest3.py:590-591 | an empty book is a no-op; a stock that is not held is skipped; a future or option that is not held in a non-empty book is a fault (`position[contract]` raises), and only then |
| Positions.ClearWritesOff | BackTest3.py:721-723 | `clear_option` on a held option never faults and writes the closed (oldest) units off at price 0: `profit` and the close row's pnl are `-BS * Σ entry` over them, the row carries price 0 and the given reason, `min(held, vol)` units leave, and the option disappears exactly when `vol` covers the holding |
| Positions.CloseHeldParts | BackTest3.py:629-641 | a close adds the fill's realized profit to `profit`, appends one `close` row with volume `min(held, vol)` and that pnl, and credits the released margin (futures and options: settlement profit booked) or the realized profit (stocks) to cash |
| Positions.CloseVolume | BackTest3.py:595-628 | exactly `min(held, vol)` units leave; the instrument disappears exactly when `vol` covers the holding; the remaining units are the newest ones |
| Positions.ClosePnl | BackTest3.py:600-640 | `profit` and the close row's pnl both grow by `LS * Σ (price - entry)` over the closed units; settlement profit grows by the same sum against the reference prices; a stock close credits only the realized profit to cash |
| Positions.CloseMargin | BackTest3.py:608-641 | cash after plus margin left equals cash before plus margin held plus the settlement profit booked |
| Positions.CloseEverything | BackTest3.py:600-609 | a futures or options close covering the holding deletes the instrument, credits cash with the release of every held unit and profit with their realized profit |
| Positions.CloseSingleLot | BackTest3.py:600-641 | a single-lot full futures close raises cash by `margin + (price - pre_settle) * vol * LS` and profit by `(price - entry) * vol * LS`, and removes the contract |
| Settlement.MarkLotEffect | BackTest3.py:886-897 | one mark: the delta is `(settle - reference) * vol * LS`, with the entry price as reference on the first day and the bar's `pre_settle` afterwards; margin grows by it; `pre_settle` becomes `settle`; the flag is gone; nothing else changes |
| Settlement.Reference | BackTest3.py:890-894 | the price a lot is marked against: its entry price while it carries the first-day flag, the bar's `pre_settle` afterwards (stated in `MarkLotEffect`) |
| Settlement.MarkLot | BackTest3.py:886-897 | one lot's daily mark and the settlement profit it books (its effect is stated by `MarkLotEffect`, its repetition by `RemarkRepeats`) |
| Settlement.RemarkRepeats | BackTest3.py:890-897 | there is no once-per-day guard: marking again against the same bar books the same delta again |
| Settlement.MarkLots | BackTest3.py:885-898 | marking keeps the number of lots |
| Settlement.MarkLotsConserve | BackTest3.py:885-898 | marking keeps every unit and entry price; margin grows by exactly the settlement profit; every lot's reference becomes the settle and no first-day flag is left |
| Settlement.MarkAll | BackTest3.py:882-899 | marking a book keeps it well formed, with the same instruments in the same order |
| Settlement.Settle | BackTest3.py:875-906 | the daily mark keeps the trading state well formed |
| Settlement.MarkAllEffect | BackTest3.py:882-899 | an instrument without a bar today, or not among those marked, keeps its lots; one with a bar has its lots marked against that bar; every instrument keeps its units |
| Settlement.MarkAllConserve | BackTest3.py:882-899 | marking a book conserves value: the margin held by the marked instruments grows by exactly the settlement profit the marks book |
| Settlement.SettleConserve | BackTest3.py:866-906 | `calculate_future_profit` / `calculate_option_profit` raise `profit_settle` by exactly the growth of the margin held in the book, keep its instruments, their order and their units, and leave cash, realized profit, the records and the other books untouched |
| Settlement.MarkDaysTelescope | BackTest3.py:886-897 | over consecutive days the daily marks add up to the move from the first reference to the last settle |
| Settlement.MarkThenClose | BackTest3.py:600-607 | a lot marked over consecutive days and then closed in full realizes exactly its marks plus the settlement profit of the close |
| Settlement.MarkLotsLoop | BackTest3.py:885-898 | the lot loop produces the marked lots and the total delta that `MarkLots` specifies |
| Settlement.MarkBookLoop | BackTest3.py:882-899 | the instrument loop produces the marked book and total delta that `MarkAll` specifies |
| Monitor.LimitExitSound | BackTest3.py:784-801 | a limit exit fires only when the day's range reached a set limit, and closes at that limit |
| Monitor.LimitExit | BackTest3.py:784-801 | the intraday limit check: in the assumed order of the day's extremes only the first limit that is set is looked at, and it exits at that limit when the range reached it (stated by `LimitExitSound` and `FirstSetLimitShadows`) |
| Monitor.TriggerOrder | BackTest3.py:784-862 | checks run in order: a limit hit always wins; a contract-end exit needs a future at or past its end date and no limit hit, is taken whenever those hold, and closes at the day's close; a clearing needs an out-of-the-money option on its end date and no earlier exit; a maximum-date exit needs no earlier exit and closes at the day's close; no exit exactly when none fires |
| Monitor.Trigger | BackTest3.py:784-862 | the exit of one lot: limit, then contract end at the close, then clearing at 0 of an out-of-the-money option on its end date, then the maximum date at the close (characterised by `TriggerOrder`) |
| Monitor.FirstSetLimitShadows | BackTest3.py:784-801 | once the first limit in the checking order is set, the other limit is never looked at, whatever its value |
| Monitor.Walk | BackTest3.py:777-811 | the lot loop keeps the state well formed, changes only its own book and instrument, and never adds lots (its effect is stated by `WalkQuiet`, `WalkFires`, `WalkHeld` and `WalkRecords`) |
| Monitor.Visit | BackTest3.py:778-809 | one lot's visit keeps the state well formed, changes only its own book and instrument, and never adds lots (its effect is stated by `VisitCloses` and `VisitStep`) |
| Monitor.VisitCloses | BackTest3.py:778-809 | a lot with no exit leaves the state as it was; a lot with an exit closes min(held, lot volume) units of the instrument oldest first at the exit price, the instrument staying exactly when more was held than the lot's volume, appends the one close row with the exit's reason and the realized profit, and adds that profit to `profit` |
| Monitor.MonitorOver | BackTest3.py:775-811 | the instrument loop keeps the state well formed, changes no other book and no other record, only appends to its own record, changes nothing when no lot of a listed instrument with a bar fires, and over distinct instruments writes at least one close for each instrument whose oldest lot fires |
| Monitor.WalkBar | BackTest3.py:775-777 | an instrument is walked only when it has a bar today |
| Monitor.WalkQuiet | BackTest3.py:777-811 | a walk over lots none of which fires leaves the state as it was |
| Monitor.WalkFires | BackTest3.py:777-811 | a walk whose oldest lot fires writes at least one close row |
| Monitor.FiresFrame | BackTest3.py:775-777 | the count of firing instruments depends only on the listed instruments' lots |
| Monitor.WalkFacts | BackTest3.py:775-811 | one step of the instrument loop writes only its own record, appends only, changes nothing when quiet, and accounts for the first instrument's close |
| Monitor.Monitor | BackTest3.py:765-811 | a monitor pass keeps the trading state well formed, changes no other book and no other record, only appends to its own record, leaves the state as it was on a day when no check fires, and writes at least one close for each instrument whose oldest lot fires |
| Monitor.WalkHeld | BackTest3.py:777-809 | a walk never adds units to the instrument |
| Monitor.WalkRecords | BackTest3.py:777-809 | a walk writes only into its asset class's record, appends only, and adds at most one row per lot visited |
| Monitor.VisitStep | BackTest3.py:778-809 | a visit never adds units, writes only into its own record, appends exactly one row when the lot's checks fire, and changes nothing otherwise |
| Monitor.CloseStep | BackTest3.py:580-645 | a forced close never adds units and appends exactly one row to its own record |
| Monitor.LotCountSame | BackTest3.py:775 | changing one instrument does not change the lot count of the others |
| Monitor.MonitorOverBounds | BackTest3.py:765-864 | a monitor pass changes no other book and no other record, never adds units, leaves instruments without a bar untouched, and writes at most one close per lot found at the start |
| Counter.Apply | BackTest3.py:360-365 | executing a filled order keeps the state well formed; it fails exactly when it is a close whose close faults |
| Counter.Decide | BackTest3.py:353-359 | an order expires exactly when its last order date has come; otherwise it fills exactly when its first order date has come, the instrument has a bar today and the limit price lies within the day's range, and then it fills against that bar; any other order waits |
| Counter.Process | BackTest3.py:350-369 | a counter pass keeps the trading state well formed |
| Counter.Waiting | BackTest3.py:366-369 | the orders waiting today are at most the orders given |
| Counter.WaitingMembers | BackTest3.py:353-369 | an order waits exactly when it is pending and neither expires nor fills today |
| Counter.ProcessKeeps | BackTest3.py:350-369 | a completed pass keeps exactly the waiting orders, in order; expiry and fill do not depend on the positions |
| Counter.ProcessStops | BackTest3.py:350-369 | a pass stopped by a fault keeps the waiting orders before the failing fillable order, then that order and every later one |
| Counter.StopShift | BackTest3.py:350-369 | the kept orders of a stopped pass, shifted by one order |
| Counter.NoExpiredKept | BackTest3.py:353-355 | a completed pass keeps no order whose last order date has come, and keeps only orders it was given |
| Counter.NeverFails | BackTest3.py:320-343 | opens never fault, and neither do stock closes: such a counter pass always completes |
| Counter.NothingFillable | BackTest3.py:353-369 | on a day when no pending order fills, the pass changes no book, no cash, no profit and no record |
| Counter.WaitingAscending | BackTest3.py:351 | the waiting orders keep their submission order |
| Counter.ProcessCons | BackTest3.py:351-365 | one step of a pass: unless the order faults, the rest of the pass runs from the state it leaves (unchanged when it expires or waits) and ends in the same state and outcome, keeping the order if it waits |
| Counter.WaitingPrefix | BackTest3.py:351 | the waiting orders of a prefix, one order at a time |
| Counter.ProcessKeptIn | BackTest3.py:350-365 | a pass only removes orders |
| Counter.ProcessKeptOrdered | BackTest3.py:350-365 | a pass keeps order numbers increasing |
| Counter.AscendingCons | BackTest3.py:203 | an order numbered below a counter's orders may stand before them |
| Counter.ProcessFits | BackTest3.py:350-365 | a pass keeps a counter's numbering and asset class |
| Counter.Join | BackTest3.py:351-365 | joining kept orders to the rest of a pass keeps the state and the outcome |
| Counter.JoinTwice | BackTest3.py:351-365 | joining in two steps is joining once |
| Counter.RollAll | BackTest3.py:957-960 | the roll keeps the number of pending orders |
| Counter.Roll | BackTest3.py:957-969 | one pending order's evening roll: its `pre_settle` becomes today's settle when the instrument has a bar, otherwise it is kept (what it preserves is stated by `RollKeeps` and used by `RolledOpen`) |
| Counter.RollKeeps | BackTest3.py:952-971 | `close_counter` changes only `pre_settle`: an order whose instrument has a bar today takes that bar's settle, one without a bar is kept as it is; numbers and every other field stay, so no order's expiry or fill on any day changes |
| Counter.RollFits | BackTest3.py:952-971 | the roll keeps a counter's numbering and asset class |
| Counter.RolledOpen | BackTest3.py:360-387 | an option opened from a rolled order carries the last rolled settle as its reference; a futures open takes the day's bar instead |
| Engine.Initial | BackTest3.py:122-134 | the engine starts with seven empty books, in a well-formed state |
| Engine.Backtest.constructor | BackTest3.py:45-137 | a new engine is valid, starts on the start date with order number 0, empty counters and the initial state |
| Engine.Backtest.Load | BackTest3.py:639-645 | replacing the trading state keeps the counters, order numbers and date |
| Engine.Backtest.SetDate | BackTest3.py:71 | the strategy moves `current_date`; nothing else changes |
| Engine.Backtest.Submit | BackTest3.py:203-215 | submission raises `orderNum` by exactly 1 and appends exactly one order under the new number to its own counter; the other counters and the trading state are unchanged |
| Engine.Backtest.Window | BackTest3.py:199-202 | a missing first / last order date defaults to the start / end date of the backtest |
| Engine.Backtest.OrderOpenStock | BackTest3.py:197-215 | `order_open_stock` queues one open order with the defaulted window under the next number |
| Engine.Backtest.OrderCloseStock | BackTest3.py:217-231 | `order_close_stock` queues one close order with the defaulted window under the next number |
| Engine.Backtest.OrderOpenFuture | BackTest3.py:233-255 | `order_open_future` queues one open order with its `pre_settle` and margin under the next number |
| Engine.Backtest.OrderCloseFuture | BackTest3.py:257-272 | `order_close_future` queues one close order under the next number |
| Engine.Backtest.OrderOpenOption | BackTest3.py:274-300 | `order_open_option` queues one open order under the next number; a buy order carries margin 0 |
| Engine.Backtest.OrderCloseOption | BackTest3.py:302-318 | `order_close_option` queues one close order under the next number |
| Engine.Backtest.ExecuteStock | BackTest3.py:396-428 | the new state is `OpenStock` of the old one |
| Engine.Backtest.ExecuteFuture | BackTest3.py:430-478 | the new state is `OpenFuture` of the old one |
| Engine.Backtest.ExecuteOption | BackTest3.py:480-534 | the new state is `OpenOption` of the old one |
| Engine.Backtest.CloseHeldIn | BackTest3.py:590-645 | running the close loop and booking its fill gives `CloseHeld` of the old state |
| Engine.Backtest.CloseIn | BackTest3.py:580-645 | a close reports a fault (state unchanged) or passes with the state `Close` specifies |
| Engine.Backtest.CloseStock | BackTest3.py:536-578 | `close_stock` leaves the state `Close` specifies for the stock book (never a fault) |
| Engine.Backtest.CloseFuture | BackTest3.py:580-645 | `close_future` as `Close` of the long or short book |
| Engine.Backtest.CloseOption | BackTest3.py:647-719 | `close_option` as `Close` of the book of the right and leg |
| Engine.Backtest.ClearOption | BackTest3.py:721-723 | `clear_option` as `Clear`, with its reason passed through |
| Engine.Backtest.ApplyIn | BackTest3.py:360-365 | executing a filled order gives `Apply` of the old state |
| Engine.Backtest.SetCounter | BackTest3.py:365 | replacing one counter leaves the others and the trading state unchanged |
| Engine.Backtest.Serve | BackTest3.py:353-365 | serving one order is one step of `Process` |
| Engine.Backtest.ServeNext | BackTest3.py:351-365 | the loop step keeps the pass equal to the kept orders joined to the rest of the pass |
| Engine.Backtest.ServeAll | BackTest3.py:350-369 | the counter loop over a snapshot ends in the state, kept orders and outcome of `Process` |
| Engine.Backtest.ProcessCounter | BackTest3.py:345-369 | `*_counter_processing`: the state and the counter afterwards are those of `Process` over the old counter; other counters are unchanged |
| Engine.Backtest.WalkIn | BackTest3.py:777-811 | the lot loop over the live list gives `Walk` from the first lot |
| Engine.Backtest.MonitorBook | BackTest3.py:765-811 | `monitor_*` gives `Monitor` of the old state |
| Engine.Backtest.MarkBook | BackTest3.py:875-904 | the daily mark of a book gives `Settle` of the old state |
| Engine.Backtest.CalculateFutureProfit | BackTest3.py:866-906 | `calculate_future_profit` as `Settle` of the long or short book |
| Engine.Backtest.CalculateOptionProfit | BackTest3.py:908-950 | `calculate_option_profit` as `Settle` of the book of the right and leg |
| Engine.Backtest.RollLoop | BackTest3.py:957-962 | the roll loop gives `RollAll` |
| Engine.Backtest.CloseCounter | BackTest3.py:952-971 | `close_counter` rolls the futures and options counters that run, leaves the stock counter and the trading state unchanged |
| AsWritten.SingleLotAgrees | BackTest3.py:600-628 | on a single lot the as-written release agrees with `Consume` |
| AsWritten.ReleasedAsWritten | BackTest3.py:600-628 | the margin the source's close loop releases as written: every lot taken whole adds its margin plus the running settlement total, a cut lot its share of the margin (`close_option`: the whole margin) plus the running total, and a close ending on a lot boundary makes one more pass over the next lot |
| AsWritten.CloseOptionAsWritten | BackTest3.py:647-719 | `close_option` as written: it reads the bought book of the option's right whatever the leg, faults when that book is non-empty and lacks the option, and writes the remainder into the book of the leg |
| AsWritten.RunningTotalPaysTwice | BackTest3.py:607-608 | the as-written release adds the running settlement total with every lot (see Findings) |
| AsWritten.BoundaryPaysAgain | BackTest3.py:621-625 | a partial close ending on a lot boundary pays the running total once more (see Findings) |
| AsWritten.WholeMarginOverpays | BackTest3.py:695-697 | `close_option`'s cut branch pays out the cut lot's whole margin while the lot keeps its remaining share |
| AsWritten.WholeMarginExample | BackTest3.py:695-697 | a concrete cut where the as-written branch releases 100 and the corrected one 40 |
| AsWritten.BoughtLegAgrees | BackTest3.py:654-657 | on the bought leg `close_option` as written is the corrected close |
| AsWritten.SoldLegIgnored | BackTest3.py:654-659 | with no bought option of the right held, a sold-option close does nothing as written |
| AsWritten.OpenAsWritten | BackTest3.py:493-512 | `execute_option` as written: a first open creates a plain list, and a re-open appends a one-element list |
| AsWritten.Lift | BackTest3.py:494-502 | a lot list read as plain entries |
| AsWritten.ReadHeld | BackTest3.py:660-664 | reading an option's held volume fails exactly when some entry is a wrapped list |
| AsWritten.LiftReads | BackTest3.py:660-664 | plain entries read back as the held volume |
| AsWritten.FirstOpenAgrees | BackTest3.py:493-502 | a first open as written agrees with `Append` |
| AsWritten.ReopenBreaksReads | BackTest3.py:503-512 | after a re-open the option's held volume can no longer be read |
| AsWritten.ReopenReads | BackTest3.py:503-512 | the corrected re-open reads back the held volume raised by the lot's units |
| Basic.Put | basic.py:160 | `d[k] = v`: the map gets the new value; a new key goes to the end of the key order, and an existing key keeps its place |
| Basic.PutValid | basic.py:160 | assignment keeps a dictionary well formed (keys listed once, exactly the mapped ones) |
| Basic.TallyCounts | basic.py:187-192 | `Counter(s)` has exactly the elements of `s` as keys, each mapped to its number of occurrences |
| Basic.TallyCountsUpTo | basic.py:187-192 | the same over each prefix of the list |
| Basic.TallyStep | basic.py:187-192 | counting one more element adds one to its count |
| Basic.TallyValid | basic.py:187-192 | the count dictionary is well formed |
| Basic.TallyTotal | basic.py:186-188 | the counts add up to the number of elements |
| Basic.PutTotal | basic.py:187 | counting one more element raises the total by one |
| Basic.TallyOrder | basic.py:187-188 | keys appear in the order of their first occurrence |
| Basic.FirstSeenExtend | basic.py:187 | one more element keeps the order of the keys seen so far and puts a new element last |
| Basic.Elements | basic.py:185-191 | a flat list contributes exactly one element per entry |
| Basic.ElementCounter | basic.py:180-193 | `None` exactly for a non-list; the `TypeError` of hashing a list exactly for a list that mixes lists and values; otherwise the counts of the flattened list |
| Basic.ElementCounterCounts | basic.py:185-193 | for a flat list or a list of lists (the empty list included) the result maps exactly the elements present to their counts, in first-occurrence order, with counts summing to the number of elements; `[]` gives `{}` |
| Basic.ReverseDict | basic.py:156-161 | `reverse_Dict` returns a well-formed dictionary |
| Basic.ReversePrefixValid | basic.py:160 | the reversal of a prefix is well formed |
| Basic.ReversePrefixKeys | basic.py:160 | the keys of the reversal of a prefix are its values |
| Basic.ReversePrefixLastWins | basic.py:160 | over a prefix each value maps to the last key carrying it |
| Basic.ReverseLastWins | basic.py:156-161 | the keys of the result are exactly the values; a repeated value maps to the key that comes last in insertion order |
| Basic.ReversePrefixInjective | basic.py:160 | for an injective dictionary the reversal of a prefix lists its values in key order, each mapped back to its key |
| Basic.ReverseInjective | basic.py:156-161 | for an injective dictionary the result lists the values in key order, maps each back to its key, and is injective |
| Basic.ReverseTwice | basic.py:156-161 | reversing an injective dictionary twice gives it back, key order included |

`CTA_backtest` in BackTest2.py is `Engine.Backtest` with `runStock = false` and `runFuture = runOption = true`; the stock book and stock counter simply stay empty. Its methods are modelled by the same members:

- execute_future / execute_option at BackTest2.py:287-392, close_future / close_option / clear_option at BackTest2.py:393-536, the monitors at BackTest2.py:538-638 and the marks at BackTest2.py:639-724 are textually the same as the corresponding methods of BackTest3.py.
- The counters at BackTest2.py:242-285 differ in form: the fill test `low <= price <= high` is part of the SQL query instead of an explicit check after it. The query returns a row exactly when today's bar exists and the price lies in its range, so `Counter.Decide` covers both.
- `close_counter` at BackTest2.py:725-743 differs in form: it rolls both counters with no `run_future` / `run_option` guard. With both flags true, `Engine.Backtest.CloseCounter` also rolls both, so it is the same operation.

## Left out

- The database gateway. Every `session.run` query is modelled by the map `Feed` from (instrument, date) to one day's bar. Table creation and loading (`init_counter`, `start_counter`) are not part of this model.
- `run()` is not modelled: it calls the strategy and plots. Neither is the `__main__` block, the strategy itself (a parameter of the engine), the history dictionaries `cash_Dict` / `profit_Dict` / `settle_profit_Dict`, or the `print` diagnostics.
- Records are modelled as append-only sequences of rows, not pandas DataFrames.
- ReturnModel.py and RiskModel.py are not part of this model: they build statistics scripts for an external database.
- From basic.py, the filesystem, pandas and date-parsing helpers are not part of this model.
- Numbers: prices, margins, cash and profits are exact `real`s, so floating-point rounding is not modelled. Dates are day numbers; a missing `max_date` (a `NaT` comparison) never triggers.
- Volumes are positive whole numbers. The source never checks this. The `current_vol <= 0` branch of the closes (BackTest3.py:598-599) therefore never runs in the model.
- `commission` is carried on orders and never used, as in the source.
- An option order's reference settlement price is always present once the order is submitted. So the default of 0 in `Counter.Apply` is never used.
- When a close raises inside a counter pass, the model stops the pass with a `Fail` outcome:
  - the failing order and all later ones stay pending;
  - the effects of earlier orders remain, as they do when the exception propagates.
  
  What the strategy does with the exception is not modelled.
- Shallow copies. `close_future` and `close_option` copy only the outer dictionary, so they mutate lot records shared with the live book. The model closes on values and stores the result back, which gives the same final state for every close except `close_option`'s book mix-up. That case is modelled in `AsWritten.CloseOptionAsWritten`.
- AsWritten.CloseOptionAsWritten: uses the corrected fill (`Fifo.Consume`), not the as-written release. This keeps the book mix-up apart from the release findings.
- Basic.ElementCounter: values are hashable values or lists of hashable values. A list nested inside a sublist, which raises the same `TypeError` while counting, is not modelled. Any non-list argument is one value `NotList`.
- Basic.ReverseDict: values are hashable; the `TypeError` that `reverse_Dict` raises when a value is unhashable (a list, for example) is not modelled.
- Monitor.Monitor: the number of close rows a pass writes is bounded, not given exactly: at least one per instrument whose oldest lot fires, at most one per lot held at the start (`MonitorOverBounds`). Whether a later lot fires depends on the closes before it in the same walk, and `VisitCloses` states each of those one at a time.
- Basic dictionaries: keys are compared by value equality. Python's hash-based identity (for example `1 == True`) is not modelled.

## Findings

In each case below the rest of the model uses the corrected definition, and the as-written version sits in `AsWritten` together with an input that tells the two apart. The same lines exist in BackTest2.py: 421, 432 and 438 for the running total; 429-441 for the boundary; 508-510 for the whole margin; 467-470 for the buy-book read; 361-369 for the re-open.

| source | as written | input that shows it | evidently intended | confidence | as-written member | corrected member |
|---|---|---|---|---|---|---|
| BackTest3.py:606-625 | every closed lot adds its margin plus the running total `settle_profit` of all lots closed so far, so earlier lots' settlement profit is paid to cash again | two lots of 1 unit, margin 10, reference 100, closed long at 110: 50 is released instead of 40 | each lot releases its margin plus its own settlement profit: released plus margin left equals margin held plus settlement profit | not executed | AsWritten.RunningTotalPaysTwice | Fifo.ConsumeMargin |
| BackTest3.py:616-628 | a partial close whose volume runs out exactly at the end of a lot goes on to the next lot with 0 left, adding the running total (and in `close_option` that lot's whole margin) again | two lots of 1 unit, margin 10, reference 100, close 1 long at 110: 30 is released instead of 20 | the loop stops once the requested volume is closed (`Fifo.Consume` returns at `q == 0`), so released margin plus margin left equals margin held plus settlement profit | not executed | AsWritten.BoundaryPaysAgain | Fifo.ConsumeMargin |
| BackTest3.py:695-697 | `close_option`'s cut branch releases the cut lot's whole `pre_margin` while the lot keeps `pre_margin * (1 - q / vol)` | one lot of 10 units, margin 100, 4 closed at its reference price: 100 is released while 60 stays on the lot | release the closed share `pre_margin * q / vol`, as `close_future` does at line 625 | not executed | AsWritten.WholeMarginExample | Positions.CloseMargin |
| BackTest3.py:654-659 | `close_option` reads the bought book of the right whatever the leg, then writes the result into the book of the leg | a sold call held with no bought call: the close does nothing | close from the book of the right and leg | not executed | AsWritten.SoldLegIgnored | Positions.CloseVolume |
| BackTest3.py:503-512 | a re-open of a held option appends a one-element list instead of the lot | any second open of the same option: the next close, monitor or mark fails reading `'vol'` | append the lot, as `execute_future` does at line 454 | not executed | AsWritten.ReopenBreaksReads | AsWritten.ReopenReads |

=== FILE: aswritten.dfy ===
/** Five places where the close and open code of the engine does not do what
    its own comments and bookkeeping say.  Each is modelled here as written,
    beside an input that tells it apart from the corrected definition the rest
    of the model uses (`Fifo.Consume`, `Positions.Close`, `Books.Append`). */
module AsWritten {
  import opened Types
  import opened Books
  import opened Fifo
  import opened Positions

  // ------------------------------------------------ the close loop's release

  /** The margin the close loops of `close_future` and `close_option` hand back
      to cash, as written: `settle_profit` is a running total over the closed
      lots (`acc`), and every lot adds its margin plus that running total, so
      the settlement profit of an earlier lot is paid again with every later
      one.  A partial close whose units run out exactly at the end of a lot
      does not stop there: the next lot goes through the cut branch with
      nothing left to close, which adds the running total (and, in
      `close_option`, that lot's margin) once more.  `wholeMargin` is
      `close_option`'s cut branch, which adds the cut lot's whole margin
      instead of its closed share. */
  function ReleasedAsWritten(lots: seq<Lot>, q: int, price: real, positive: bool, acc: real,
                             wholeMargin: bool): real
    requires 0 <= q <= Held(lots)
    decreases |lots|
  {
    if lots == [] then 0.0
    else
      var l := lots[0];
      if q >= l.vol then
        var acc' := acc + Gain(price, l.preSettle, l.vol, positive);
        l.margin + acc' + ReleasedAsWritten(lots[1..], q - l.vol, price, positive, acc', wholeMargin)
      else
        var acc' := acc + Gain(price, l.preSettle, q, positive);
        (if wholeMargin then l.margin else l.margin * ((q as real) / (l.vol as real))) + acc'
  }

  /** On a single futures lot the loop as written and `Consume` agree: the
      running total has nothing earlier to repeat. */
  lemma SingleLotAgrees(l: Lot, q: int, price: real, positive: bool)
    requires 0 <= q <= l.vol
    ensures ReleasedAsWritten([l], q, price, positive, 0.0, false) == Consume([l], q, price, positive).released
  {
    assert Held([l]) == l.vol + Held([]);
    if q == l.vol {
      assert [l][1..] == [];
    }
  }

  /** Two lots of one unit, margin 10, reference settlement price 100, closed
      long at 110: each lot's settlement profit is 10, so the loop should hand
      back 40, but as written it hands back 50. */
  lemma RunningTotalPaysTwice()
    ensures var l := Lot(100.0, 100.0, 10.0, None, None, None, None, 1, false);
      && ReleasedAsWritten([l, l], 2, 110.0, true, 0.0, false) == 50.0
      && Consume([l, l], 2, 110.0, true).released == 40.0
  {
    var l := Lot(100.0, 100.0, 10.0, None, None, None, None, 1, false);
    assert Gain(110.0, 100.0, 1, true) == 10.0 by { GainIsProduct(110.0, 100.0, 1, true); }
    assert [l, l][1..] == [l] && [l][1..] == [];
    assert Held([l]) == 1 + Held([]);
    assert Held([l, l]) == 1 + Held([l]);
    assert ReleasedAsWritten([l], 1, 110.0, true, 10.0, false) == 10.0 + 20.0 + 0.0;
    assert Consume([l], 1, 110.0, true).released == 10.0 + 10.0 + 0.0;
  }

  /** Two lots of one unit, margin 10, reference settlement price 100: closing
      one unit long at 110 should hand back 20, but the loop goes on to the
      second lot with nothing left to close and hands back 30. */
  lemma BoundaryPaysAgain()
    ensures var l := Lot(100.0, 100.0, 10.0, None, None, None, None, 1, false);
      && ReleasedAsWritten([l, l], 1, 110.0, true, 0.0, false) == 30.0
      && Consume([l, l], 1, 110.0, true).released == 20.0
  {
    var l := Lot(100.0, 100.0, 10.0, None, None, None, None, 1, false);
    assert Gain(110.0, 100.0, 1, true) == 10.0 by { GainIsProduct(110.0, 100.0, 1, true); }
    assert Gain(110.0, 100.0, 0, true) == 0.0;
    assert [l, l][1..] == [l];
    assert Held([l]) == 1 + Held([]);
    assert Held([l, l]) == 1 + Held([l]);
    assert ReleasedAsWritten([l], 0, 110.0, true, 10.0, false) == 10.0 * (0.0 / 1.0) + 10.0;
    assert Consume([l], 0, 110.0, true).released == 0.0;
  }

  /** `close_option`'s partial branch as written releases the cut lot's whole
      margin while the lot keeps its remaining share: the margin paid out plus
      the margin left exceeds the margin held plus the settlement profit by
      exactly the share left, which the corrected close conserves. */
  lemma WholeMarginOverpays(l: Lot, q: int, price: real, positive: bool)
    requires 0 < q < l.vol
    ensures var f := Consume([l], q, price, positive);
      var w := ReleasedAsWritten([l], q, price, positive, 0.0, true);
      && w + Margin(f.rest) == Margin([l]) + f.settled + Margin(f.rest)
      && f.released + Margin(f.rest) == Margin([l]) + f.settled
      && (l.margin > 0.0 ==> Margin(f.rest) > 0.0)
  {
    assert Held([l]) == l.vol + Held([]);
    var f := Consume([l], q, price, positive);
    assert f.rest == [Shrink(l, q)] + [l][1..];
    assert [l][1..] == [];
    assert Margin(f.rest) == Shrink(l, q).margin + Margin([]);
    assert Margin([l]) == l.margin + Margin([]);
    ConsumeMargin([l], q, price, positive);
    var share := (q as real) / (l.vol as real);
    assert share < 1.0;
    if l.margin > 0.0 {
      assert l.margin * share < l.margin * 1.0;
    }
  }

  /** One lot of 10 units with margin 100, 4 closed at its reference price: the
      as-written branch hands back all 100 while 60 stays on the lot; the
      corrected close hands back 40. */
  lemma WholeMarginExample()
    ensures var l := Lot(50.0, 50.0, 100.0, None, None, None, None, 10, false);
      && ReleasedAsWritten([l], 4, 50.0, false, 0.0, true) == 100.0
      && Consume([l], 4, 50.0, false).rest[0].margin == 60.0
      && Consume([l], 4, 50.0, false).released == 40.0
  {
    var l := Lot(50.0, 50.0, 100.0, None, None, None, None, 10, false);
    assert Held([l]) == 10 + Held([]);
    assert Gain(50.0, 50.0, 4, false) == 0.0 by { GainIsProduct(50.0, 50.0, 4, false); }
  }

  // ------------------------------------------- close_option's source book

  /** `close_option` as written: it always reads the *bought* book of the
      right (`buycall_position` / `buyput_position`), whatever the leg, and
      writes what is left into the book of the leg.  The book copy is shallow,
      so a partial close also shortens the bought book's list.  The fill
      itself is the corrected one, so that only the choice of book differs. */
  function CloseOptionAsWritten(L: Ledger, today: Date, right: Right, leg: Leg, c: Instrument, vol: Volume,
                                price: real, reason: Option<string>): (r: Result<Ledger>)
    requires L.Valid()
  {
    var src := L.books[OptionBook(right, Buy)];
    if src.lots == map[] then Ok(L)
    else if c !in src.lots then Err(MissingPosition(c))
    else
      var lots := src.lots[c];
      var q := Min(Held(lots), vol);
      var f := Consume(lots, q, price, leg == Buy);
      var written := Store(src, c, f.rest);
      var bought := if f.rest == [] then src else written;
      var L' := BookFill(L, today, OptionBook(right, Buy), c, price, reason, q, f);
      if leg == Buy then Ok(L')
      else Ok(L'.(books := L'.books[OptionBook(right, Buy) := bought][OptionBook(right, Sell) := written]))
  }

  /** On the bought leg the source's reading is the right one: it is the
      corrected close of the bought book. */
  lemma BoughtLegAgrees(L: Ledger, today: Date, right: Right, c: Instrument, vol: Volume, price: real,
                        reason: Option<string>)
    requires L.Valid()
    ensures CloseOptionAsWritten(L, today, right, Buy, c, vol, price, reason) ==
            Close(L, today, OptionBook(right, Buy), c, vol, price, reason)
  {
    var id := OptionBook(right, Buy);
    var src := L.books[id];
    if src.lots != map[] && c in src.lots {
      var lots := src.lots[c];
      var q := Min(Held(lots), vol);
      var f := Consume(lots, q, price, true);
      var L' := BookFill(L, today, id, c, price, reason, q, f);
      assert CloseHeld(L, today, id, c, vol, price, reason) == L';
    }
  }

  /** Closing a sold option while no bought option of that right is held does
      nothing as written (the emptiness guard looks at the bought book), while
      the corrected close takes units out of the sold book. */
  lemma SoldLegIgnored(L: Ledger, today: Date, right: Right, c: Instrument, vol: Volume, price: real,
                       reason: Option<string>)
    requires L.Valid()
    requires L.books[OptionBook(right, Buy)].lots == map[]
    requires c in L.books[OptionBook(right, Sell)].lots
    ensures CloseOptionAsWritten(L, today, right, Sell, c, vol, price, reason) == Ok(L)
    ensures var r := Close(L, today, OptionBook(right, Sell), c, vol, price, reason);
      r.Ok? && HeldIn(r.value.books[OptionBook(right, Sell)], c) < HeldIn(L.books[OptionBook(right, Sell)], c)
  {
    var id := OptionBook(right, Sell);
    assert L.books[id].lots != map[] by { assert c in L.books[id].lots; }
    CloseVolume(L, today, id, c, vol, price, reason);
  }

  // ------------------------------------------------- an option's re-open

  /** An entry of an option's list as written: a lot, or (after a re-open) a
      list holding one lot. */
  datatype Entry = Plain(lot: Lot) | Wrapped(inner: seq<Lot>)

  /** `execute_option` as written: the first open of an option creates its
      list, a re-open appends `[{...}]`, a one-element list, rather than the lot. */
  function OpenAsWritten(pos: map<Instrument, seq<Entry>>, c: Instrument, lot: Lot): (r: map<Instrument, seq<Entry>>)
    ensures r.Keys == pos.Keys + {c}
    ensures c in pos ==> r[c] == pos[c] + [Wrapped([lot])]
    ensures c !in pos ==> r[c] == [Plain(lot)]
    ensures forall d :: d in pos && d != c ==> r[d] == pos[d]
  {
    if c in pos then pos[c := pos[c] + [Wrapped([lot])]] else pos[c := [Plain(lot)]]
  }

  /** A lot list in the as-written representation. */
  function Lift(lots: seq<Lot>): (es: seq<Entry>)
    ensures |es| == |lots|
    ensures forall k :: 0 <= k < |lots| ==> es[k] == Plain(lots[k])
  {
    if lots == [] then [] else [Plain(lots[0])] + Lift(lots[1..])
  }

  function LiftAll(m: map<Instrument, seq<Lot>>): map<Instrument, seq<Entry>> {
    map d | d in m :: Lift(m[d])
  }

  /** `sum([i['vol'] for i in position[option]])`, the first thing every close,
      monitor and mark does with an option's list: None where indexing a list
      entry by 'vol' raises. */
  function ReadHeld(es: seq<Entry>): (r: Option<int>)
    ensures r.None? <==> exists k :: 0 <= k < |es| && es[k].Wrapped?
  {
    if es == [] then Some(0)
    else
      var rest := ReadHeld(es[1..]);
      assert forall k :: 0 <= k < |es[1..]| ==> es[1..][k] == es[k + 1];
      assert es[0].Wrapped? ==> exists k :: 0 <= k < |es| && es[k].Wrapped? by {
        if es[0].Wrapped? { assert 0 < |es| && es[0].Wrapped?; }
      }
      assert (exists k :: 0 <= k < |es[1..]| && es[1..][k].Wrapped?) ==> exists k :: 0 <= k < |es| && es[k].Wrapped?;
      match es[0]
      case Wrapped(_) => None
      case Plain(l) => if rest.None? then None else Some(l.vol + rest.value)
  }

  /** Read back from a list of plain entries, the held volume is `Held`. */
  lemma {:induction false} LiftReads(lots: seq<Lot>)
    ensures ReadHeld(Lift(lots)) == Some(Held(lots))
  {
    if lots != [] {
      LiftReads(lots[1..]);
      assert Lift(lots)[1..] == Lift(lots[1..]);
    }
  }

  /** A first open agrees with the corrected `Append`. */
  lemma FirstOpenAgrees(b: Book, c: Instrument, lot: Lot)
    requires b.Valid() && c !in b.lots
    ensures OpenAsWritten(LiftAll(b.lots), c, lot) == LiftAll(Append(b, c, lot).lots)
  {
    assert Lift([lot]) == [Plain(lot)];
  }

  /** A re-open of a held option leaves a list whose held volume can no longer
      be read, so the next close, monitor pass or daily mark of that option
      raises. */
  lemma ReopenBreaksReads(b: Book, c: Instrument, lot: Lot)
    requires b.Valid() && c in b.lots
    ensures ReadHeld(OpenAsWritten(LiftAll(b.lots), c, lot)[c]) == None
  {
    var m := LiftAll(b.lots);
    assert c in m;
    var es := m[c] + [Wrapped([lot])];
    assert OpenAsWritten(m, c, lot)[c] == es;
    assert es[|es| - 1].Wrapped?;
  }

  /** The corrected re-open reads back the held volume grown by the lot's units. */
  lemma ReopenReads(b: Book, c: Instrument, lot: Lot)
    requires b.Valid() && c in b.lots
    ensures ReadHeld(LiftAll(Append(b, c, lot).lots)[c]) == Some(HeldIn(b, c) + lot.vol)
  {
    var lots := Append(b, c, lot).lots[c];
    AppendHeld(b, c, lot);
    LiftReads(lots);
    assert LiftAll(Append(b, c, lot).lots)[c] == Lift(lots);
  }
}

=== FILE: basic.dfy ===
/** Two small dictionary helpers of the engine's utility module:
    `element_counter` (occurrence counts of a list or of a list of lists) and
    `reverse_Dict` (a dictionary read backwards, value to key).  A Python
    dictionary is modelled with its insertion order, since both helpers
    return dictionaries whose key order follows their input. */
module Basic {

  /** A dictionary: its keys in insertion order and the value of each key. */
  datatype Dict<K(!new), V> = Dict(keys: seq<K>, at: map<K, V>) {
    ghost predicate Valid() {
      && (forall i, j :: 0 <= i < j < |keys| ==> keys[i] != keys[j])
      && (forall k :: k in at <==> k in keys)
    }
  }

  /** `d[k] = v`: a new key goes to the end; an existing key keeps its place. */
  function Put<K(!new), V>(d: Dict<K, V>, k: K, v: V): (r: Dict<K, V>)
    ensures r.at == d.at[k := v]
    ensures r.keys == if k in d.at then d.keys else d.keys + [k]
  {
    if k in d.at then Dict(d.keys, d.at[k := v]) else Dict(d.keys + [k], d.at[k := v])
  }

  /** Every key listed once, exactly the keys of the map: `Put` keeps it so. */
  lemma PutValid<K(!new), V>(d: Dict<K, V>, k: K, v: V)
    requires d.Valid()
    ensures Put(d, k, v).Valid()
  {
  }

  // ---------------------------------------------------------- element_counter

  /** `counter.get(x, 0)`. */
  function Get<T(!new)>(m: map<T, int>, x: T): int {
    if x in m then m[x] else 0
  }

  /** `Counter(s[..n])`: the elements are counted in list order, each new
      element entering the dictionary at its first occurrence. */
  function TallyUpTo<T(!new)>(s: seq<T>, n: nat): (d: Dict<T, int>)
    requires n <= |s|
  {
    if n == 0 then Dict([], map[])
    else
      var d := TallyUpTo(s, n - 1);
      var x := s[n - 1];
      Put(d, x, Get(d.at, x) + 1)
  }

  /** `Counter(s)`. */
  function Tally<T(!new)>(s: seq<T>): Dict<T, int> {
    TallyUpTo(s, |s|)
  }

  lemma {:induction false} TallyValid<T(!new)>(s: seq<T>, n: nat)
    requires n <= |s|
    ensures TallyUpTo(s, n).Valid()
  {
    if n > 0 {
      var d := TallyUpTo(s, n - 1);
      TallyValid(s, n - 1);
      PutValid(d, s[n - 1], Get(d.at, s[n - 1]) + 1);
    }
  }

  /** One more element: it is counted once more, and enters at the end if it
      is new. */
  lemma TallyStep<T(!new)>(s: seq<T>, n: nat)
    requires 0 < n <= |s|
    ensures var d, x := TallyUpTo(s, n - 1), s[n - 1];
      && TallyUpTo(s, n).keys == (if x in d.at then d.keys else d.keys + [x])
      && TallyUpTo(s, n).at == d.at[x := Get(d.at, x) + 1]
  {
  }

  lemma {:induction false} TallyCountsUpTo<T(!new)>(s: seq<T>, n: nat)
    requires n <= |s|
    ensures forall x :: x in TallyUpTo(s, n).at <==> x in s[..n]
    ensures forall x :: x in TallyUpTo(s, n).at ==> TallyUpTo(s, n).at[x] == multiset(s[..n])[x]
  {
    if n > 0 {
      var p, x := s[..n - 1], s[n - 1];
      TallyCountsUpTo(s, n - 1);
      TallyStep(s, n);
      assert s[..n] == p + [x];
      assert multiset(s[..n]) == multiset(p) + multiset{x};
      forall y ensures y in s[..n] <==> y in p || y == x {
        assert y in s[..n] <==> y in multiset(s[..n]);
      }
    }
  }

  /** The keys of a tally are exactly the elements of the list, and each
      count is the element's number of occurrences. */
  lemma TallyCounts<T(!new)>(s: seq<T>)
    ensures forall x :: x in Tally(s).at <==> x in s
    ensures forall x :: x in Tally(s).at ==> Tally(s).at[x] == multiset(s)[x]
  {
    TallyCountsUpTo(s, |s|);
    assert s[..|s|] == s;
  }

  /** Sum of the values of `at` over the first `n` of `keys`. */
  function SumOver<T(!new)>(keys: seq<T>, at: map<T, int>, n: nat): int
    requires n <= |keys|
    requires forall i :: 0 <= i < n ==> keys[i] in at
  {
    if n == 0 then 0 else SumOver(keys, at, n - 1) + at[keys[n - 1]]
  }

  /** Sum of the values of `at` over `keys`. */
  function Total<T(!new)>(keys: seq<T>, at: map<T, int>): int
    requires forall i :: 0 <= i < |keys| ==> keys[i] in at
  {
    SumOver(keys, at, |keys|)
  }

  lemma {:induction false} SumOverFrame<T(!new)>(keys: seq<T>, at: map<T, int>, n: nat, x: T, v: int)
    requires n <= |keys| && forall i :: 0 <= i < n ==> keys[i] in at && keys[i] != x
    ensures SumOver(keys, at[x := v], n) == SumOver(keys, at, n)
  {
    if n > 0 {
      SumOverFrame(keys, at, n - 1, x, v);
    }
  }

  lemma {:induction false} SumOverBump<T(!new)>(keys: seq<T>, at: map<T, int>, n: nat, j: nat)
    requires n <= |keys| && forall i :: 0 <= i < n ==> keys[i] in at
    requires forall i, k :: 0 <= i < k < n ==> keys[i] != keys[k]
    requires j < n
    ensures SumOver(keys, at[keys[j] := Get(at, keys[j]) + 1], n) == SumOver(keys, at, n) + 1
  {
    var x := keys[j];
    if j == n - 1 {
      SumOverFrame(keys, at, n - 1, x, Get(at, x) + 1);
    } else {
      SumOverBump(keys, at, n - 1, j);
    }
  }

  lemma {:induction false} SumOverAppend<T(!new)>(keys: seq<T>, x: T, at: map<T, int>, n: nat)
    requires n <= |keys| && forall i :: 0 <= i < n ==> keys[i] in at
    ensures SumOver(keys + [x], at, n) == SumOver(keys, at, n)
  {
    if n > 0 {
      SumOverAppend(keys, x, at, n - 1);
    }
  }

  /** Counting one more occurrence adds one to the total. */
  lemma PutTotal<T(!new)>(d: Dict<T, int>, x: T)
    requires d.Valid()
    ensures var d' := Put(d, x, Get(d.at, x) + 1);
      d'.Valid() && Total(d'.keys, d'.at) == Total(d.keys, d.at) + 1
  {
    PutValid(d, x, Get(d.at, x) + 1);
    var at' := d.at[x := Get(d.at, x) + 1];
    if x in d.at {
      var j :| 0 <= j < |d.keys| && d.keys[j] == x;
      SumOverBump(d.keys, d.at, |d.keys|, j);
    } else {
      SumOverFrame(d.keys, d.at, |d.keys|, x, Get(d.at, x) + 1);
      SumOverAppend(d.keys, x, at', |d.keys|);
    }
  }

  lemma {:induction false} TallyTotalUpTo<T(!new)>(s: seq<T>, n: nat)
    requires n <= |s|
    ensures TallyUpTo(s, n).Valid() && Total(TallyUpTo(s, n).keys, TallyUpTo(s, n).at) == n
  {
    if n > 0 {
      var d := TallyUpTo(s, n - 1);
      TallyTotalUpTo(s, n - 1);
      PutTotal(d, s[n - 1]);
      assert TallyUpTo(s, n) == Put(d, s[n - 1], Get(d.at, s[n - 1]) + 1);
    }
  }

  /** The counts of a tally add up to the length of the list. */
  lemma TallyTotal<T(!new)>(s: seq<T>)
    ensures Tally(s).Valid() && Total(Tally(s).keys, Tally(s).at) == |s|
  {
    TallyTotalUpTo(s, |s|);
  }

  /** Position of the first occurrence of `x` in `s`. */
  function FirstIndex<T(==, !new)>(s: seq<T>, x: T): (i: nat)
    requires x in s
    ensures i < |s| && s[i] == x && x !in s[..i]
  {
    if s[0] == x then 0
    else
      var i := FirstIndex(s[1..], x);
      assert s[1..][..i] == s[1..i + 1];
      1 + i
  }

  lemma {:induction false} FirstIndexPrefix<T(!new)>(p: seq<T>, q: seq<T>, x: T)
    requires x in p
    ensures FirstIndex(p + q, x) == FirstIndex(p, x)
  {
    var i, k := FirstIndex(p, x), FirstIndex(p + q, x);
    assert (p + q)[..i] == p[..i];
    assert (p + q)[i] == x;
  }

  /** `keys` lists elements of `s` in the order of their first occurrence. */
  ghost predicate FirstSeen<T(!new)>(s: seq<T>, keys: seq<T>) {
    forall i, j :: 0 <= i < j < |keys| ==>
      keys[i] in s && keys[j] in s && FirstIndex(s, keys[i]) < FirstIndex(s, keys[j])
  }

  /** Extending the list keeps the order of the keys seen so far, and a new
      element comes after all of them. */
  lemma FirstSeenExtend<T(!new)>(p: seq<T>, x: T, keys: seq<T>)
    requires FirstSeen(p, keys) && forall k :: k in keys ==> k in p
    ensures FirstSeen(p + [x], keys)
    ensures x !in p ==> FirstSeen(p + [x], keys + [x])
  {
    var s := p + [x];
    forall y | y in p ensures y in s && FirstIndex(s, y) == FirstIndex(p, y) {
      FirstIndexPrefix(p, [x], y);
    }
    if x !in p {
      var keys' := keys + [x];
      assert FirstIndex(s, x) == |p|;
      forall i, j | 0 <= i < j < |keys'|
        ensures keys'[i] in s && keys'[j] in s && FirstIndex(s, keys'[i]) < FirstIndex(s, keys'[j])
      {
        assert keys'[i] == keys[i] && keys[i] in p;
        if j < |keys| {
          assert keys'[j] == keys[j];
        }
      }
    }
  }

  lemma {:induction false} TallyOrderUpTo<T(!new)>(s: seq<T>, n: nat)
    requires n <= |s|
    ensures FirstSeen(s[..n], TallyUpTo(s, n).keys)
  {
    if n > 0 {
      var p, x := s[..n - 1], s[n - 1];
      var d := TallyUpTo(s, n - 1);
      TallyStep(s, n);
      TallyValid(s, n - 1);
      TallyOrderUpTo(s, n - 1);
      TallyCountsUpTo(s, n - 1);
      assert s[..n] == p + [x];
      FirstSeenExtend(p, x, d.keys);
    }
  }

  /** The keys of a tally come in the order of their first occurrence in the
      list. */
  lemma TallyOrder<T(!new)>(s: seq<T>)
    ensures FirstSeen(s, Tally(s).keys)
  {
    TallyOrderUpTo(s, |s|);
    assert s[..|s|] == s;
  }

  /** An element of `element_counter`'s argument: a hashable value or a list
      of hashable values. */
  datatype Item<T> = Atom(value: T) | Sub(items: seq<T>)

  /** `element_list`: a list of items, or some value that is not a list. */
  datatype Arg<T> = NotList | List(items: seq<Item<T>>)

  /** `element_counter`'s outcome: a dictionary of counts; `None` for an
      argument that is not a list; the `TypeError` that `Counter` raises on a
      list that mixes lists and values (a list is not hashable). */
  datatype Counted<T(!new)> = Counts(dict: Dict<T, int>) | NoneValue | Unhashable

  /** The values an item contributes: itself, or the members of its list. */
  function Elements<T(!new)>(items: seq<Item<T>>): (s: seq<T>)
    ensures (forall i :: 0 <= i < |items| ==> items[i].Atom?) ==> |s| == |items|
  {
    if items == [] then []
    else
      var head := match items[0] case Atom(v) => [v] case Sub(xs) => xs;
      head + Elements(items[1..])
  }

  function ElementCounter<T(!new)>(arg: Arg<T>): (r: Counted<T>)
    ensures r.NoneValue? <==> arg.NotList?
    ensures r.Unhashable? <==>
      && arg.List?
      && (exists i :: 0 <= i < |arg.items| && arg.items[i].Sub?)
      && (exists i :: 0 <= i < |arg.items| && arg.items[i].Atom?)
    ensures r.Counts? ==> r.dict == Tally(Elements(arg.items))
  {
    match arg
    case NotList => NoneValue
    case List(items) =>
      if forall i :: 0 <= i < |items| ==> items[i].Sub? then
        Counts(Tally(Elements(items)))
      else if exists i :: 0 <= i < |items| && items[i].Sub? then
        Unhashable
      else
        Counts(Tally(Elements(items)))
  }

  /** What `element_counter` returns on a list: every element of the list, or
      of its sublists, is a key; each count is its number of occurrences; the
      counts add up to the number of elements; the keys follow the order of
      first occurrence.  The empty list gives the empty dictionary. */
  lemma ElementCounterCounts<T(!new)>(items: seq<Item<T>>)
    requires (forall i :: 0 <= i < |items| ==> items[i].Atom?) ||
             (forall i :: 0 <= i < |items| ==> items[i].Sub?)
    ensures var r := ElementCounter(List(items));
      var s := Elements(items);
      && r.Counts?
      && (forall x :: x in r.dict.at <==> x in s)
      && (forall x :: x in r.dict.at ==> r.dict.at[x] == multiset(s)[x])
      && r.dict.Valid()
      && Total(r.dict.keys, r.dict.at) == |s|
      && FirstSeen(s, r.dict.keys)
      && (items == [] ==> r.dict == Dict([], map[]))
  {
    var s := Elements(items);
    var r := ElementCounter(List(items));
    assert r == Counts(Tally(s));
    TallyCounts(s);
    TallyTotal(s);
    TallyOrder(s);
  }

  // ------------------------------------------------------------- reverse_Dict

  /** `dict(zip(d.values(), d.keys()))` over the first `n` entries of `d`. */
  function ReversePrefix<K(!new), V(!new)>(d: Dict<K, V>, n: nat): (r: Dict<V, K>)
    requires d.Valid() && n <= |d.keys|
  {
    if n == 0 then Dict([], map[])
    else Put(ReversePrefix(d, n - 1), d.at[d.keys[n - 1]], d.keys[n - 1])
  }

  function ReverseDict<K(!new), V(!new)>(d: Dict<K, V>): (r: Dict<V, K>)
    requires d.Valid()
    ensures r.Valid()
  {
    ReversePrefixValid(d, |d.keys|);
    ReversePrefix(d, |d.keys|)
  }

  lemma {:induction false} ReversePrefixValid<K(!new), V(!new)>(d: Dict<K, V>, n: nat)
    requires d.Valid() && n <= |d.keys|
    ensures ReversePrefix(d, n).Valid()
  {
    if n > 0 {
      ReversePrefixValid(d, n - 1);
      PutValid(ReversePrefix(d, n - 1), d.at[d.keys[n - 1]], d.keys[n - 1]);
    }
  }

  /** Over the first `n` entries the keys of the reversed dictionary are the
      values. */
  lemma {:induction false} ReversePrefixKeys<K(!new), V(!new)>(d: Dict<K, V>, n: nat)
    requires d.Valid() && n <= |d.keys|
    ensures forall v :: v in ReversePrefix(d, n).at <==> exists i :: 0 <= i < n && d.at[d.keys[i]] == v
  {
    if n > 0 {
      ReversePrefixKeys(d, n - 1);
      var r0, r := ReversePrefix(d, n - 1), ReversePrefix(d, n);
      var w := d.at[d.keys[n - 1]];
      assert r == Put(r0, w, d.keys[n - 1]);
      assert r.at == r0.at[w := d.keys[n - 1]];
      forall v | (exists i :: 0 <= i < n && d.at[d.keys[i]] == v) ensures v in r.at {
        var i :| 0 <= i < n && d.at[d.keys[i]] == v;
        if i < n - 1 {
          assert v in r0.at;
        }
      }
    }
  }

  /** Key `d.keys[i]` is the last of the first `n` keys to carry value `v`. */
  ghost predicate LastCarrier<K(!new), V(!new)>(d: Dict<K, V>, n: nat, v: V, i: int)
    requires d.Valid() && n <= |d.keys|
  {
    0 <= i < n && d.at[d.keys[i]] == v && forall j :: i < j < n ==> d.at[d.keys[j]] != v
  }

  /** Over the first `n` entries each value maps to the last key carrying it. */
  lemma {:induction false} ReversePrefixLastWins<K(!new), V(!new)>(d: Dict<K, V>, n: nat)
    requires d.Valid() && n <= |d.keys|
    ensures forall v :: v in ReversePrefix(d, n).at ==>
      exists i :: LastCarrier(d, n, v, i) && d.keys[i] == ReversePrefix(d, n).at[v]
  {
    if n > 0 {
      ReversePrefixLastWins(d, n - 1);
      var r0, r := ReversePrefix(d, n - 1), ReversePrefix(d, n);
      var k := d.keys[n - 1];
      var w := d.at[k];
      assert r == Put(r0, w, k);
      assert r.at == r0.at[w := k];
      forall v | v in r.at ensures exists i :: LastCarrier(d, n, v, i) && d.keys[i] == r.at[v] {
        if v == w {
          assert LastCarrier(d, n, v, n - 1) && d.keys[n - 1] == r.at[v];
        } else {
          assert v in r0.at && r.at[v] == r0.at[v];
          var i :| LastCarrier(d, n - 1, v, i) && d.keys[i] == r0.at[v];
          assert LastCarrier(d, n, v, i);
        }
      }
    }
  }

  /** `reverse_Dict`: its keys are the values of `d`, and each maps to the key
      that comes last, in insertion order, among those carrying it. */
  lemma ReverseLastWins<K(!new), V(!new)>(d: Dict<K, V>)
    requires d.Valid()
    ensures var r := ReverseDict(d);
      && (forall v :: v in r.at <==> exists i :: 0 <= i < |d.keys| && d.at[d.keys[i]] == v)
      && (forall v :: v in r.at ==> exists i :: LastCarrier(d, |d.keys|, v, i) && d.keys[i] == r.at[v])
  {
    assert ReverseDict(d) == ReversePrefix(d, |d.keys|);
    ReversePrefixKeys(d, |d.keys|);
    ReversePrefixLastWins(d, |d.keys|);
  }

  /** No two keys carry the same value. */
  ghost predicate Injective<K(!new), V(!new)>(d: Dict<K, V>)
    requires d.Valid()
  {
    forall i, j :: 0 <= i < j < |d.keys| ==> d.at[d.keys[i]] != d.at[d.keys[j]]
  }

  /** For an injective dictionary the reversal lists the values in the order
      of their keys and maps each back to its key. */
  lemma {:induction false} ReversePrefixInjective<K(!new), V(!new)>(d: Dict<K, V>, n: nat)
    requires d.Valid() && Injective(d) && n <= |d.keys|
    ensures var r := ReversePrefix(d, n);
      && r.Valid()
      && |r.keys| == n
      && (forall i :: 0 <= i < n ==> r.keys[i] == d.at[d.keys[i]] && r.at[r.keys[i]] == d.keys[i])
  {
    ReversePrefixValid(d, n);
    if n > 0 {
      ReversePrefixInjective(d, n - 1);
      var r0, r := ReversePrefix(d, n - 1), ReversePrefix(d, n);
      var k := d.keys[n - 1];
      var w := d.at[k];
      assert r == Put(r0, w, k);
      assert w !in r0.at by {
        forall i | 0 <= i < n - 1 ensures r0.keys[i] != w {
          assert d.at[d.keys[i]] != d.at[d.keys[n - 1]];
        }
      }
      assert r.keys == r0.keys + [w] && r.at == r0.at[w := k];
      forall i | 0 <= i < n ensures r.keys[i] == d.at[d.keys[i]] && r.at[r.keys[i]] == d.keys[i] {
        if i < n - 1 {
          assert r.keys[i] == r0.keys[i] && r0.keys[i] != w;
        }
      }
    }
  }

  lemma ReverseInjective<K(!new), V(!new)>(d: Dict<K, V>)
    requires d.Valid() && Injective(d)
    ensures var r := ReverseDict(d);
      && r.Valid()
      && |r.keys| == |d.keys|
      && (forall i :: 0 <= i < |d.keys| ==> r.keys[i] == d.at[d.keys[i]] && r.at[r.keys[i]] == d.keys[i])
      && Injective(r)
  {
    var r := ReverseDict(d);
    assert r == ReversePrefix(d, |d.keys|);
    ReversePrefixInjective(d, |d.keys|);
    forall i, j | 0 <= i < j < |r.keys| ensures r.at[r.keys[i]] != r.at[r.keys[j]] {
      assert r.at[r.keys[i]] == d.keys[i] && r.at[r.keys[j]] == d.keys[j];
    }
  }

  /** Reversing an injective dictionary twice gives it back, key order included. */
  lemma ReverseTwice<K(!new), V(!new)>(d: Dict<K, V>)
    requires d.Valid() && Injective(d)
    ensures ReverseDict(ReverseDict(d)) == d
  {
    var r := ReverseDict(d);
    ReverseInjective(d);
    ReverseInjective(r);
    var rr := ReverseDict(r);
    assert rr.keys == d.keys;
    forall k | k in d.at ensures k in rr.at && rr.at[k] == d.at[k] {
      var i :| 0 <= i < |d.keys| && d.keys[i] == k;
      assert rr.keys[i] == k;
    }
    assert rr.at == d.at;
  }
}

=== FILE: books.dfy ===
/** A position book: for every instrument held, its lots in entry order (oldest
    first), plus the order in which the instruments were first opened (the
    insertion order of the source's dictionary, which fixes the order of daily
    passes over the book). */
module Books {
  import opened Types

  datatype Book = Book(lots: map<Instrument, seq<Lot>>, order: seq<Instrument>) {

    /** Every instrument is listed once, exactly the held ones are listed, and no
        instrument keeps an empty lot list. */
    ghost predicate Valid() {
      && Distinct(order)
      && (forall c :: c in order <==> c in lots)
      && (forall c :: c in lots ==> lots[c] != [])
    }
  }

  ghost predicate Distinct(s: seq<Instrument>) {
    forall i, j :: 0 <= i < j < |s| ==> s[i] != s[j]
  }

  const EMPTY: Book := Book(map[], [])

  /** Total volume of a lot list (`sum(current_vol_list)`). */
  function Held(lots: seq<Lot>): (n: int)
    ensures n >= 0
    ensures lots != [] ==> n >= lots[0].vol
  {
    if lots == [] then 0 else lots[0].vol + Held(lots[1..])
  }

  /** Total margin attributed to a lot list. */
  function Margin(lots: seq<Lot>): real {
    if lots == [] then 0.0 else lots[0].margin + Margin(lots[1..])
  }

  lemma {:induction false} HeldAppend(a: seq<Lot>, b: seq<Lot>)
    ensures Held(a + b) == Held(a) + Held(b)
  {
    if a != [] {
      assert (a + b)[1..] == a[1..] + b;
      HeldAppend(a[1..], b);
    } else {
      assert a + b == b;
    }
  }

  function Repeat(x: real, n: nat): (r: seq<real>)
    ensures |r| == n
    ensures forall k :: 0 <= k < n ==> r[k] == x
  {
    if n == 0 then [] else [x] + Repeat(x, n - 1)
  }

  function Sum(s: seq<real>): real {
    if s == [] then 0.0 else s[0] + Sum(s[1..])
  }

  lemma {:induction false} SumAppend(a: seq<real>, b: seq<real>)
    ensures Sum(a + b) == Sum(a) + Sum(b)
  {
    if a != [] {
      assert (a + b)[1..] == a[1..] + b;
      SumAppend(a[1..], b);
    } else {
      assert a + b == b;
    }
  }

  /** The value of `n` units at price `p`, added up unit by unit. */
  function Amount(n: int, p: real): real
    decreases n
  {
    if n <= 0 then 0.0 else p + Amount(n - 1, p)
  }

  lemma {:induction false} AmountIsProduct(n: nat, p: real)
    ensures Amount(n, p) == (n as real) * p
  {
    if n > 0 {
      AmountIsProduct(n - 1, p);
      assert ((n - 1) as real) * p + p == (n as real) * p;
    }
  }

  lemma {:induction false} AmountAdd(a: nat, b: nat, p: real)
    ensures Amount(a + b, p) == Amount(a, p) + Amount(b, p)
  {
    if a > 0 {
      AmountAdd(a - 1, b, p);
    }
  }

  lemma {:induction false} SumRepeat(x: real, n: nat)
    ensures Sum(Repeat(x, n)) == Amount(n, x)
  {
    if n > 0 {
      assert Repeat(x, n)[1..] == Repeat(x, n - 1);
      SumRepeat(x, n - 1);
    }
  }

  /** Splitting a sum of the first `q` units at a block of `n` equal units. */
  lemma SumSplit(head: seq<real>, tail: seq<real>, q: int, x: real, n: nat)
    requires 0 <= q <= n + |tail|
    requires head == Repeat(x, n)
    ensures Sum((head + tail)[..q]) ==
      if q >= n then Amount(n, x) + Sum(tail[..q - n]) else Amount(q, x)
  {
    if q >= n {
      assert (head + tail)[..q] == head + tail[..q - n];
      SumAppend(head, tail[..q - n]);
      SumRepeat(x, n);
    } else {
      assert (head + tail)[..q] == Repeat(x, q);
      SumRepeat(x, q);
    }
  }

  /** Dropping the first `q` units from a block of `n` equal units followed by more. */
  lemma DropSplit(head: seq<real>, tail: seq<real>, q: int, x: real, n: nat)
    requires 0 <= q <= n + |tail|
    requires head == Repeat(x, n)
    ensures (head + tail)[q..] == if q >= n then tail[q - n..] else Repeat(x, n - q) + tail
  {
    if q < n {
      assert head[q..] == Repeat(x, n - q);
      assert (head + tail)[q..] == head[q..] + tail;
    }
  }

  /** Which price of a lot a per-unit view reads. */
  datatype Field = Entry | Reference

  function FieldOf(l: Lot, f: Field): real {
    match f
    case Entry => l.price
    case Reference => l.preSettle
  }

  /** The held units one by one, oldest first, each tagged with the entry price
      (or the reference settlement price) of the lot it belongs to. */
  function Units(lots: seq<Lot>, f: Field): (u: seq<real>)
    ensures |u| == Held(lots)
  {
    if lots == [] then [] else Repeat(FieldOf(lots[0], f), lots[0].vol) + Units(lots[1..], f)
  }

  lemma {:induction false} UnitsAppend(a: seq<Lot>, b: seq<Lot>, f: Field)
    ensures Units(a + b, f) == Units(a, f) + Units(b, f)
  {
    if a != [] {
      assert (a + b)[1..] == a[1..] + b;
      UnitsAppend(a[1..], b, f);
    } else {
      assert a + b == b;
    }
  }

  /** Opening: the new lot goes to the end of the instrument's list; a first lot
      creates the instrument's entry at the end of the book's order. */
  function Append(b: Book, c: Instrument, lot: Lot): (r: Book)
    requires b.Valid()
    ensures r.Valid()
    ensures r.lots.Keys == b.lots.Keys + {c}
    ensures r.lots[c] == (if c in b.lots then b.lots[c] else []) + [lot]
    ensures forall d :: d in b.lots && d != c ==> r.lots[d] == b.lots[d]
  {
    if c in b.lots then Book(b.lots[c := b.lots[c] + [lot]], b.order)
    else Book(b.lots[c := [lot]], b.order + [c])
  }

  /** The book's order with `c` taken out; the others keep their order. */
  function Without(order: seq<Instrument>, c: Instrument): (r: seq<Instrument>)
    ensures forall d :: d in r <==> d in order && d != c
    ensures |r| <= |order|
    ensures Distinct(order) ==> Distinct(r)
    ensures c !in order ==> r == order
  {
    if order == [] then []
    else if order[0] == c then Without(order[1..], c)
    else
      var tail := Without(order[1..], c);
      assert Distinct(order) ==> order[0] !in order[1..];
      assert Distinct(order) ==> order[0] !in tail;
      [order[0]] + tail
  }

  /** Taking out an instrument listed once removes exactly its one place:
      what came before and what came after are kept, in order. */
  lemma {:induction false} WithoutAt(order: seq<Instrument>, c: Instrument, k: nat)
    requires k < |order| && order[k] == c && c !in order[..k] && c !in order[k + 1..]
    ensures Without(order, c) == order[..k] + order[k + 1..]
  {
    if k == 0 {
      assert order[1..] == order[k + 1..];
    } else {
      assert order[0] in order[..k];
      assert order[1..][..k - 1] == order[1..k];
      assert order[1..][k - 1 + 1..] == order[k + 1..];
      assert c !in order[1..][..k - 1] by {
        forall e | e in order[1..k] ensures e != c { assert e in order[..k]; }
      }
      WithoutAt(order[1..], c, k - 1);
      assert order[..k] == [order[0]] + order[1..k];
    }
  }

  /** Stores what is left of an instrument after a close: the remaining lots, or
      no entry at all once nothing is left (`del position[contract]`), when the
      instrument also leaves the book's order and every other instrument keeps
      its place relative to the rest. */
  function Store(b: Book, c: Instrument, rest: seq<Lot>): (r: Book)
    requires b.Valid() && c in b.lots
    ensures r.Valid()
    ensures rest == [] ==> r.lots == b.lots - {c}
    ensures rest == [] ==> forall k :: 0 <= k < |b.order| && b.order[k] == c ==>
                             r.order == b.order[..k] + b.order[k + 1..]
    ensures rest != [] ==> r.lots == b.lots[c := rest] && r.order == b.order
  {
    if rest == [] then
      assert forall k :: 0 <= k < |b.order| && b.order[k] == c ==>
               Without(b.order, c) == b.order[..k] + b.order[k + 1..] by {
        forall k | 0 <= k < |b.order| && b.order[k] == c
          ensures Without(b.order, c) == b.order[..k] + b.order[k + 1..]
        {
          assert c !in b.order[..k] by {
            forall i | 0 <= i < k ensures b.order[..k][i] != c { assert b.order[i] != b.order[k]; }
          }
          assert c !in b.order[k + 1..] by {
            var after := b.order[k + 1..];
            forall i | 0 <= i < |after| ensures after[i] != c { assert after[i] == b.order[k + 1 + i]; }
          }
          WithoutAt(b.order, c, k);
        }
      }
      Book(b.lots - {c}, Without(b.order, c))
    else Book(b.lots[c := rest], b.order)
  }

  /** Volume held in instrument `c` (0 when the book has no entry for it). */
  function HeldIn(b: Book, c: Instrument): int {
    if c in b.lots then Held(b.lots[c]) else 0
  }

  lemma AppendHeld(b: Book, c: Instrument, lot: Lot)
    requires b.Valid()
    ensures HeldIn(Append(b, c, lot), c) == HeldIn(b, c) + lot.vol
    ensures Units(Append(b, c, lot).lots[c], Entry) ==
              (if c in b.lots then Units(b.lots[c], Entry) else []) + Repeat(lot.price, lot.vol)
  {
    var old_ := if c in b.lots then b.lots[c] else [];
    HeldAppend(old_, [lot]);
    UnitsAppend(old_, [lot], Entry);
    assert Units([lot], Entry) == Repeat(lot.price, lot.vol) + Units([], Entry);
  }
}

=== FILE: counter.dfy ===
/** The order counters (`stock_counter_processing`,
    `future_counter_processing`, `option_counter_processing`,
    `close_counter`): pending orders, in submission order, are expired, filled
    against the day's bar, or left waiting. */
module Counter {
  import opened Types
  import opened Books
  import opened Positions

  /** A pending order and its unique order number. */
  datatype Ticket = Ticket(num: nat, order: Order)

  /** What a counter pass does with one order today. */
  datatype Decision = Expire | Wait | Fill(bar: Bar)

  /** An order expires once its last order date is reached (even on that
      day); otherwise it fills when its first order date has come, the
      instrument has a bar today and the limit price lies within the day's
      range. */
  function Decide(o: Order, feed: Feed, today: Date): (d: Decision)
    ensures d.Expire? <==> o.maxOrderDate <= today
    ensures d.Fill? <==>
      && today < o.maxOrderDate && o.minOrderDate <= today && (o.instrument, today) in feed
      && feed[(o.instrument, today)].low <= o.price <= feed[(o.instrument, today)].high
    ensures d.Fill? ==> d.bar == feed[(o.instrument, today)]
  {
    if o.maxOrderDate <= today then Expire
    else if today >= o.minOrderDate && (o.instrument, today) in feed
            && feed[(o.instrument, today)].low <= o.price <= feed[(o.instrument, today)].high
    then Fill(feed[(o.instrument, today)])
    else Wait
  }

  /** Executes a filled order.  A futures open takes its reference settlement
      price from today's bar; an options open takes the one carried by the
      order (rolled forward every evening); closes go to the close operation
      of the order's book. */
  function Apply(L: Ledger, o: Order, bar: Bar, today: Date): (r: Result<Ledger>)
    requires L.Valid()
    ensures r.Ok? ==> r.value.Valid()
    ensures r.Err? <==> o.state == CloseOrder && Close(L, today, o.book, o.instrument, o.vol, o.price, o.reason).Err?
  {
    match o.state
    case CloseOrder => Close(L, today, o.book, o.instrument, o.vol, o.price, o.reason)
    case OpenOrder =>
      match o.book
      case StockBook =>
        Ok(OpenStock(L, today, o.instrument, o.vol, o.price, o.minPrice, o.maxPrice, o.maxDate, o.reason))
      case FutureBook(side) =>
        Ok(OpenFuture(L, today, side, o.instrument, o.vol, o.price, bar.preSettle, o.margin,
                      o.minPrice, o.maxPrice, o.maxDate, o.reason))
      case OptionBook(right, leg) =>
        Ok(OpenOption(L, today, right, leg, o.instrument, o.vol, o.price, o.strike, o.preSettle.GetOr(0.0),
                      o.margin, o.minPrice, o.maxPrice, o.maxDate, o.reason))
  }

  /** The state after a counter pass: the ledger, the orders still pending,
      and whether the pass ran to the end or stopped on a fault. */
  datatype Step = Step(ledger: Ledger, kept: seq<Ticket>, outcome: Outcome)

  /** One counter pass over the pending orders, in order.  Expired and filled
      orders leave the counter; a fault stops the pass with the failing order
      and all later ones still pending and the ledger as it was before it. */
  function Process(L: Ledger, ts: seq<Ticket>, feed: Feed, today: Date): (s: Step)
    requires L.Valid()
    ensures s.ledger.Valid()
    decreases |ts|
  {
    if ts == [] then Step(L, [], Pass)
    else
      var t := ts[0];
      match Decide(t.order, feed, today)
      case Expire => Process(L, ts[1..], feed, today)
      case Wait =>
        var s := Process(L, ts[1..], feed, today);
        Step(s.ledger, [t] + s.kept, s.outcome)
      case Fill(bar) =>
        match Apply(L, t.order, bar, today)
        case Err(f) => Step(L, ts, Fail(f))
        case Ok(L') => Process(L', ts[1..], feed, today)
  }

  /** The orders that wait today, in order. */
  function Waiting(ts: seq<Ticket>, feed: Feed, today: Date): (r: seq<Ticket>)
    ensures |r| <= |ts|
  {
    if ts == [] then []
    else if Decide(ts[0].order, feed, today).Wait? then [ts[0]] + Waiting(ts[1..], feed, today)
    else Waiting(ts[1..], feed, today)
  }

  lemma {:induction false} WaitingMembers(ts: seq<Ticket>, feed: Feed, today: Date, t: Ticket)
    ensures t in Waiting(ts, feed, today) <==> t in ts && Decide(t.order, feed, today).Wait?
  {
    if ts != [] {
      WaitingMembers(ts[1..], feed, today, t);
      assert t in ts <==> t == ts[0] || t in ts[1..];
    }
  }

  /** A pass that runs to the end keeps exactly the orders that wait today, in
      their order: which orders leave does not depend on the ledger. */
  lemma {:induction false} ProcessKeeps(L: Ledger, ts: seq<Ticket>, feed: Feed, today: Date)
    requires L.Valid()
    ensures var s := Process(L, ts, feed, today);
      s.outcome.Pass? ==> s.kept == Waiting(ts, feed, today)
    decreases |ts|
  {
    if ts != [] {
      var t := ts[0];
      match Decide(t.order, feed, today)
      case Expire => ProcessKeeps(L, ts[1..], feed, today);
      case Wait => ProcessKeeps(L, ts[1..], feed, today);
      case Fill(bar) =>
        var r := Apply(L, t.order, bar, today);
        if r.Ok? {
          ProcessKeeps(r.value, ts[1..], feed, today);
        }
    }
  }

  /** A pass that stops on a fault keeps the waiting orders before a
      fillable one, then that order and every order after it. */
  lemma {:induction false} ProcessStops(L: Ledger, ts: seq<Ticket>, feed: Feed, today: Date)
    requires L.Valid()
    ensures var s := Process(L, ts, feed, today);
      s.outcome.Fail? ==> exists k :: 0 <= k < |ts| && Decide(ts[k].order, feed, today).Fill?
                            && s.kept == Waiting(ts[..k], feed, today) + ts[k..]
    decreases |ts|
  {
    var s := Process(L, ts, feed, today);
    if ts != [] && s.outcome.Fail? {
      var t := ts[0];
      var d := Decide(t.order, feed, today);
      if d.Fill? && Apply(L, t.order, d.bar, today).Err? {
        assert ts[..0] == [] && ts[0..] == ts;
        assert Decide(ts[0].order, feed, today).Fill? && s.kept == Waiting(ts[..0], feed, today) + ts[0..];
      } else {
        var L' := if d.Fill? then Apply(L, t.order, d.bar, today).value else L;
        ProcessCons(L, ts, feed, today);
        var s' := Process(L', ts[1..], feed, today);
        ProcessStops(L', ts[1..], feed, today);
        var k :| 0 <= k < |ts[1..]| && Decide(ts[1..][k].order, feed, today).Fill?
                 && s'.kept == Waiting(ts[1..][..k], feed, today) + ts[1..][k..];
        StopShift(ts, k, feed, today);
        assert ts[1..][k] == ts[k + 1];
        assert Decide(ts[k + 1].order, feed, today).Fill? && s.kept == Waiting(ts[..k + 1], feed, today) + ts[k + 1..];
      }
    }
  }

  /** The kept orders of a stopped pass, shifted by one order. */
  lemma StopShift(ts: seq<Ticket>, k: nat, feed: Feed, today: Date)
    requires k < |ts| - 1
    ensures (if Decide(ts[0].order, feed, today).Wait? then [ts[0]] else [])
              + (Waiting(ts[1..][..k], feed, today) + ts[1..][k..])
            == Waiting(ts[..k + 1], feed, today) + ts[k + 1..]
  {
    assert ts[1..][k..] == ts[k + 1..];
    WaitingPrefix(ts, k, feed, today);
  }

  /** A pass never keeps an order past its last order date, unless it stopped
      on a fault; kept orders are orders it was given. */
  lemma NoExpiredKept(L: Ledger, ts: seq<Ticket>, feed: Feed, today: Date)
    requires L.Valid()
    ensures var s := Process(L, ts, feed, today);
      s.outcome.Pass? ==> forall t :: t in s.kept ==> t in ts && today < t.order.maxOrderDate
  {
    ProcessKeeps(L, ts, feed, today);
    forall t | t in Process(L, ts, feed, today).kept && Process(L, ts, feed, today).outcome.Pass?
      ensures t in ts && today < t.order.maxOrderDate
    {
      WaitingMembers(ts, feed, today, t);
    }
  }

  /** Opens never fault, and neither do stock closes: a stock counter, or one
      holding only open orders, always runs to the end. */
  lemma {:induction false} NeverFails(L: Ledger, ts: seq<Ticket>, feed: Feed, today: Date)
    requires L.Valid()
    requires forall k :: 0 <= k < |ts| ==> ts[k].order.state == OpenOrder || ts[k].order.book == StockBook
    ensures Process(L, ts, feed, today).outcome == Pass
    decreases |ts|
  {
    if ts != [] {
      var t := ts[0];
      match Decide(t.order, feed, today)
      case Expire => NeverFails(L, ts[1..], feed, today);
      case Wait => NeverFails(L, ts[1..], feed, today);
      case Fill(bar) =>
        var r := Apply(L, t.order, bar, today);
        assert r.Ok?;
        NeverFails(r.value, ts[1..], feed, today);
    }
  }

  /** A day on which no pending order can fill changes no position, no cash
      and no record. */
  lemma {:induction false} NothingFillable(L: Ledger, ts: seq<Ticket>, feed: Feed, today: Date)
    requires L.Valid()
    requires forall k :: 0 <= k < |ts| ==> !Decide(ts[k].order, feed, today).Fill?
    ensures Process(L, ts, feed, today).ledger == L
    ensures Process(L, ts, feed, today).outcome == Pass
    decreases |ts|
  {
    if ts != [] {
      NothingFillable(L, ts[1..], feed, today);
    }
  }

  /** Order numbers strictly increase along the counter. */
  ghost predicate Ascending(ts: seq<Ticket>) {
    forall i, j :: 0 <= i < j < |ts| ==> ts[i].num < ts[j].num
  }

  /** Waiting orders keep their submission order. */
  lemma {:induction false} WaitingAscending(ts: seq<Ticket>, feed: Feed, today: Date)
    requires Ascending(ts)
    ensures Ascending(Waiting(ts, feed, today))
  {
    if ts != [] {
      assert Ascending(ts[1..]) by {
        forall i, j | 0 <= i < j < |ts[1..]| ensures ts[1..][i].num < ts[1..][j].num {
          assert ts[1..][i] == ts[i + 1] && ts[1..][j] == ts[j + 1];
        }
      }
      WaitingAscending(ts[1..], feed, today);
      var w := Waiting(ts[1..], feed, today);
      forall t | t in w ensures ts[0].num < t.num {
        WaitingMembers(ts[1..], feed, today, t);
        var k :| 0 <= k < |ts[1..]| && ts[1..][k] == t;
        assert ts[k + 1] == t;
      }
    }
  }

  /** One step of a pass: unless the first order faults, the pass goes on
      from the ledger that order leaves, keeping the order if it waits. */
  lemma ProcessCons(L: Ledger, ts: seq<Ticket>, feed: Feed, today: Date)
    requires L.Valid() && ts != []
    ensures var t := ts[0];
      var d := Decide(t.order, feed, today);
      var s := Process(L, ts, feed, today);
      !(d.Fill? && Apply(L, t.order, d.bar, today).Err?) ==>
        var L' := if d.Fill? then Apply(L, t.order, d.bar, today).value else L;
        && L'.Valid()
        && s.kept == (if d.Wait? then [t] else []) + Process(L', ts[1..], feed, today).kept
        && s.outcome == Process(L', ts[1..], feed, today).outcome
        && s.ledger == Process(L', ts[1..], feed, today).ledger
  {
  }

  /** The waiting orders of a prefix of `k + 1` orders. */
  lemma WaitingPrefix(ts: seq<Ticket>, k: nat, feed: Feed, today: Date)
    requires k < |ts|
    ensures Waiting(ts[..k + 1], feed, today)
      == (if Decide(ts[0].order, feed, today).Wait? then [ts[0]] else []) + Waiting(ts[1..][..k], feed, today)
  {
    assert ts[..k + 1][0] == ts[0] && ts[..k + 1][1..] == ts[1..][..k];
  }

  /** Every kept order is one of the orders given: a pass only removes
      orders. */
  lemma {:induction false} ProcessKeptIn(L: Ledger, ts: seq<Ticket>, feed: Feed, today: Date)
    requires L.Valid()
    ensures forall t :: t in Process(L, ts, feed, today).kept ==> t in ts
    decreases |ts|
  {
    if ts != [] {
      var t := ts[0];
      var d := Decide(t.order, feed, today);
      if !(d.Fill? && Apply(L, t.order, d.bar, today).Err?) {
        var L' := if d.Fill? then Apply(L, t.order, d.bar, today).value else L;
        ProcessCons(L, ts, feed, today);
        ProcessKeptIn(L', ts[1..], feed, today);
        forall u | u in Process(L', ts[1..], feed, today).kept ensures u in ts {
          var k :| 0 <= k < |ts[1..]| && ts[1..][k] == u;
          assert ts[k + 1] == u;
        }
      }
    }
  }

  /** A pass keeps the counter's order. */
  lemma {:induction false} ProcessKeptOrdered(L: Ledger, ts: seq<Ticket>, feed: Feed, today: Date)
    requires L.Valid() && Ascending(ts)
    ensures Ascending(Process(L, ts, feed, today).kept)
    decreases |ts|
  {
    if ts != [] {
      var t := ts[0];
      var d := Decide(t.order, feed, today);
      if !(d.Fill? && Apply(L, t.order, d.bar, today).Err?) {
        var L' := if d.Fill? then Apply(L, t.order, d.bar, today).value else L;
        ProcessCons(L, ts, feed, today);
        assert Ascending(ts[1..]) by {
          forall i, j | 0 <= i < j < |ts[1..]| ensures ts[1..][i].num < ts[1..][j].num {
            assert ts[1..][i] == ts[i + 1] && ts[1..][j] == ts[j + 1];
          }
        }
        ProcessKeptOrdered(L', ts[1..], feed, today);
        ProcessKeptIn(L', ts[1..], feed, today);
        var rest := Process(L', ts[1..], feed, today).kept;
        forall u | u in rest ensures t.num < u.num {
          var k :| 0 <= k < |ts[1..]| && ts[1..][k] == u;
          assert ts[k + 1] == u;
        }
        AscendingCons(t, rest, d.Wait?);
      }
    }
  }

  /** An order numbered below every order of an ascending sequence may go in
      front of it. */
  lemma AscendingCons(t: Ticket, rest: seq<Ticket>, keep: bool)
    requires Ascending(rest) && forall u :: u in rest ==> t.num < u.num
    ensures Ascending((if keep then [t] else []) + rest)
  {
    if keep {
      var r := [t] + rest;
      forall i, j | 0 <= i < j < |r| ensures r[i].num < r[j].num {
        assert r[j] == rest[j - 1];
        if i > 0 { assert r[i] == rest[i - 1]; } else { assert rest[j - 1] in rest; }
      }
    } else {
      assert [] + rest == rest;
    }
  }

  /** A counter of asset class `a` whose orders carry increasing numbers, none
      above `n`, the last number handed out. */
  ghost predicate Fits(ts: seq<Ticket>, n: nat, a: Asset) {
    Ascending(ts) && forall t :: t in ts ==> t.num <= n && AssetOf(t.order.book) == a
  }

  /** A counter pass keeps a counter's numbering and asset class. */
  lemma ProcessFits(L: Ledger, ts: seq<Ticket>, feed: Feed, today: Date, n: nat, a: Asset)
    requires L.Valid() && Fits(ts, n, a)
    ensures Fits(Process(L, ts, feed, today).kept, n, a)
  {
    ProcessKeptIn(L, ts, feed, today);
    ProcessKeptOrdered(L, ts, feed, today);
  }

  /** Joins the orders a pass has kept so far to the rest of the pass. */
  function Join(kept: seq<Ticket>, s: Step): (r: Step)
    ensures r.ledger == s.ledger && r.outcome == s.outcome && |r.kept| == |kept| + |s.kept|
  {
    Step(s.ledger, kept + s.kept, s.outcome)
  }

  /** Joining in two steps is joining the concatenation. */
  lemma JoinTwice(a: seq<Ticket>, b: seq<Ticket>, s: Step)
    ensures Join(a, Join(b, s)) == Join(a + b, s)
  {
    assert a + (b + s.kept) == (a + b) + s.kept;
  }

  // ---------------------------------------------------------------- evening roll

  /** `close_counter` for one order: with a bar today, the order's reference
      settlement price becomes today's settle (close orders get one too). */
  function Roll(t: Ticket, feed: Feed, today: Date): Ticket {
    if (t.order.instrument, today) in feed
    then Ticket(t.num, t.order.(preSettle := Some(feed[(t.order.instrument, today)].settle)))
    else t
  }

  function RollAll(ts: seq<Ticket>, feed: Feed, today: Date): (r: seq<Ticket>)
    ensures |r| == |ts|
  {
    if ts == [] then [] else [Roll(ts[0], feed, today)] + RollAll(ts[1..], feed, today)
  }

  /** The roll changes nothing but reference settlement prices: an order
      whose instrument has a bar today takes that bar's settlement price, one
      without a bar is left as it is; numbers and all other fields stay, so no
      order's fate on any day changes. */
  lemma {:induction false} RollKeeps(ts: seq<Ticket>, feed: Feed, today: Date, feed': Feed, day: Date)
    ensures var r := RollAll(ts, feed, today);
      forall k :: 0 <= k < |ts| ==>
        && r[k].num == ts[k].num
        && r[k].order.(preSettle := ts[k].order.preSettle) == ts[k].order
        && ((ts[k].order.instrument, today) in feed ==>
              r[k].order.preSettle == Some(feed[(ts[k].order.instrument, today)].settle))
        && ((ts[k].order.instrument, today) !in feed ==> r[k] == ts[k])
        && Decide(r[k].order, feed', day) == Decide(ts[k].order, feed', day)
  {
    if ts != [] {
      RollKeeps(ts[1..], feed, today, feed', day);
      var r := RollAll(ts, feed, today);
      forall k | 0 < k < |ts| ensures r[k] == RollAll(ts[1..], feed, today)[k - 1] && ts[k] == ts[1..][k - 1] { }
    }
  }

  /** The roll keeps a counter's order numbers, its order and its asset
      class. */
  lemma RollFits(ts: seq<Ticket>, feed: Feed, today: Date, n: nat, a: Asset)
    requires Fits(ts, n, a)
    ensures Fits(RollAll(ts, feed, today), n, a)
  {
    var r := RollAll(ts, feed, today);
    RollKeeps(ts, feed, today, feed, today);
    assert forall k :: 0 <= k < |ts| ==> r[k].num == ts[k].num && r[k].order.book == ts[k].order.book;
    forall t | t in r ensures t.num <= n && AssetOf(t.order.book) == a {
      var k :| 0 <= k < |r| && r[k] == t;
      assert ts[k] in ts;
    }
  }

  /** An option opened from a rolled order carries the last rolled settle as
      its reference; a futures open ignores the order's value and takes the
      bar's. */
  lemma RolledOpen(L: Ledger, t: Ticket, feed: Feed, today: Date, bar: Bar, day: Date)
    requires L.Valid() && t.order.state == OpenOrder && t.order.book != StockBook
    requires (t.order.instrument, today) in feed
    ensures var r := Apply(L, Roll(t, feed, today).order, bar, day);
      var c := t.order.instrument;
      && r.Ok? && c in r.value.books[t.order.book].lots
      && var lots := r.value.books[t.order.book].lots[c];
         lots[|lots| - 1].preSettle ==
           (if t.order.book.OptionBook? then feed[(c, today)].settle else bar.preSettle)
  {
    var o := Roll(t, feed, today).order;
    var c := t.order.instrument;
    match o.book
    case FutureBook(side) =>
      var r := OpenFuture(L, day, side, c, o.vol, o.price, bar.preSettle, o.margin, o.minPrice, o.maxPrice, o.maxDate, o.reason);
      OpenFutureEffect(L, day, side, c, o.vol, o.price, bar.preSettle, o.margin, o.minPrice, o.maxPrice, o.maxDate, o.reason);
    case OptionBook(right, leg) =>
      var ps := o.preSettle.GetOr(0.0);
      OpenOptionEffect(L, day, right, leg, c, o.vol, o.price, o.strike, ps, o.margin, o.minPrice, o.maxPrice, o.maxDate, o.reason);
  }
}

=== FILE: engine.dfy ===
/** The backtest engine object (`Backtest`; `CTA_backtest` is the same engine
    with stocks off and both futures and options on).  The strategy drives it
    day by day: it sets `today`, submits orders, runs the counters and the
    monitors, marks the books to market and rolls the pending orders. */
module Engine {
  import opened Types
  import opened Books
  import opened Fifo
  import opened Positions
  import opened Settlement
  import Monitor
  import opened Counter

  /** Seven empty books, the starting cash, no profit and no records. */
  function Initial(cash: real): (L: Ledger)
    ensures L.Valid()
    ensures forall id :: L.books[id].lots == map[]
  {
    var L := Ledger(map id: BookId | id in ALL_BOOKS :: EMPTY, cash, 0.0, 0.0, [], [], []);
    assert forall id :: id in L.books by {
      forall id: BookId ensures id in L.books { AllBooksListed(id); }
    }
    L
  }

  /** A well-formed ledger and three counters (stocks, futures, options)
      whose orders carry increasing numbers up to `n` and belong to the
      counter's asset class. */
  ghost predicate Ready(L: Ledger, cs: (seq<Ticket>, seq<Ticket>, seq<Ticket>), n: nat) {
    L.Valid() && Fits(cs.0, n, Equities) && Fits(cs.1, n, Futures) && Fits(cs.2, n, Options)
  }

  class Backtest {
    const startDate: Date
    const endDate: Date
    const runStock: bool
    const runFuture: bool
    const runOption: bool
    const oriCash: real
    /** The market data the engine queries; stands in for the database. */
    const feed: Feed

    var today: Date
    var orderNum: nat
    var stockCounter: seq<Ticket>
    var futureCounter: seq<Ticket>
    var optionCounter: seq<Ticket>
    var books: map<BookId, Book>
    var cash: real
    var profit: real
    var profitSettle: real
    var stockRecord: seq<Record>
    var futureRecord: seq<Record>
    var optionRecord: seq<Record>

    /** The trading state as a value. */
    function Snapshot(): Ledger
      reads this
    {
      Ledger(books, cash, profit, profitSettle, stockRecord, futureRecord, optionRecord)
    }

    function CounterOf(a: Asset): seq<Ticket>
      reads this
    {
      match a
      case Equities => stockCounter
      case Futures => futureCounter
      case Options => optionCounter
    }

    function Counters(): (seq<Ticket>, seq<Ticket>, seq<Ticket>)
      reads this
    {
      (stockCounter, futureCounter, optionCounter)
    }

    /** Every counter holds orders of its own asset class, numbered in
        submission order by numbers already handed out. */
    ghost predicate Valid()
      reads this
    {
      Ready(Snapshot(), Counters(), orderNum)
    }

    constructor (startDate: Date, endDate: Date, cash: real, runStock: bool, runFuture: bool, runOption: bool,
                 feed: Feed)
      ensures Valid()
      ensures this.startDate == startDate && this.endDate == endDate && oriCash == cash
      ensures this.runStock == runStock && this.runFuture == runFuture && this.runOption == runOption
      ensures this.feed == feed
      ensures today == startDate && orderNum == 0 && Counters() == ([], [], [])
      ensures Snapshot() == Initial(cash)
    {
      this.startDate := startDate;
      this.endDate := endDate;
      this.runStock := runStock;
      this.runFuture := runFuture;
      this.runOption := runOption;
      this.oriCash := cash;
      this.feed := feed;
      today := startDate;
      orderNum := 0;
      stockCounter, futureCounter, optionCounter := [], [], [];
      var L := Initial(cash);
      books, this.cash, profit, profitSettle := L.books, L.cash, L.profit, L.profitSettle;
      stockRecord, futureRecord, optionRecord := [], [], [];
    }

    /** Replaces the trading state; counters, order numbers and the date stay. */
    method Load(L: Ledger)
      requires Valid() && L.Valid()
      modifies this
      ensures Valid() && Snapshot() == L
      ensures Counters() == old(Counters()) && orderNum == old(orderNum) && today == old(today)
    {
      books, cash, profit, profitSettle := L.books, L.cash, L.profit, L.profitSettle;
      stockRecord, futureRecord, optionRecord := L.stockRecord, L.futureRecord, L.optionRecord;
    }

    /** The strategy moves the engine to the next trading day by setting
        `current_date`; nothing else changes. */
    method SetDate(d: Date)
      requires Valid()
      modifies this
      ensures Valid() && today == d
      ensures Snapshot() == old(Snapshot()) && Counters() == old(Counters()) && orderNum == old(orderNum)
    {
      today := d;
    }

    // ------------------------------------------------------------ order submission

    /** Hands out the next order number and queues the order at the end of its
        asset class's counter. */
    method Submit(o: Order)
      requires Valid()
      modifies this
      ensures Valid()
      ensures orderNum == old(orderNum) + 1
      ensures CounterOf(AssetOf(o.book)) == old(CounterOf(AssetOf(o.book))) + [Ticket(orderNum, o)]
      ensures forall a :: a != AssetOf(o.book) ==> CounterOf(a) == old(CounterOf(a))
      ensures AssetOf(o.book) != Equities ==> stockCounter == old(stockCounter)
      ensures AssetOf(o.book) != Futures ==> futureCounter == old(futureCounter)
      ensures AssetOf(o.book) != Options ==> optionCounter == old(optionCounter)
      ensures Snapshot() == old(Snapshot()) && today == old(today)
    {
      orderNum := orderNum + 1;
      var t := Ticket(orderNum, o);
      match AssetOf(o.book)
      case Equities => stockCounter := stockCounter + [t];
      case Futures => futureCounter := futureCounter + [t];
      case Options => optionCounter := optionCounter + [t];
    }

    /** The order window: a missing first / last order date defaults to the
        start / end of the backtest. */
    function Window(minOrderDate: Option<Date>, maxOrderDate: Option<Date>): (w: (Date, Date))
      ensures minOrderDate.Some? ==> w.0 == minOrderDate.value
      ensures minOrderDate.None? ==> w.0 == startDate
      ensures maxOrderDate.Some? ==> w.1 == maxOrderDate.value
      ensures maxOrderDate.None? ==> w.1 == endDate
    {
      (minOrderDate.GetOr(startDate), maxOrderDate.GetOr(endDate))
    }

    method OrderOpenStock(c: Instrument, vol: Volume, price: real, minPrice: Option<real>, maxPrice: Option<real>,
                          maxDate: Option<Date>, minOrderDate: Option<Date>, maxOrderDate: Option<Date>,
                          commission: Option<real>, reason: Option<string>)
      requires Valid()
      modifies this
      ensures Valid()
      ensures orderNum == old(orderNum) + 1
      ensures var w := Window(minOrderDate, maxOrderDate);
        stockCounter == old(stockCounter) + [Ticket(orderNum, Order(OpenOrder, StockBook, today, w.0, w.1, c, vol,
          price, None, 0.0, None, minPrice, maxPrice, maxDate, commission, reason))]
      ensures futureCounter == old(futureCounter) && optionCounter == old(optionCounter)
      ensures Snapshot() == old(Snapshot()) && today == old(today)
    {
      var w := Window(minOrderDate, maxOrderDate);
      Submit(Order(OpenOrder, StockBook, today, w.0, w.1, c, vol, price, None, 0.0, None,
                   minPrice, maxPrice, maxDate, commission, reason));
    }

    method OrderCloseStock(c: Instrument, vol: Volume, price: real, minOrderDate: Option<Date>,
                           maxOrderDate: Option<Date>, reason: Option<string>)
      requires Valid()
      modifies this
      ensures Valid()
      ensures orderNum == old(orderNum) + 1
      ensures var w := Window(minOrderDate, maxOrderDate);
        stockCounter == old(stockCounter) + [Ticket(orderNum, Order(CloseOrder, StockBook, today, w.0, w.1, c, vol,
          price, None, 0.0, None, None, None, None, None, reason))]
      ensures futureCounter == old(futureCounter) && optionCounter == old(optionCounter)
      ensures Snapshot() == old(Snapshot()) && today == old(today)
    {
      var w := Window(minOrderDate, maxOrderDate);
      Submit(Order(CloseOrder, StockBook, today, w.0, w.1, c, vol, price, None, 0.0, None,
                   None, None, None, None, reason));
    }

    method OrderOpenFuture(side: Side, c: Instrument, vol: Volume, price: real, preSettle: real, margin: real,
                           minPrice: Option<real>, maxPrice: Option<real>, maxDate: Option<Date>,
                           minOrderDate: Option<Date>, maxOrderDate: Option<Date>,
                           commission: Option<real>, reason: Option<string>)
      requires Valid()
      modifies this
      ensures Valid()
      ensures orderNum == old(orderNum) + 1
      ensures var w := Window(minOrderDate, maxOrderDate);
        futureCounter == old(futureCounter) + [Ticket(orderNum, Order(OpenOrder, FutureBook(side), today, w.0, w.1,
          c, vol, price, Some(preSettle), margin, None, minPrice, maxPrice, maxDate, commission, reason))]
      ensures stockCounter == old(stockCounter) && optionCounter == old(optionCounter)
      ensures Snapshot() == old(Snapshot()) && today == old(today)
    {
      var w := Window(minOrderDate, maxOrderDate);
      Submit(Order(OpenOrder, FutureBook(side), today, w.0, w.1, c, vol, price, Some(preSettle), margin, None,
                   minPrice, maxPrice, maxDate, commission, reason));
    }

    method OrderCloseFuture(side: Side, c: Instrument, vol: Volume, price: real, minOrderDate: Option<Date>,
                            maxOrderDate: Option<Date>, reason: Option<string>)
      requires Valid()
      modifies this
      ensures Valid()
      ensures orderNum == old(orderNum) + 1
      ensures var w := Window(minOrderDate, maxOrderDate);
        futureCounter == old(futureCounter) + [Ticket(orderNum, Order(CloseOrder, FutureBook(side), today, w.0, w.1,
          c, vol, price, None, 0.0, None, None, None, None, None, reason))]
      ensures stockCounter == old(stockCounter) && optionCounter == old(optionCounter)
      ensures Snapshot() == old(Snapshot()) && today == old(today)
    {
      var w := Window(minOrderDate, maxOrderDate);
      Submit(Order(CloseOrder, FutureBook(side), today, w.0, w.1, c, vol, price, None, 0.0, None,
                   None, None, None, None, reason));
    }

    /** An option buy order carries no margin, whatever the caller passed. */
    method OrderOpenOption(right: Right, leg: Leg, c: Instrument, vol: Volume, price: real, preSettle: real,
                           strike: Option<real>, margin: real, minPrice: Option<real>, maxPrice: Option<real>,
                           maxDate: Option<Date>, minOrderDate: Option<Date>, maxOrderDate: Option<Date>,
                           commission: Option<real>, reason: Option<string>)
      requires Valid()
      modifies this
      ensures Valid()
      ensures orderNum == old(orderNum) + 1
      ensures var w := Window(minOrderDate, maxOrderDate);
        optionCounter == old(optionCounter) + [Ticket(orderNum, Order(OpenOrder, OptionBook(right, leg), today,
          w.0, w.1, c, vol, price, Some(preSettle), OptionMargin(leg, margin), strike, minPrice, maxPrice, maxDate,
          commission, reason))]
      ensures leg == Buy ==> optionCounter[|optionCounter| - 1].order.margin == 0.0
      ensures stockCounter == old(stockCounter) && futureCounter == old(futureCounter)
      ensures Snapshot() == old(Snapshot()) && today == old(today)
    {
      var w := Window(minOrderDate, maxOrderDate);
      Submit(Order(OpenOrder, OptionBook(right, leg), today, w.0, w.1, c, vol, price, Some(preSettle),
                   OptionMargin(leg, margin), strike, minPrice, maxPrice, maxDate, commission, reason));
    }

    method OrderCloseOption(right: Right, leg: Leg, c: Instrument, vol: Volume, price: real,
                            minOrderDate: Option<Date>, maxOrderDate: Option<Date>, reason: Option<string>)
      requires Valid()
      modifies this
      ensures Valid()
      ensures orderNum == old(orderNum) + 1
      ensures var w := Window(minOrderDate, maxOrderDate);
        optionCounter == old(optionCounter) + [Ticket(orderNum, Order(CloseOrder, OptionBook(right, leg), today,
          w.0, w.1, c, vol, price, None, 0.0, None, None, None, None, None, reason))]
      ensures stockCounter == old(stockCounter) && futureCounter == old(futureCounter)
      ensures Snapshot() == old(Snapshot()) && today == old(today)
    {
      var w := Window(minOrderDate, maxOrderDate);
      Submit(Order(CloseOrder, OptionBook(right, leg), today, w.0, w.1, c, vol, price, None, 0.0, None,
                   None, None, None, None, reason));
    }

    // ------------------------------------------------------------ opens

    method ExecuteStock(c: Instrument, vol: Volume, price: real, minPrice: Option<real>, maxPrice: Option<real>,
                        maxDate: Option<Date>, reason: Option<string>)
      requires Valid()
      modifies this
      ensures Valid()
      ensures Snapshot() == OpenStock(old(Snapshot()), today, c, vol, price, minPrice, maxPrice, maxDate, reason)
      ensures Counters() == old(Counters()) && orderNum == old(orderNum) && today == old(today)
    {
      Load(OpenStock(Snapshot(), today, c, vol, price, minPrice, maxPrice, maxDate, reason));
    }

    method ExecuteFuture(side: Side, c: Instrument, vol: Volume, price: real, preSettle: real, margin: real,
                         minPrice: Option<real>, maxPrice: Option<real>, maxDate: Option<Date>,
                         reason: Option<string>)
      requires Valid()
      modifies this
      ensures Valid()
      ensures Snapshot() == OpenFuture(old(Snapshot()), today, side, c, vol, price, preSettle, margin,
                                       minPrice, maxPrice, maxDate, reason)
      ensures Counters() == old(Counters()) && orderNum == old(orderNum) && today == old(today)
    {
      Load(OpenFuture(Snapshot(), today, side, c, vol, price, preSettle, margin, minPrice, maxPrice, maxDate, reason));
    }

    method ExecuteOption(right: Right, leg: Leg, c: Instrument, vol: Volume, price: real, strike: Option<real>,
                         preSettle: real, margin: real, minPrice: Option<real>, maxPrice: Option<real>,
                         maxDate: Option<Date>, reason: Option<string>)
      requires Valid()
      modifies this
      ensures Valid()
      ensures Snapshot() == OpenOption(old(Snapshot()), today, right, leg, c, vol, price, strike, preSettle, margin,
                                       minPrice, maxPrice, maxDate, reason)
      ensures Counters() == old(Counters()) && orderNum == old(orderNum) && today == old(today)
    {
      Load(OpenOption(Snapshot(), today, right, leg, c, vol, price, strike, preSettle, margin,
                      minPrice, maxPrice, maxDate, reason));
    }

    // ------------------------------------------------------------ closes

    /** The close loop on a held instrument: lots are consumed oldest first by
        `CloseLots`, then the record, profit, settlement profit and cash are
        booked. */
    method CloseHeldIn(id: BookId, c: Instrument, vol: Volume, price: real, reason: Option<string>)
      requires Valid() && c in books[id].lots
      modifies this
      ensures Valid()
      ensures Snapshot() == CloseHeld(old(Snapshot()), today, id, c, vol, price, reason)
      ensures Counters() == old(Counters()) && orderNum == old(orderNum) && today == old(today)
    {
      var f, q := CloseLots(books[id].lots[c], vol, price, Positive(id));
      Load(BookFill(Snapshot(), today, id, c, price, reason, q, f));
    }

    /** A close as the engine runs it: a no-op on an empty book or on a stock
        that is not held; a fault on a future or option that is not held. */
    method CloseIn(id: BookId, c: Instrument, vol: Volume, price: real, reason: Option<string>)
      returns (outcome: Outcome)
      requires Valid()
      modifies this
      ensures Valid()
      ensures match Close(old(Snapshot()), today, id, c, vol, price, reason)
        case Ok(L) => outcome == Pass && Snapshot() == L
        case Err(f) => outcome == Fail(f) && Snapshot() == old(Snapshot())
      ensures Counters() == old(Counters()) && orderNum == old(orderNum) && today == old(today)
    {
      if books[id].lots == map[] {
        return Pass;
      }
      if c !in books[id].lots {
        if id == StockBook {
          return Pass;
        }
        return Fail(MissingPosition(c));
      }
      CloseHeldIn(id, c, vol, price, reason);
      return Pass;
    }

    method CloseStock(c: Instrument, vol: Volume, price: real, reason: Option<string>)
      requires Valid()
      modifies this
      ensures Valid()
      ensures Snapshot() == Close(old(Snapshot()), today, StockBook, c, vol, price, reason).value
      ensures Counters() == old(Counters()) && orderNum == old(orderNum) && today == old(today)
    {
      var outcome := CloseIn(StockBook, c, vol, price, reason);
    }

    method CloseFuture(side: Side, c: Instrument, vol: Volume, price: real, reason: Option<string>)
      returns (outcome: Outcome)
      requires Valid()
      modifies this
      ensures Valid()
      ensures match Close(old(Snapshot()), today, FutureBook(side), c, vol, price, reason)
        case Ok(L) => outcome == Pass && Snapshot() == L
        case Err(f) => outcome == Fail(f) && Snapshot() == old(Snapshot())
      ensures Counters() == old(Counters()) && orderNum == old(orderNum) && today == old(today)
    {
      outcome := CloseIn(FutureBook(side), c, vol, price, reason);
    }

    method CloseOption(right: Right, leg: Leg, c: Instrument, vol: Volume, price: real, reason: Option<string>)
      returns (outcome: Outcome)
      requires Valid()
      modifies this
      ensures Valid()
      ensures match Close(old(Snapshot()), today, OptionBook(right, leg), c, vol, price, reason)
        case Ok(L) => outcome == Pass && Snapshot() == L
        case Err(f) => outcome == Fail(f) && Snapshot() == old(Snapshot())
      ensures Counters() == old(Counters()) && orderNum == old(orderNum) && today == old(today)
    {
      outcome := CloseIn(OptionBook(right, leg), c, vol, price, reason);
    }

    method ClearOption(right: Right, leg: Leg, c: Instrument, vol: Volume, reason: Option<string>)
      returns (outcome: Outcome)
      requires Valid()
      modifies this
      ensures Valid()
      ensures match Clear(old(Snapshot()), today, right, leg, c, vol, reason)
        case Ok(L) => outcome == Pass && Snapshot() == L
        case Err(f) => outcome == Fail(f) && Snapshot() == old(Snapshot())
      ensures Counters() == old(Counters()) && orderNum == old(orderNum) && today == old(today)
    {
      outcome := CloseOption(right, leg, c, vol, 0.0, reason);
    }

    // ------------------------------------------------------------ counters

    /** Executes one filled order. */
    method ApplyIn(o: Order, bar: Bar) returns (outcome: Outcome)
      requires Valid()
      modifies this
      ensures Valid()
      ensures match Apply(old(Snapshot()), o, bar, today)
        case Ok(L) => outcome == Pass && Snapshot() == L
        case Err(f) => outcome == Fail(f) && Snapshot() == old(Snapshot())
      ensures Counters() == old(Counters()) && orderNum == old(orderNum) && today == old(today)
    {
      match o.state
      case CloseOrder =>
        outcome := CloseIn(o.book, o.instrument, o.vol, o.price, o.reason);
      case OpenOrder =>
        outcome := Pass;
        match o.book
        case StockBook =>
          ExecuteStock(o.instrument, o.vol, o.price, o.minPrice, o.maxPrice, o.maxDate, o.reason);
        case FutureBook(side) =>
          ExecuteFuture(side, o.instrument, o.vol, o.price, bar.preSettle, o.margin,
                        o.minPrice, o.maxPrice, o.maxDate, o.reason);
        case OptionBook(right, leg) =>
          ExecuteOption(right, leg, o.instrument, o.vol, o.price, o.strike, o.preSettle.GetOr(0.0), o.margin,
                        o.minPrice, o.maxPrice, o.maxDate, o.reason);
    }

    method SetCounter(a: Asset, ts: seq<Ticket>)
      requires Valid() && Fits(ts, orderNum, a)
      modifies this
      ensures Valid()
      ensures CounterOf(a) == ts
      ensures forall b :: b != a ==> CounterOf(b) == old(CounterOf(b))
      ensures Snapshot() == old(Snapshot()) && orderNum == old(orderNum) && today == old(today)
    {
      match a
      case Equities => stockCounter := ts;
      case Futures => futureCounter := ts;
      case Options => optionCounter := ts;
    }

    /** One order of a counter pass: expire it, leave it waiting, or execute
        it.  `rest` stands for the orders after it. */
    method Serve(t: Ticket, ghost rest: seq<Ticket>) returns (keep: bool, outcome: Outcome)
      requires Valid()
      modifies this
      ensures Valid()
      ensures outcome.Fail? ==>
        Process(old(Snapshot()), [t] + rest, feed, today) == Step(Snapshot(), [t] + rest, outcome)
      ensures outcome.Pass? ==>
        Process(old(Snapshot()), [t] + rest, feed, today)
          == Join(if keep then [t] else [], Process(Snapshot(), rest, feed, today))
      ensures Counters() == old(Counters()) && orderNum == old(orderNum) && today == old(today)
    {
      assert ([t] + rest)[1..] == rest;
      keep, outcome := false, Pass;
      match Decide(t.order, feed, today) {
        case Expire =>
        case Wait => keep := true;
        case Fill(bar) => outcome := ApplyIn(t.order, bar);
      }
    }

    /** Serves the first of the orders `todo` still to go in a counter pass
        that started from `L0` over `whole`, with `kept` the orders kept so
        far. */
    method ServeNext(ghost L0: Ledger, ghost whole: seq<Ticket>, kept: seq<Ticket>, todo: seq<Ticket>)
      returns (kept': seq<Ticket>, outcome: Outcome)
      requires Valid() && L0.Valid() && todo != []
      requires Process(L0, whole, feed, today) == Join(kept, Process(Snapshot(), todo, feed, today))
      modifies this
      ensures Valid()
      ensures outcome.Pass? ==>
        Process(L0, whole, feed, today) == Join(kept', Process(Snapshot(), todo[1..], feed, today))
      ensures outcome.Fail? ==>
        kept' == kept && Process(L0, whole, feed, today) == Step(Snapshot(), kept + todo, outcome)
      ensures Counters() == old(Counters()) && orderNum == old(orderNum) && today == old(today)
    {
      assert todo == [todo[0]] + todo[1..];
      var keep;
      kept' := kept;
      keep, outcome := Serve(todo[0], todo[1..]);
      if outcome.Pass? {
        var took := if keep then [todo[0]] else [];
        JoinTwice(kept, took, Process(Snapshot(), todo[1..], feed, today));
        kept' := kept + took;
      }
    }

    /** The loop of a counter pass over `snap`: the orders still pending
        afterwards are returned. */
    method ServeAll(snap: seq<Ticket>) returns (kept: seq<Ticket>, outcome: Outcome)
      requires Valid()
      modifies this
      ensures Valid()
      ensures var s := Process(old(Snapshot()), snap, feed, today);
        Snapshot() == s.ledger && kept == s.kept && outcome == s.outcome
      ensures Counters() == old(Counters()) && orderNum == old(orderNum) && today == old(today)
    {
      ghost var L0 := Snapshot();
      kept, outcome := [], Pass;
      var i := 0;
      while i < |snap|
        invariant 0 <= i <= |snap| && outcome == Pass
        invariant Valid() && Counters() == old(Counters()) && orderNum == old(orderNum) && today == old(today)
        invariant Process(L0, snap, feed, today) == Join(kept, Process(Snapshot(), snap[i..], feed, today))
      {
        kept, outcome := ServeNext(L0, snap, kept, snap[i..]);
        if outcome.Fail? {
          kept := kept + snap[i..];
          return;
        }
        assert snap[i..][1..] == snap[i + 1..];
        i := i + 1;
      }
      assert snap[i..] == [];
      assert kept + [] == kept;
    }

    /** `*_counter_processing`: one pass over a snapshot of the counter, in
        submission order. */
    method ProcessCounter(a: Asset) returns (outcome: Outcome)
      requires Valid()
      modifies this
      ensures Valid()
      ensures var s := Process(old(Snapshot()), old(CounterOf(a)), feed, today);
        Snapshot() == s.ledger && CounterOf(a) == s.kept && outcome == s.outcome
      ensures forall b :: b != a ==> CounterOf(b) == old(CounterOf(b))
      ensures orderNum == old(orderNum) && today == old(today)
    {
      var snap := CounterOf(a);
      ProcessFits(Snapshot(), snap, feed, today, orderNum, a);
      var kept;
      kept, outcome := ServeAll(snap);
      SetCounter(a, kept);
    }

    // ------------------------------------------------------------ monitors

    /** The lot loop of a monitor for one instrument, over the live lot list. */
    method WalkIn(id: BookId, c: Instrument, bar: Bar, highFirst: bool)
      requires Valid()
      modifies this
      ensures Valid()
      ensures Snapshot() == Monitor.Walk(old(Snapshot()), today, id, c, bar, highFirst, 0)
      ensures Counters() == old(Counters()) && orderNum == old(orderNum) && today == old(today)
    {
      ghost var L0 := Snapshot();
      var i := 0;
      while c in books[id].lots && i < |books[id].lots[c]|
        invariant Valid() && Counters() == old(Counters()) && orderNum == old(orderNum) && today == old(today)
        invariant Monitor.Walk(L0, today, id, c, bar, highFirst, 0) == Monitor.Walk(Snapshot(), today, id, c, bar, highFirst, i)
        decreases LenIn(books[id], c) - i
      {
        var l := books[id].lots[c][i];
        var t := Monitor.Trigger(l, bar, today, AssetOf(id), highFirst);
        if t.Some? {
          CloseHeldIn(id, c, l.vol, t.value.price, Some(t.value.reason));
        }
        i := i + 1;
      }
    }

    /** `monitor_stock` / `monitor_future` / `monitor_option`: every
        instrument of a snapshot of the book, in the book's order. */
    method MonitorBook(id: BookId, highFirst: bool)
      requires Valid()
      modifies this
      ensures Valid()
      ensures Snapshot() == Monitor.Monitor(old(Snapshot()), feed, today, id, highFirst)
      ensures Counters() == old(Counters()) && orderNum == old(orderNum) && today == old(today)
    {
      var cs := books[id].order;
      ghost var L0 := Snapshot();
      var k := 0;
      while k < |cs|
        invariant 0 <= k <= |cs|
        invariant Valid() && Counters() == old(Counters()) && orderNum == old(orderNum) && today == old(today)
        invariant Monitor.MonitorOver(L0, feed, today, id, highFirst, cs)
               == Monitor.MonitorOver(Snapshot(), feed, today, id, highFirst, cs[k..])
      {
        var c := cs[k];
        assert cs[k..][0] == c && cs[k..][1..] == cs[k + 1..];
        if (c, today) in feed {
          WalkIn(id, c, feed[(c, today)], highFirst);
        }
        k := k + 1;
      }
    }

    // ------------------------------------------------------------ end of day

    /** The daily mark of one futures or options book. */
    method MarkBook(id: BookId)
      requires Valid()
      modifies this
      ensures Valid()
      ensures Snapshot() == Settle(old(Snapshot()), feed, today, id)
      ensures Counters() == old(Counters()) && orderNum == old(orderNum) && today == old(today)
    {
      var b, delta := MarkBookLoop(books[id], feed, today, Positive(id));
      ghost var L := Settle(Snapshot(), feed, today, id);
      assert L == Snapshot().(books := books[id := b], profitSettle := profitSettle + delta);
      Load(Snapshot().(books := books[id := b], profitSettle := profitSettle + delta));
    }

    /** `calculate_future_profit`. */
    method CalculateFutureProfit(side: Side)
      requires Valid()
      modifies this
      ensures Valid()
      ensures Snapshot() == Settle(old(Snapshot()), feed, today, FutureBook(side))
      ensures Counters() == old(Counters()) && orderNum == old(orderNum) && today == old(today)
    {
      MarkBook(FutureBook(side));
    }

    /** `calculate_option_profit`. */
    method CalculateOptionProfit(right: Right, leg: Leg)
      requires Valid()
      modifies this
      ensures Valid()
      ensures Snapshot() == Settle(old(Snapshot()), feed, today, OptionBook(right, leg))
      ensures Counters() == old(Counters()) && orderNum == old(orderNum) && today == old(today)
    {
      MarkBook(OptionBook(right, leg));
    }

    /** The roll loop over one counter. */
    method RollLoop(ts: seq<Ticket>) returns (r: seq<Ticket>)
      ensures r == RollAll(ts, feed, today)
    {
      r := [];
      var i := 0;
      while i < |ts|
        invariant 0 <= i <= |ts|
        invariant RollAll(ts, feed, today) == r + RollAll(ts[i..], feed, today)
      {
        assert ts[i..][1..] == ts[i + 1..];
        r := r + [Roll(ts[i], feed, today)];
        i := i + 1;
      }
      assert ts[i..] == [];
    }

    /** `close_counter`: the pending futures and options orders take today's
        settle as their reference settlement price; the stock counter is not
        rolled. */
    method CloseCounter()
      requires Valid()
      modifies this
      ensures Valid()
      ensures futureCounter == if runFuture then RollAll(old(futureCounter), feed, today) else old(futureCounter)
      ensures optionCounter == if runOption then RollAll(old(optionCounter), feed, today) else old(optionCounter)
      ensures stockCounter == old(stockCounter)
      ensures Snapshot() == old(Snapshot()) && orderNum == old(orderNum) && today == old(today)
    {
      if runFuture {
        RollFits(futureCounter, feed, today, orderNum, Futures);
        futureCounter := RollLoop(futureCounter);
      }
      if runOption {
        RollFits(optionCounter, feed, today, orderNum, Options);
        optionCounter := RollLoop(optionCounter);
      }
    }
  }
}

=== FILE: fifo.dfy ===
/** Closing a position: `q` units are taken from an instrument's lots oldest
    first.  Each fully consumed lot leaves the list; a partially consumed head
    lot keeps its remaining volume and the matching share of its margin.
    `positive` is the direction of the book (LS / BS coefficient +1). */
module Fifo {
  import opened Types
  import opened Books

  /** What a close does to one instrument: the lots left, the realized profit
      (against entry prices), the settlement profit (against reference settlement
      prices) and the margin handed back to cash. */
  datatype Fill = Fill(rest: seq<Lot>, realized: real, settled: real, released: real)

  /** The part of lot `l` left after `q` of its units are closed. */
  function Shrink(l: Lot, q: int): (r: Lot)
    requires 0 <= q < l.vol
    ensures r.vol == l.vol - q
    ensures r.margin + l.margin * ((q as real) / (l.vol as real)) == l.margin
    ensures r == l.(vol := r.vol, margin := r.margin)
  {
    l.(vol := l.vol - q, margin := l.margin * (1.0 - (q as real) / (l.vol as real)))
  }

  lemma ShrinkNothing(l: Lot)
    ensures Shrink(l, 0) == l
  {
    assert (0 as real) / (l.vol as real) == 0.0;
  }

  /** Profit of `n` units entered at `from` and closed at `to`. */
  function Gain(to: real, from: real, n: int, positive: bool): real {
    Signed(positive, Amount(n, to) - Amount(n, from))
  }

  /** `Gain` is the source's `(to - from) * vol * LS`. */
  lemma GainIsProduct(to: real, from: real, n: nat, positive: bool)
    ensures Gain(to, from, n, positive) == (to - from) * (n as real) * (if positive then 1.0 else -1.0)
  {
    AmountIsProduct(n, to);
    AmountIsProduct(n, from);
    assert (n as real) * to - (n as real) * from == (to - from) * (n as real);
  }

  /** Closing `q` units at `price`: the specification of the close loop. */
  function Consume(lots: seq<Lot>, q: int, price: real, positive: bool): (f: Fill)
    requires 0 <= q <= Held(lots)
    ensures |f.rest| <= |lots|
    ensures f.rest == [] <==> q == Held(lots)
    decreases |lots|
  {
    if q == 0 then Fill(lots, 0.0, 0.0, 0.0)
    else
      var l := lots[0];
      if q >= l.vol then
        var f := Consume(lots[1..], q - l.vol, price, positive);
        Fill(f.rest,
             Gain(price, l.price, l.vol, positive) + f.realized,
             Gain(price, l.preSettle, l.vol, positive) + f.settled,
             l.margin + Gain(price, l.preSettle, l.vol, positive) + f.released)
      else
        var p := Part(l, q, price, positive);
        Fill(p.rest + lots[1..], p.realized, p.settled, p.released)
  }

  /** Closing `q` units of a lot that holds more: the lot shrinks, and the
      closed share of its margin is released with the settlement profit. */
  function Part(l: Lot, q: int, price: real, positive: bool): (p: Fill)
    requires 0 <= q < l.vol
    ensures |p.rest| == 1 && p.rest[0] == Shrink(l, q)
  {
    Fill([Shrink(l, q)],
         Gain(price, l.price, q, positive),
         Gain(price, l.preSettle, q, positive),
         l.margin * ((q as real) / (l.vol as real)) + Gain(price, l.preSettle, q, positive))
  }

  /** Volume conservation: exactly `q` units leave the instrument. */
  lemma {:induction false} ConsumeHeld(lots: seq<Lot>, q: int, price: real, positive: bool)
    requires 0 <= q <= Held(lots)
    ensures Held(Consume(lots, q, price, positive).rest) == Held(lots) - q
  {
    if q > 0 {
      var l := lots[0];
      if q >= l.vol {
        ConsumeHeld(lots[1..], q - l.vol, price, positive);
      } else {
        assert ([Shrink(l, q)] + lots[1..])[1..] == lots[1..];
      }
    }
  }

  /** FIFO: the units left are the latest-entered ones, in entry order, for both
      the entry prices and the reference settlement prices. */
  lemma {:induction false} ConsumeKeepsNewest(lots: seq<Lot>, q: int, price: real, positive: bool, fld: Field)
    requires 0 <= q <= Held(lots)
    ensures Units(Consume(lots, q, price, positive).rest, fld) == Units(lots, fld)[q..]
  {
    if q > 0 {
      var l := lots[0];
      var head, tail := Repeat(FieldOf(l, fld), l.vol), Units(lots[1..], fld);
      assert Units(lots, fld) == head + tail;
      DropSplit(head, tail, q, FieldOf(l, fld), l.vol);
      if q >= l.vol {
        ConsumeKeepsNewest(lots[1..], q - l.vol, price, positive, fld);
      } else {
        var s := Shrink(l, q);
        assert ([s] + lots[1..])[1..] == lots[1..];
        assert FieldOf(s, fld) == FieldOf(l, fld);
        assert Units([s] + lots[1..], fld) == Repeat(FieldOf(l, fld), l.vol - q) + tail;
      }
    } else {
      assert Units(lots, fld)[0..] == Units(lots, fld);
    }
  }

  /** The profit a fill books against the given per-unit price view. */
  function Booked(f: Fill, fld: Field): real {
    match fld
    case Entry => f.realized
    case Reference => f.settled
  }

  /** What the `q` earliest-entered units cost, read lot by lot. */
  function Cost(lots: seq<Lot>, q: int, fld: Field): real
    requires 0 <= q <= Held(lots)
    decreases |lots|
  {
    if q == 0 then 0.0
    else if q >= lots[0].vol then Amount(lots[0].vol, FieldOf(lots[0], fld)) + Cost(lots[1..], q - lots[0].vol, fld)
    else Amount(q, FieldOf(lots[0], fld))
  }

  /** `Cost` is the sum of the per-unit prices of the first `q` units. */
  lemma {:induction false} CostIsSum(lots: seq<Lot>, q: int, fld: Field)
    requires 0 <= q <= Held(lots)
    ensures Cost(lots, q, fld) == Sum(Units(lots, fld)[..q])
  {
    if q > 0 {
      var l := lots[0];
      var head, tail := Repeat(FieldOf(l, fld), l.vol), Units(lots[1..], fld);
      assert Units(lots, fld) == head + tail;
      SumSplit(head, tail, q, FieldOf(l, fld), l.vol);
      if q >= l.vol {
        CostIsSum(lots[1..], q - l.vol, fld);
      }
    } else {
      assert Units(lots, fld)[..0] == [];
    }
  }

  lemma {:induction false} CostBooked(lots: seq<Lot>, q: int, price: real, positive: bool, fld: Field)
    requires 0 <= q <= Held(lots)
    ensures Booked(Consume(lots, q, price, positive), fld) == Signed(positive, Amount(q, price) - Cost(lots, q, fld))
  {
    if q > 0 {
      var l := lots[0];
      if q >= l.vol {
        CostBooked(lots[1..], q - l.vol, price, positive, fld);
        AmountAdd(l.vol, q - l.vol, price);
      }
    }
  }

  /** `LS * Σ (price - p)` over the `q` earliest-entered units, where `p` is
      each unit's entry price or reference settlement price. */
  function FifoPnl(lots: seq<Lot>, q: int, price: real, positive: bool, fld: Field): real
    requires 0 <= q <= Held(lots)
  {
    Signed(positive, (q as real) * price - Sum(Units(lots, fld)[..q]))
  }

  /** A close realizes `LS * Σ (price - entry)` over the `q` earliest-entered
      units, and books `LS * Σ (price - reference)` as settlement profit. */
  lemma ConsumePnl(lots: seq<Lot>, q: int, price: real, positive: bool, fld: Field)
    requires 0 <= q <= Held(lots)
    ensures Booked(Consume(lots, q, price, positive), fld) == FifoPnl(lots, q, price, positive, fld)
  {
    CostBooked(lots, q, price, positive, fld);
    CostIsSum(lots, q, fld);
    AmountIsProduct(q, price);
  }

  /** Closing all of a single lot: its whole margin plus the settlement
      profit is released and the profit against the entry price is
      realized, `(price - x) * vol * LS` in the source's terms. */
  lemma ConsumeSingle(lots: seq<Lot>, price: real, positive: bool)
    requires |lots| == 1
    ensures Held(lots) == lots[0].vol
    ensures var l, ls := lots[0], if positive then 1.0 else -1.0;
      var f := Consume(lots, l.vol, price, positive);
      && f.rest == []
      && f.realized == Gain(price, l.price, l.vol, positive) == (price - l.price) * (l.vol as real) * ls
      && f.released == l.margin + Gain(price, l.preSettle, l.vol, positive)
      && f.released == l.margin + (price - l.preSettle) * (l.vol as real) * ls
  {
    var l := lots[0];
    assert lots[1..] == [];
    assert Consume(lots[1..], 0, price, positive) == Fill([], 0.0, 0.0, 0.0);
    GainIsProduct(price, l.preSettle, l.vol, positive);
    GainIsProduct(price, l.price, l.vol, positive);
  }

  /** Margin is conserved: what is released plus what stays attached to the
      remaining lots equals the margin held before plus the settlement profit of
      the closed units. */
  lemma {:induction false} ConsumeMargin(lots: seq<Lot>, q: int, price: real, positive: bool)
    requires 0 <= q <= Held(lots)
    ensures var f := Consume(lots, q, price, positive);
      f.released + Margin(f.rest) == Margin(lots) + f.settled
  {
    if q > 0 {
      var l := lots[0];
      if q >= l.vol {
        ConsumeMargin(lots[1..], q - l.vol, price, positive);
      } else {
        var s := Shrink(l, q);
        assert ([s] + lots[1..])[1..] == lots[1..];
        assert Margin([s] + lots[1..]) == s.margin + Margin(lots[1..]);
      }
    }
  }

  /** The untouched lots after a close are a suffix of the old list. */
  lemma {:induction false} ConsumeSuffix(lots: seq<Lot>, q: int, price: real, positive: bool)
    requires 0 <= q <= Held(lots)
    ensures var f := Consume(lots, q, price, positive);
      f.rest != [] ==> f.rest[1..] == lots[|lots| - |f.rest| + 1..]
  {
    if q > 0 {
      var l := lots[0];
      if q >= l.vol {
        var g := Consume(lots[1..], q - l.vol, price, positive);
        assert Consume(lots, q, price, positive).rest == g.rest;
        ConsumeSuffix(lots[1..], q - l.vol, price, positive);
        if g.rest != [] {
          var k := |lots[1..]| - |g.rest|;
          assert lots[1..][k + 1..] == lots[k + 2..];
        }
      } else {
        ConsumePart(lots, q, price, positive);
        assert ([Shrink(l, q)] + lots[1..])[1..] == lots[1..];
      }
    }
  }

  /** The new head lot after a close (if any) is the next old lot, either
      untouched or cut: fewer units and the remaining share of its margin,
      `pre_margin * (1 - q / vol)`. */
  lemma {:induction false} ConsumeHead(lots: seq<Lot>, q: int, price: real, positive: bool)
    requires 0 <= q <= Held(lots)
    ensures var f := Consume(lots, q, price, positive); var k := |lots| - |f.rest|;
      f.rest != [] ==>
        && f.rest[0] == lots[k].(vol := f.rest[0].vol, margin := f.rest[0].margin)
        && f.rest[0].vol <= lots[k].vol
        && (f.rest[0] == lots[k]
            || (f.rest[0].vol < lots[k].vol && f.rest[0] == Shrink(lots[k], lots[k].vol - f.rest[0].vol)))
  {
    if q > 0 {
      var l := lots[0];
      if q >= l.vol {
        var g := Consume(lots[1..], q - l.vol, price, positive);
        assert Consume(lots, q, price, positive).rest == g.rest;
        ConsumeHead(lots[1..], q - l.vol, price, positive);
        if g.rest != [] {
          var k := |lots[1..]| - |g.rest|;
          assert lots[1..][k] == lots[k + 1];
        }
      } else {
        ConsumePart(lots, q, price, positive);
      }
    }
  }

  /** The close loop of `close_future` / `close_option` / `close_stock`: a full
      close walks every lot; a partial close consumes lots from the head until
      the requested volume is exhausted. */
  method CloseLots(lots: seq<Lot>, vol: Volume, price: real, positive: bool) returns (f: Fill, closed: int)
    requires lots != []
    ensures closed == Min(Held(lots), vol)
    ensures f == Consume(lots, closed, price, positive)
  {
    var currentVol := Held(lots);
    closed := Min(currentVol, vol);
    if closed >= currentVol {
      f := CloseAll(lots, price, positive);
    } else {
      f := ClosePart(lots, closed, price, positive);
    }
  }

  /** The full-close branch: every lot is closed and released. */
  method CloseAll(lots: seq<Lot>, price: real, positive: bool) returns (f: Fill)
    ensures f == Consume(lots, Held(lots), price, positive)
  {
    var realized, settled, released := 0.0, 0.0, 0.0;
    var i := 0;
    while i < |lots|
      invariant 0 <= i <= |lots|
      invariant var g := Consume(lots[i..], Held(lots[i..]), price, positive);
        Consume(lots, Held(lots), price, positive) ==
          Fill(g.rest, realized + g.realized, settled + g.settled, released + g.released)
    {
      var l := lots[i];
      assert lots[i..][1..] == lots[i + 1..];
      realized := realized + Gain(price, l.price, l.vol, positive);
      settled := settled + Gain(price, l.preSettle, l.vol, positive);
      released := released + (l.margin + Gain(price, l.preSettle, l.vol, positive));
      i := i + 1;
    }
    assert lots[|lots|..] == [];
    f := Fill([], realized, settled, released);
  }

  /** Closing fewer units than the head lot holds cuts the head lot (closing
      none leaves the lots as they are). */
  lemma ConsumePart(lots: seq<Lot>, q: int, price: real, positive: bool)
    requires lots != [] && 0 <= q < lots[0].vol
    ensures var p := Part(lots[0], q, price, positive);
      Consume(lots, q, price, positive) == Fill(p.rest + lots[1..], p.realized, p.settled, p.released)
  {
    if q == 0 {
      ShrinkNothing(lots[0]);
      assert [lots[0]] + lots[1..] == lots;
    }
  }

  /** The partial-close branch: whole lots are closed from the head while the
      remaining volume covers them, then the next lot is cut. */
  method ClosePart(lots: seq<Lot>, q: int, price: real, positive: bool) returns (f: Fill)
    requires 0 <= q < Held(lots)
    ensures f == Consume(lots, q, price, positive)
  {
    var realized, settled, released := 0.0, 0.0, 0.0;
    var maxVol := q;
    var i := 0;
    while maxVol >= lots[i].vol
      invariant 0 <= i < |lots|
      invariant 0 <= maxVol < Held(lots[i..])
      invariant var g := Consume(lots[i..], maxVol, price, positive);
        Consume(lots, q, price, positive) ==
          Fill(g.rest, realized + g.realized, settled + g.settled, released + g.released)
      decreases |lots| - i
    {
      var l := lots[i];
      assert lots[i..][0] == l && lots[i..][1..] == lots[i + 1..];
      realized := realized + Gain(price, l.price, l.vol, positive);
      settled := settled + Gain(price, l.preSettle, l.vol, positive);
      released := released + (l.margin + Gain(price, l.preSettle, l.vol, positive));
      maxVol := maxVol - l.vol;
      i := i + 1;
    }
    var l := lots[i];
    assert lots[i..][0] == l && lots[i..][1..] == lots[i + 1..];
    var p := Part(l, maxVol, price, positive);
    ConsumePart(lots[i..], maxVol, price, positive);
    f := Fill(p.rest + lots[i + 1..], realized + p.realized, settled + p.settled, released + p.released);
  }
}

=== FILE: monitor.dfy ===
/** The daily stop / expiry monitor (`monitor_stock`, `monitor_future`,
    `monitor_option`): every lot of every instrument with a bar today is
    checked once; the first trigger that fires closes `vol` units of the
    instrument (oldest lots first, as every close does). */
module Monitor {
  import opened Types
  import opened Books
  import opened Positions
  import opened Fifo

  /** A forced close: its price and the reason written into the record. */
  datatype Exit = Exit(price: real, reason: string)

  function HighExit(l: Lot, bar: Bar): Option<Exit>
    requires IsSet(l.maxPrice)
  {
    if bar.high >= l.maxPrice.value then Some(Exit(l.maxPrice.value, "high_limit")) else None
  }

  function LowExit(l: Lot, bar: Bar): Option<Exit>
    requires IsSet(l.minPrice)
  {
    if bar.low <= l.minPrice.value then Some(Exit(l.minPrice.value, "low_limit")) else None
  }

  /** The intraday limit check.  `highFirst` is the assumed order of the day's
      extremes; only the first limit that is SET is looked at (an `elif` on
      the presence of the limit, not on whether it fired). */
  function LimitExit(l: Lot, bar: Bar, highFirst: bool): Option<Exit> {
    if highFirst then
      if IsSet(l.maxPrice) then HighExit(l, bar)
      else if IsSet(l.minPrice) then LowExit(l, bar)
      else None
    else
      if IsSet(l.minPrice) then LowExit(l, bar)
      else if IsSet(l.maxPrice) then HighExit(l, bar)
      else None
  }

  /** All checks for one lot, in the source's order: limit, then contract end
      (futures, at the close), then expiry of an out-of-the-money option
      (cleared at 0), then the lot's maximum holding date (at the close). */
  function Trigger(l: Lot, bar: Bar, today: Date, a: Asset, highFirst: bool): Option<Exit> {
    var limit := LimitExit(l, bar, highFirst);
    if limit.Some? then limit
    else if a == Futures && today >= bar.endDate then Some(Exit(bar.close, "end_date"))
    else if a == Options && today == bar.endDate && bar.level < 0.0 then Some(Exit(0.0, "clear"))
    else if l.maxDate.Some? && today >= l.maxDate.value then Some(Exit(bar.close, "max_date"))
    else None
  }

  /** A limit exit happens only when the day's range reached a set limit, and
      at that limit. */
  lemma LimitExitSound(l: Lot, bar: Bar, today: Date, a: Asset, highFirst: bool)
    ensures var t := Trigger(l, bar, today, a, highFirst);
      && (t.Some? && t.value.reason == "high_limit" ==>
            IsSet(l.maxPrice) && t.value.price == l.maxPrice.value && bar.high >= l.maxPrice.value)
      && (t.Some? && t.value.reason == "low_limit" ==>
            IsSet(l.minPrice) && t.value.price == l.minPrice.value && bar.low <= l.minPrice.value)
  {
  }

  /** Later checks only run when no earlier one fired: a contract-end close
      needs a future at or past its last trading day and no limit hit; a
      clearing needs an option on its expiry day, out of the money and with no
      limit hit; a maximum-date close needs no earlier exit.  Contract-end and
      maximum-date closes happen at the day's close, a clearing at 0. */
  lemma TriggerOrder(l: Lot, bar: Bar, today: Date, a: Asset, highFirst: bool)
    ensures var t := Trigger(l, bar, today, a, highFirst);
      && (LimitExit(l, bar, highFirst).Some? ==> t == LimitExit(l, bar, highFirst))
      && (t.Some? && t.value.reason == "end_date" ==>
            a == Futures && today >= bar.endDate && t.value.price == bar.close
            && LimitExit(l, bar, highFirst).None?)
      && (LimitExit(l, bar, highFirst).None? && a == Futures && today >= bar.endDate ==>
            t == Some(Exit(bar.close, "end_date")))
      && (t.Some? && t.value.reason == "clear" ==>
            a == Options && today == bar.endDate && bar.level < 0.0 && t.value.price == 0.0
            && LimitExit(l, bar, highFirst).None?)
      && (t.Some? && t.value.reason == "max_date" ==>
            LimitExit(l, bar, highFirst).None? && l.maxDate.Some? && today >= l.maxDate.value
            && t.value.price == bar.close
            && !(a == Futures && today >= bar.endDate)
            && !(a == Options && today == bar.endDate && bar.level < 0.0))
      && (t.None? <==>
            LimitExit(l, bar, highFirst).None?
            && !(a == Futures && today >= bar.endDate)
            && !(a == Options && today == bar.endDate && bar.level < 0.0)
            && !(l.maxDate.Some? && today >= l.maxDate.value))
  {
  }

  /** With the high checked first and a high limit set, the low limit is never
      looked at, whatever it is (and symmetrically). */
  lemma FirstSetLimitShadows(l: Lot, bar: Bar, today: Date, a: Asset, highFirst: bool, other: Option<real>)
    ensures highFirst && IsSet(l.maxPrice) ==>
      Trigger(l.(minPrice := other), bar, today, a, highFirst) == Trigger(l, bar, today, a, highFirst)
    ensures !highFirst && IsSet(l.minPrice) ==>
      Trigger(l.(maxPrice := other), bar, today, a, highFirst) == Trigger(l, bar, today, a, highFirst)
  {
  }

  /** The lot loop for one instrument: position `i` of the live lot list is
      read after earlier closes have already shortened it, so a close that
      removes head lots makes the walk skip lots that moved forward. */
  function Walk(L: Ledger, today: Date, id: BookId, c: Instrument, bar: Bar, highFirst: bool, i: nat): (r: Ledger)
    requires L.Valid()
    ensures r.Valid()
    ensures forall d :: d != id ==> r.books[d] == L.books[d]
    ensures LenIn(r.books[id], c) <= LenIn(L.books[id], c)
    ensures forall e :: e != c ==> (e in r.books[id].lots <==> e in L.books[id].lots)
    ensures forall e :: e != c && e in L.books[id].lots ==> r.books[id].lots[e] == L.books[id].lots[e]
    decreases LenIn(L.books[id], c) - i
  {
    if c !in L.books[id].lots || i >= |L.books[id].lots[c]| then L
    else Walk(Visit(L, today, id, c, bar, highFirst, i), today, id, c, bar, highFirst, i + 1)
  }

  /** The visit of lot `i`: if one of its checks fires, the whole lot's volume
      is closed at the exit price (oldest lots first, as every close is). */
  function Visit(L: Ledger, today: Date, id: BookId, c: Instrument, bar: Bar, highFirst: bool, i: nat): (r: Ledger)
    requires L.Valid() && c in L.books[id].lots && i < |L.books[id].lots[c]|
    ensures r.Valid()
    ensures forall d :: d != id ==> r.books[d] == L.books[d]
    ensures LenIn(r.books[id], c) <= LenIn(L.books[id], c)
    ensures forall e :: e != c ==> (e in r.books[id].lots <==> e in L.books[id].lots)
    ensures forall e :: e != c && e in L.books[id].lots ==> r.books[id].lots[e] == L.books[id].lots[e]
  {
    var l := L.books[id].lots[c][i];
    match Trigger(l, bar, today, AssetOf(id), highFirst)
    case None => L
    case Some(e) => CloseHeld(L, today, id, c, l.vol, e.price, Some(e.reason))
  }

  /** The walk of one instrument, when it has a bar today. */
  function WalkBar(L: Ledger, feed: Feed, today: Date, id: BookId, highFirst: bool, c: Instrument): (r: Ledger)
    requires L.Valid()
    ensures r.Valid()
  {
    if (c, today) in feed then Walk(L, today, id, c, feed[(c, today)], highFirst, 0) else L
  }

  /** No check fires for any lot of the listed instruments that have a bar. */
  ghost predicate Quiet(L: Ledger, feed: Feed, today: Date, id: BookId, highFirst: bool, cs: seq<Instrument>)
    requires L.Valid()
  {
    forall c, k :: c in cs && c in L.books[id].lots && (c, today) in feed && 0 <= k < |L.books[id].lots[c]| ==>
      Trigger(L.books[id].lots[c][k], feed[(c, today)], today, AssetOf(id), highFirst).None?
  }

  /** The oldest lot of `c` fires a check today. */
  ghost predicate FirstFires(L: Ledger, feed: Feed, today: Date, id: BookId, highFirst: bool, c: Instrument)
    requires L.Valid()
  {
    c in L.books[id].lots && (c, today) in feed
    && Trigger(L.books[id].lots[c][0], feed[(c, today)], today, AssetOf(id), highFirst).Some?
  }

  /** How many of the listed instruments have an oldest lot that fires. */
  ghost function Fires(L: Ledger, feed: Feed, today: Date, id: BookId, highFirst: bool, cs: seq<Instrument>): nat
    requires L.Valid()
  {
    if cs == [] then 0
    else (if FirstFires(L, feed, today, id, highFirst, cs[0]) then 1 else 0) + Fires(L, feed, today, id, highFirst, cs[1..])
  }

  /** The instrument loop over a snapshot of the book's instruments;
      instruments without a bar today are skipped.  Only the book's own
      record is written, and only appended to; when no check fires nothing
      changes; every instrument whose oldest lot fires writes a close. */
  function MonitorOver(L: Ledger, feed: Feed, today: Date, id: BookId, highFirst: bool, cs: seq<Instrument>): (r: Ledger)
    requires L.Valid()
    ensures r.Valid()
    ensures forall d :: d != id ==> r.books[d] == L.books[d]
    ensures forall a :: a != AssetOf(id) ==> RecordOf(r, a) == RecordOf(L, a)
    ensures RecordOf(L, AssetOf(id)) <= RecordOf(r, AssetOf(id))
    ensures Quiet(L, feed, today, id, highFirst, cs) ==> r == L
    ensures Distinct(cs) ==>
      |RecordOf(r, AssetOf(id))| >= |RecordOf(L, AssetOf(id))| + Fires(L, feed, today, id, highFirst, cs)
    decreases |cs|
  {
    if cs == [] then L
    else
      WalkFacts(L, feed, today, id, highFirst, cs);
      MonitorOver(WalkBar(L, feed, today, id, highFirst, cs[0]), feed, today, id, highFirst, cs[1..])
  }

  /** `monitor_*` for book `id`: a day on which no check fires leaves the
      state as it was; otherwise each instrument whose oldest lot fires
      writes at least one close row, into its own record only. */
  function Monitor(L: Ledger, feed: Feed, today: Date, id: BookId, highFirst: bool): (r: Ledger)
    requires L.Valid()
    ensures r.Valid()
    ensures forall d :: d != id ==> r.books[d] == L.books[d]
    ensures forall a :: a != AssetOf(id) ==> RecordOf(r, a) == RecordOf(L, a)
    ensures RecordOf(L, AssetOf(id)) <= RecordOf(r, AssetOf(id))
    ensures Quiet(L, feed, today, id, highFirst, L.books[id].order) ==> r == L
    ensures |RecordOf(r, AssetOf(id))|
              >= |RecordOf(L, AssetOf(id))| + Fires(L, feed, today, id, highFirst, L.books[id].order)
  {
    MonitorOver(L, feed, today, id, highFirst, L.books[id].order)
  }

  /** A walk over lots none of which fires changes nothing. */
  lemma {:induction false} WalkQuiet(L: Ledger, today: Date, id: BookId, c: Instrument, bar: Bar, highFirst: bool, i: nat)
    requires L.Valid()
    requires forall k :: i <= k < LenIn(L.books[id], c) ==>
      Trigger(L.books[id].lots[c][k], bar, today, AssetOf(id), highFirst).None?
    ensures Walk(L, today, id, c, bar, highFirst, i) == L
    decreases LenIn(L.books[id], c) - i
  {
    if c in L.books[id].lots && i < |L.books[id].lots[c]| {
      VisitStep(L, today, id, c, bar, highFirst, i);
      WalkQuiet(L, today, id, c, bar, highFirst, i + 1);
    }
  }

  /** A walk whose oldest lot fires writes at least one close row. */
  lemma WalkFires(L: Ledger, today: Date, id: BookId, c: Instrument, bar: Bar, highFirst: bool)
    requires L.Valid() && c in L.books[id].lots
    requires Trigger(L.books[id].lots[c][0], bar, today, AssetOf(id), highFirst).Some?
    ensures |RecordOf(Walk(L, today, id, c, bar, highFirst, 0), AssetOf(id))| >= |RecordOf(L, AssetOf(id))| + 1
  {
    var L' := Visit(L, today, id, c, bar, highFirst, 0);
    VisitStep(L, today, id, c, bar, highFirst, 0);
    WalkRecords(L', today, id, c, bar, highFirst, 1);
  }

  /** `Fires` only looks at the listed instruments. */
  lemma {:induction false} FiresFrame(L: Ledger, L': Ledger, feed: Feed, today: Date, id: BookId, highFirst: bool,
                                      cs: seq<Instrument>)
    requires L.Valid() && L'.Valid()
    requires forall e :: e in cs ==> (e in L'.books[id].lots <==> e in L.books[id].lots)
    requires forall e :: e in cs && e in L.books[id].lots ==> L'.books[id].lots[e] == L.books[id].lots[e]
    ensures Fires(L', feed, today, id, highFirst, cs) == Fires(L, feed, today, id, highFirst, cs)
    decreases |cs|
  {
    if cs != [] {
      assert forall e :: e in cs[1..] ==> e in cs;
      FiresFrame(L, L', feed, today, id, highFirst, cs[1..]);
    }
  }

  /** One step of the instrument loop, as `MonitorOver` needs it. */
  lemma WalkFacts(L: Ledger, feed: Feed, today: Date, id: BookId, highFirst: bool, cs: seq<Instrument>)
    requires L.Valid() && cs != []
    ensures var L' := WalkBar(L, feed, today, id, highFirst, cs[0]);
      && (forall a :: a != AssetOf(id) ==> RecordOf(L', a) == RecordOf(L, a))
      && RecordOf(L, AssetOf(id)) <= RecordOf(L', AssetOf(id))
      && (Quiet(L, feed, today, id, highFirst, cs) ==> L' == L && Quiet(L, feed, today, id, highFirst, cs[1..]))
      && (Distinct(cs) ==>
            && Distinct(cs[1..])
            && |RecordOf(L', AssetOf(id))| + Fires(L', feed, today, id, highFirst, cs[1..])
                 >= |RecordOf(L, AssetOf(id))| + Fires(L, feed, today, id, highFirst, cs))
  {
    var c := cs[0];
    var L' := WalkBar(L, feed, today, id, highFirst, c);
    assert forall e :: e in cs[1..] ==> e in cs;
    if (c, today) in feed {
      var bar := feed[(c, today)];
      WalkRecords(L, today, id, c, bar, highFirst, 0);
      if Quiet(L, feed, today, id, highFirst, cs) {
        WalkQuiet(L, today, id, c, bar, highFirst, 0);
      }
      if FirstFires(L, feed, today, id, highFirst, c) {
        WalkFires(L, today, id, c, bar, highFirst);
      }
    }
    if Distinct(cs) {
      assert Distinct(cs[1..]) by {
        forall i, j | 0 <= i < j < |cs[1..]| ensures cs[1..][i] != cs[1..][j] {
          assert cs[1..][i] == cs[i + 1] && cs[1..][j] == cs[j + 1];
        }
      }
      assert c !in cs[1..] by {
        forall k | 0 <= k < |cs[1..]| ensures cs[1..][k] != c { assert cs[1..][k] == cs[k + 1]; }
      }
      FiresFrame(L, L', feed, today, id, highFirst, cs[1..]);
    }
  }

  /** Lots at or after position `i` of a list of `n`. */
  function Room(n: nat, i: nat): nat {
    if i < n then n - i else 0
  }

  /** A walk never adds units to the instrument it walks. */
  lemma {:induction false} WalkHeld(L: Ledger, today: Date, id: BookId, c: Instrument, bar: Bar, highFirst: bool, i: nat)
    requires L.Valid()
    ensures HeldIn(Walk(L, today, id, c, bar, highFirst, i).books[id], c) <= HeldIn(L.books[id], c)
    decreases LenIn(L.books[id], c) - i
  {
    if c in L.books[id].lots && i < |L.books[id].lots[c]| {
      var L' := Visit(L, today, id, c, bar, highFirst, i);
      VisitStep(L, today, id, c, bar, highFirst, i);
      WalkHeld(L', today, id, c, bar, highFirst, i + 1);
      assert Walk(L, today, id, c, bar, highFirst, i) == Walk(L', today, id, c, bar, highFirst, i + 1);
    }
  }

  /** A walk writes only into the trade record of the book's asset class, and
      at most one record per lot it visits. */
  lemma {:induction false} WalkRecords(L: Ledger, today: Date, id: BookId, c: Instrument, bar: Bar, highFirst: bool, i: nat)
    requires L.Valid()
    ensures var r := Walk(L, today, id, c, bar, highFirst, i);
      && (forall a :: a != AssetOf(id) ==> RecordOf(r, a) == RecordOf(L, a))
      && RecordOf(L, AssetOf(id)) <= RecordOf(r, AssetOf(id))
      && |RecordOf(r, AssetOf(id))| <= |RecordOf(L, AssetOf(id))| + Room(LenIn(L.books[id], c), i)
    decreases LenIn(L.books[id], c) - i
  {
    if c in L.books[id].lots && i < |L.books[id].lots[c]| {
      var L' := Visit(L, today, id, c, bar, highFirst, i);
      VisitStep(L, today, id, c, bar, highFirst, i);
      WalkRecords(L', today, id, c, bar, highFirst, i + 1);
      assert Walk(L, today, id, c, bar, highFirst, i) == Walk(L', today, id, c, bar, highFirst, i + 1);
      assert Room(LenIn(L'.books[id], c), i + 1) + 1 <= Room(LenIn(L.books[id], c), i);
    }
  }

  /** One visit, as the walk sees it: units never grow, only the book's own
      record is written, exactly once when the lot's checks fire and not at
      all otherwise, when nothing changes. */
  lemma VisitStep(L: Ledger, today: Date, id: BookId, c: Instrument, bar: Bar, highFirst: bool, i: nat)
    requires L.Valid() && c in L.books[id].lots && i < |L.books[id].lots[c]|
    ensures var r := Visit(L, today, id, c, bar, highFirst, i);
      var t := Trigger(L.books[id].lots[c][i], bar, today, AssetOf(id), highFirst);
      && HeldIn(r.books[id], c) <= HeldIn(L.books[id], c)
      && (forall a :: a != AssetOf(id) ==> RecordOf(r, a) == RecordOf(L, a))
      && RecordOf(L, AssetOf(id)) <= RecordOf(r, AssetOf(id))
      && |RecordOf(r, AssetOf(id))| == |RecordOf(L, AssetOf(id))| + (if t.Some? then 1 else 0)
      && (t.None? ==> r == L)
  {
    var l := L.books[id].lots[c][i];
    var t := Trigger(l, bar, today, AssetOf(id), highFirst);
    if t.Some? {
      CloseStep(L, today, id, c, l.vol, t.value.price, Some(t.value.reason));
    }
  }

  /** What a fired check does: `vol` units of the lot (at most what is held)
      are closed oldest first at the exit price, with the exit's reason; the
      one close row carries the realized profit, which `profit` gains. */
  lemma VisitCloses(L: Ledger, today: Date, id: BookId, c: Instrument, bar: Bar, highFirst: bool, i: nat)
    requires L.Valid() && c in L.books[id].lots && i < |L.books[id].lots[c]|
    ensures var lots := L.books[id].lots[c];
      var l := lots[i];
      var r := Visit(L, today, id, c, bar, highFirst, i);
      match Trigger(l, bar, today, AssetOf(id), highFirst)
      case None => r == L
      case Some(e) =>
        var q := Min(Held(lots), l.vol);
        var pnl := FifoPnl(lots, q, e.price, Positive(id), Entry);
        && HeldIn(r.books[id], c) == Held(lots) - q
        && (c in r.books[id].lots <==> l.vol < Held(lots))
        && r.profit == L.profit + pnl
        && RecordOf(r, AssetOf(id)) == RecordOf(L, AssetOf(id))
             + [Record(Closed, Some(e.reason), today, c, TagOf(id), e.price, q, pnl)]
  {
    var l := L.books[id].lots[c][i];
    match Trigger(l, bar, today, AssetOf(id), highFirst)
    case None =>
    case Some(e) =>
      CloseVolume(L, today, id, c, l.vol, e.price, Some(e.reason));
      ClosePnl(L, today, id, c, l.vol, e.price, Some(e.reason));
  }

  /** One close, as the walk sees it. */
  lemma CloseStep(L: Ledger, today: Date, id: BookId, c: Instrument, vol: Volume, price: real, reason: Option<string>)
    requires L.Valid() && c in L.books[id].lots
    ensures var r := CloseHeld(L, today, id, c, vol, price, reason);
      && HeldIn(r.books[id], c) <= HeldIn(L.books[id], c)
      && (forall a :: a != AssetOf(id) ==> RecordOf(r, a) == RecordOf(L, a))
      && RecordOf(L, AssetOf(id)) <= RecordOf(r, AssetOf(id))
      && |RecordOf(r, AssetOf(id))| == |RecordOf(L, AssetOf(id))| + 1
  {
    CloseVolume(L, today, id, c, vol, price, reason);
    CloseHeldParts(L, today, id, c, vol, price, reason);
  }

  /** Number of lots, over the listed instruments. */
  function LotCount(b: Book, cs: seq<Instrument>): nat {
    if cs == [] then 0 else LenIn(b, cs[0]) + LotCount(b, cs[1..])
  }

  lemma {:induction false} LotCountSame(b: Book, b': Book, cs: seq<Instrument>, c: Instrument)
    requires c !in cs
    requires forall e :: e != c ==> (e in b'.lots <==> e in b.lots)
    requires forall e :: e != c && e in b.lots ==> b'.lots[e] == b.lots[e]
    ensures LotCount(b', cs) == LotCount(b, cs)
  {
    if cs != [] {
      assert cs[0] != c;
      LotCountSame(b, b', cs[1..], c);
    }
  }

  /** The monitor of one book: it changes no other book, writes only into the
      record of the book's asset class, never adds units to any instrument,
      leaves an instrument without a bar today untouched, and writes at most
      one close record per lot it found at the start. */
  lemma {:induction false} MonitorOverBounds(L: Ledger, feed: Feed, today: Date, id: BookId, highFirst: bool,
                                             cs: seq<Instrument>, c: Instrument)
    requires L.Valid() && Distinct(cs)
    ensures var r := MonitorOver(L, feed, today, id, highFirst, cs);
      && HeldIn(r.books[id], c) <= HeldIn(L.books[id], c)
      && ((c, today) !in feed || c !in cs ==>
            (c in r.books[id].lots <==> c in L.books[id].lots)
            && (c in L.books[id].lots ==> r.books[id].lots[c] == L.books[id].lots[c]))
      && (forall a :: a != AssetOf(id) ==> RecordOf(r, a) == RecordOf(L, a))
      && |RecordOf(r, AssetOf(id))| <= |RecordOf(L, AssetOf(id))| + LotCount(L.books[id], cs)
    decreases |cs|
  {
    if cs != [] {
      var c0 := cs[0];
      assert Distinct(cs[1..]) by {
        forall i, j | 0 <= i < j < |cs[1..]| ensures cs[1..][i] != cs[1..][j] {
          assert cs[1..][i] == cs[i + 1] && cs[1..][j] == cs[j + 1];
        }
      }
      assert c0 !in cs[1..] by {
        forall k | 0 <= k < |cs[1..]| ensures cs[1..][k] != c0 { assert cs[1..][k] == cs[k + 1]; }
      }
      var L' := if (c0, today) in feed then Walk(L, today, id, c0, feed[(c0, today)], highFirst, 0) else L;
      if (c0, today) in feed {
        WalkHeld(L, today, id, c0, feed[(c0, today)], highFirst, 0);
        WalkRecords(L, today, id, c0, feed[(c0, today)], highFirst, 0);
      }
      MonitorOverBounds(L', feed, today, id, highFirst, cs[1..], c);
      LotCountSame(L.books[id], L'.books[id], cs[1..], c0);
    }
  }
}

=== FILE: positions.dfy ===
/** The trading state of the engine (seven position books, cash, the two
    profit accumulators and the three trade records) and the operations that
    open and close positions in it: `execute_stock`, `execute_future`,
    `execute_option`, `close_stock`, `close_future`, `close_option` and
    `clear_option`. */
module Positions {
  import opened Types
  import opened Books
  import opened Fifo

  datatype Ledger = Ledger(
    books: map<BookId, Book>,
    cash: real,
    profit: real,              // realized profit: close price against entry price
    profitSettle: real,        // settlement profit: marks and closes against the reference settle
    stockRecord: seq<Record>,
    futureRecord: seq<Record>,
    optionRecord: seq<Record>)
  {
    /** All seven books exist and each is well formed. */
    ghost predicate Valid() {
      forall id :: id in books && books[id].Valid()
    }
  }

  /** The trade record an asset class logs into. */
  function RecordOf(L: Ledger, a: Asset): seq<Record> {
    match a
    case Equities => L.stockRecord
    case Futures => L.futureRecord
    case Options => L.optionRecord
  }

  function WithRecord(L: Ledger, a: Asset, r: Record): (r': Ledger)
    ensures RecordOf(r', a) == RecordOf(L, a) + [r]
    ensures forall b :: b != a ==> RecordOf(r', b) == RecordOf(L, b)
    ensures r'.books == L.books && r'.cash == L.cash
    ensures r'.profit == L.profit && r'.profitSettle == L.profitSettle
  {
    match a
    case Equities => L.(stockRecord := L.stockRecord + [r])
    case Futures => L.(futureRecord := L.futureRecord + [r])
    case Options => L.(optionRecord := L.optionRecord + [r])
  }

  /** Number of lots of instrument `c` in book `b`. */
  function LenIn(b: Book, c: Instrument): nat {
    if c in b.lots then |b.lots[c]| else 0
  }

  // ---------------------------------------------------------------- opens

  /** `execute_stock`: a stock lot has no margin and no settlement reference
      of its own; the lot is logged into the futures record (as the source
      does) and its purchase cost leaves cash. */
  function OpenStock(L: Ledger, today: Date, c: Instrument, vol: Volume, price: real,
                     minPrice: Option<real>, maxPrice: Option<real>, maxDate: Option<Date>,
                     reason: Option<string>): (r: Ledger)
    requires L.Valid()
    ensures r.Valid()
  {
    var lot := Lot(price, price, 0.0, None, minPrice, maxPrice, maxDate, vol, false);
    var rec := Record(Opened, reason, today, c, NoTag, price, vol, 0.0);
    L.(books := L.books[StockBook := Append(L.books[StockBook], c, lot)],
       futureRecord := L.futureRecord + [rec],
       cash := L.cash - (vol as real) * price)
  }

  /** `execute_future`: the lot carries the first-day settlement flag; the
      initial margin leaves cash. */
  function OpenFuture(L: Ledger, today: Date, side: Side, c: Instrument, vol: Volume, price: real,
                      preSettle: real, margin: real, minPrice: Option<real>, maxPrice: Option<real>,
                      maxDate: Option<Date>, reason: Option<string>): (r: Ledger)
    requires L.Valid()
    ensures r.Valid()
  {
    var id := FutureBook(side);
    var lot := Lot(price, preSettle, margin, None, minPrice, maxPrice, maxDate, vol, true);
    var rec := Record(Opened, reason, today, c, SideTag(side), price, vol, 0.0);
    L.(books := L.books[id := Append(L.books[id], c, lot)],
       futureRecord := L.futureRecord + [rec],
       cash := L.cash - margin)
  }

  /** The margin an option lot carries: buyers post none. */
  function OptionMargin(leg: Leg, margin: real): real {
    if leg == Buy then 0.0 else margin
  }

  /** `execute_option`: a buyer pays the premium, a seller receives it and
      posts margin; the record's state is the leg, its type the right. */
  function OpenOption(L: Ledger, today: Date, right: Right, leg: Leg, c: Instrument, vol: Volume,
                      price: real, strike: Option<real>, preSettle: real, margin: real,
                      minPrice: Option<real>, maxPrice: Option<real>, maxDate: Option<Date>,
                      reason: Option<string>): (r: Ledger)
    requires L.Valid()
    ensures r.Valid()
  {
    var id := OptionBook(right, leg);
    var m := OptionMargin(leg, margin);
    var lot := Lot(price, preSettle, m, strike, minPrice, maxPrice, maxDate, vol, true);
    var rec := Record(if leg == Buy then Bought else Sold, reason, today, c, RightTag(right), price, vol, 0.0);
    L.(books := L.books[id := Append(L.books[id], c, lot)],
       optionRecord := L.optionRecord + [rec],
       cash := if leg == Buy then L.cash - (vol as real) * price else L.cash + ((vol as real) * price - m))
  }

  /** The lots an instrument holds in a book, empty when it is not held. */
  function LotsIn(b: Book, c: Instrument): seq<Lot> {
    if c in b.lots then b.lots[c] else []
  }

  /** `execute_future` appends exactly one lot, carrying the order's fields
      and the first-day flag, at the end of the contract's list; the other
      contracts and books, the profits and the other records are untouched. */
  lemma OpenFutureEffect(L: Ledger, today: Date, side: Side, c: Instrument, vol: Volume, price: real,
                         preSettle: real, margin: real, minPrice: Option<real>, maxPrice: Option<real>,
                         maxDate: Option<Date>, reason: Option<string>)
    requires L.Valid()
    ensures var r := OpenFuture(L, today, side, c, vol, price, preSettle, margin, minPrice, maxPrice, maxDate, reason);
      var id := FutureBook(side);
      && r.books[id].lots.Keys == L.books[id].lots.Keys + {c}
      && r.books[id].lots[c] == LotsIn(L.books[id], c) + [Lot(price, preSettle, margin, None, minPrice, maxPrice, maxDate, vol, true)]
      && (forall e :: e in L.books[id].lots && e != c ==> r.books[id].lots[e] == L.books[id].lots[e])
      && HeldIn(r.books[id], c) == HeldIn(L.books[id], c) + vol
      && (forall d :: d != id ==> r.books[d] == L.books[d])
      && r.cash == L.cash - margin
      && r.profit == L.profit && r.profitSettle == L.profitSettle
      && r.futureRecord == L.futureRecord + [Record(Opened, reason, today, c, SideTag(side), price, vol, 0.0)]
      && r.stockRecord == L.stockRecord && r.optionRecord == L.optionRecord
  {
    var id := FutureBook(side);
    AppendHeld(L.books[id], c, Lot(price, preSettle, margin, None, minPrice, maxPrice, maxDate, vol, true));
  }

  /** `execute_option` appends exactly one lot at the end of the option's
      list in the book of its right and leg; a buyer's lot carries no margin
      and the premium leaves cash, a seller's lot carries its margin and the
      premium less that margin enters cash. */
  lemma OpenOptionEffect(L: Ledger, today: Date, right: Right, leg: Leg, c: Instrument, vol: Volume,
                         price: real, strike: Option<real>, preSettle: real, margin: real,
                         minPrice: Option<real>, maxPrice: Option<real>, maxDate: Option<Date>,
                         reason: Option<string>)
    requires L.Valid()
    ensures var r := OpenOption(L, today, right, leg, c, vol, price, strike, preSettle, margin, minPrice, maxPrice, maxDate, reason);
      var id := OptionBook(right, leg);
      var m := if leg == Buy then 0.0 else margin;
      && r.books[id].lots.Keys == L.books[id].lots.Keys + {c}
      && r.books[id].lots[c] == LotsIn(L.books[id], c) + [Lot(price, preSettle, m, strike, minPrice, maxPrice, maxDate, vol, true)]
      && (forall e :: e in L.books[id].lots && e != c ==> r.books[id].lots[e] == L.books[id].lots[e])
      && HeldIn(r.books[id], c) == HeldIn(L.books[id], c) + vol
      && (forall d :: d != id ==> r.books[d] == L.books[d])
      && (leg == Buy ==> r.cash == L.cash - (vol as real) * price)
      && (leg == Sell ==> r.cash == L.cash + (vol as real) * price - margin)
      && r.profit == L.profit && r.profitSettle == L.profitSettle
      && r.optionRecord == L.optionRecord
           + [Record(if leg == Buy then Bought else Sold, reason, today, c, RightTag(right), price, vol, 0.0)]
      && r.stockRecord == L.stockRecord && r.futureRecord == L.futureRecord
  {
    var id := OptionBook(right, leg);
    AppendHeld(L.books[id], c, Lot(price, preSettle, OptionMargin(leg, margin), strike, minPrice, maxPrice, maxDate, vol, true));
  }

  /** `execute_stock` appends exactly one lot, with no margin and no
      first-day flag, at the end of the stock's list, and logs its row into
      the futures record while the stock record stays as it was. */
  lemma OpenStockEffect(L: Ledger, today: Date, c: Instrument, vol: Volume, price: real,
                        minPrice: Option<real>, maxPrice: Option<real>, maxDate: Option<Date>,
                        reason: Option<string>)
    requires L.Valid()
    ensures var r := OpenStock(L, today, c, vol, price, minPrice, maxPrice, maxDate, reason);
      && r.books[StockBook].lots.Keys == L.books[StockBook].lots.Keys + {c}
      && r.books[StockBook].lots[c] == LotsIn(L.books[StockBook], c) + [Lot(price, price, 0.0, None, minPrice, maxPrice, maxDate, vol, false)]
      && (forall e :: e in L.books[StockBook].lots && e != c ==> r.books[StockBook].lots[e] == L.books[StockBook].lots[e])
      && HeldIn(r.books[StockBook], c) == HeldIn(L.books[StockBook], c) + vol
      && (forall d :: d != StockBook ==> r.books[d] == L.books[d])
      && r.cash == L.cash - (vol as real) * price
      && r.profit == L.profit && r.profitSettle == L.profitSettle
      && r.stockRecord == L.stockRecord && r.optionRecord == L.optionRecord
      && r.futureRecord == L.futureRecord + [Record(Opened, reason, today, c, NoTag, price, vol, 0.0)]
  {
    AppendHeld(L.books[StockBook], c, Lot(price, price, 0.0, None, minPrice, maxPrice, maxDate, vol, false));
  }

  // ---------------------------------------------------------------- closes

  /** Closing up to `vol` units of an instrument that book `id` holds, at
      `price`: the lots are consumed oldest first; a stock close credits the
      realized profit, a futures or options close credits the released margin
      and books realized and settlement profit. */
  function CloseHeld(L: Ledger, today: Date, id: BookId, c: Instrument, vol: Volume, price: real,
                     reason: Option<string>): (r: Ledger)
    requires L.Valid() && c in L.books[id].lots
    ensures r.Valid()
    ensures forall d :: d != id ==> r.books[d] == L.books[d]
    ensures LenIn(r.books[id], c) <= LenIn(L.books[id], c)
    ensures forall e :: e != c ==> (e in r.books[id].lots <==> e in L.books[id].lots)
    ensures forall e :: e != c && e in L.books[id].lots ==> r.books[id].lots[e] == L.books[id].lots[e]
  {
    var lots := L.books[id].lots[c];
    var q := Min(Held(lots), vol);
    BookFill(L, today, id, c, price, reason, q, Consume(lots, q, price, Positive(id)))
  }

  /** Books a fill of `q` units of a held instrument: what is left replaces
      its lots, the close is recorded, and the profit and cash are credited. */
  function BookFill(L: Ledger, today: Date, id: BookId, c: Instrument, price: real, reason: Option<string>,
                q: int, f: Fill): (r: Ledger)
    requires L.Valid() && c in L.books[id].lots
    ensures r.Valid()
    ensures forall d :: d != id ==> r.books[d] == L.books[d]
  {
    var rec := Record(Closed, reason, today, c, TagOf(id), price, q, f.realized);
    var L' := WithRecord(L, AssetOf(id), rec).(books := L.books[id := Store(L.books[id], c, f.rest)]);
    if id == StockBook then
      L'.(profit := L.profit + f.realized, cash := L.cash + f.realized)
    else
      L'.(profit := L.profit + f.realized, profitSettle := L.profitSettle + f.settled,
          cash := L.cash + f.released)
  }

  /** The close operations as the engine calls them: nothing happens on an
      empty book; a stock that is not held is skipped; a future or option that
      is not held in a non-empty book is a fault (the source raises). */
  function Close(L: Ledger, today: Date, id: BookId, c: Instrument, vol: Volume, price: real,
                 reason: Option<string>): (r: Result<Ledger>)
    requires L.Valid()
    ensures r.Err? <==> L.books[id].lots != map[] && c !in L.books[id].lots && id != StockBook
    ensures r.Err? ==> r.fault == MissingPosition(c)
    ensures r.Ok? && c !in L.books[id].lots ==> r.value == L
  {
    var book := L.books[id];
    if book.lots == map[] then Ok(L)
    else if c !in book.lots then
      if id == StockBook then Ok(L) else Err(MissingPosition(c))
    else Ok(CloseHeld(L, today, id, c, vol, price, reason))
  }

  /** `clear_option`: an option close at price 0; the strategy's default
      reason, and the monitor's, is "clear". */
  function Clear(L: Ledger, today: Date, right: Right, leg: Leg, c: Instrument, vol: Volume,
                 reason: Option<string>): Result<Ledger>
    requires L.Valid()
  {
    Close(L, today, OptionBook(right, leg), c, vol, 0.0, reason)
  }

  /** Clearing a held option never faults; it writes the closed (oldest)
      units off at 0: `profit` and the close row's pnl are `-BS * Σ entry`
      over them, the row carries price 0, and the units leave the book. */
  lemma ClearWritesOff(L: Ledger, today: Date, right: Right, leg: Leg, c: Instrument, vol: Volume,
                       reason: Option<string>)
    requires L.Valid() && c in L.books[OptionBook(right, leg)].lots
    ensures var id := OptionBook(right, leg);
      var lots := L.books[id].lots[c];
      var q := Min(Held(lots), vol);
      var pnl := Signed(leg == Buy, -Sum(Units(lots, Entry)[..q]));
      var r := Clear(L, today, right, leg, c, vol, reason);
      && r.Ok?
      && r.value.profit == L.profit + pnl
      && r.value.optionRecord == L.optionRecord + [Record(Closed, reason, today, c, RightTag(right), 0.0, q, pnl)]
      && HeldIn(r.value.books[id], c) == Held(lots) - q
      && (c in r.value.books[id].lots <==> vol < Held(lots))
  {
    var id := OptionBook(right, leg);
    var lots := L.books[id].lots[c];
    var q := Min(Held(lots), vol);
    ClosePnl(L, today, id, c, vol, 0.0, reason);
    CloseVolume(L, today, id, c, vol, 0.0, reason);
    assert (q as real) * 0.0 == 0.0;
  }

  /** How a close changes the scalars and the record, in terms of the fill. */
  lemma CloseHeldParts(L: Ledger, today: Date, id: BookId, c: Instrument, vol: Volume, price: real,
                       reason: Option<string>)
    requires L.Valid() && c in L.books[id].lots
    ensures var r := CloseHeld(L, today, id, c, vol, price, reason);
      var lots := L.books[id].lots[c];
      var q := Min(Held(lots), vol);
      var f := Consume(lots, q, price, Positive(id));
      && r.profit == L.profit + f.realized
      && RecordOf(r, AssetOf(id)) == RecordOf(L, AssetOf(id)) + [Record(Closed, reason, today, c, TagOf(id), price, q, f.realized)]
      && (forall a :: a != AssetOf(id) ==> RecordOf(r, a) == RecordOf(L, a))
      && (id != StockBook ==> r.profitSettle == L.profitSettle + f.settled && r.cash == L.cash + f.released)
      && (id == StockBook ==> r.profitSettle == L.profitSettle && r.cash == L.cash + f.realized)
  {
  }

  /** Volume: exactly `min(held, vol)` units leave; the instrument disappears
      exactly when everything is closed; the remaining units are the newest
      ones, in entry order. */
  lemma CloseVolume(L: Ledger, today: Date, id: BookId, c: Instrument, vol: Volume, price: real,
                    reason: Option<string>)
    requires L.Valid() && c in L.books[id].lots
    ensures var r := CloseHeld(L, today, id, c, vol, price, reason);
      var lots := L.books[id].lots[c];
      var q := Min(Held(lots), vol);
      && HeldIn(r.books[id], c) == Held(lots) - q
      && (c in r.books[id].lots <==> vol < Held(lots))
      && (c in r.books[id].lots ==> Units(r.books[id].lots[c], Entry) == Units(lots, Entry)[q..])
  {
    var lots := L.books[id].lots[c];
    var q := Min(Held(lots), vol);
    ConsumeHeld(lots, q, price, Positive(id));
    ConsumeKeepsNewest(lots, q, price, Positive(id), Entry);
  }

  /** Profit: the realized profit of a close is `LS * Σ (price - entry)` over
      the closed (oldest) units; `profit` grows by it and the close record
      carries it; settlement profit is the same sum against the reference
      settlement prices. */
  lemma ClosePnl(L: Ledger, today: Date, id: BookId, c: Instrument, vol: Volume, price: real,
                 reason: Option<string>)
    requires L.Valid() && c in L.books[id].lots
    ensures var r := CloseHeld(L, today, id, c, vol, price, reason);
      var lots := L.books[id].lots[c];
      var q := Min(Held(lots), vol);
      var pnl := FifoPnl(lots, q, price, Positive(id), Entry);
      && r.profit == L.profit + pnl
      && RecordOf(r, AssetOf(id)) == RecordOf(L, AssetOf(id)) + [Record(Closed, reason, today, c, TagOf(id), price, q, pnl)]
      && (id != StockBook ==>
            r.profitSettle == L.profitSettle + FifoPnl(lots, q, price, Positive(id), Reference))
      && (id == StockBook ==> r.cash == L.cash + pnl && r.profitSettle == L.profitSettle)
  {
    var lots := L.books[id].lots[c];
    var q := Min(Held(lots), vol);
    CloseHeldParts(L, today, id, c, vol, price, reason);
    ConsumePnl(lots, q, price, Positive(id), Entry);
    ConsumePnl(lots, q, price, Positive(id), Reference);
  }

  /** Cash: a futures or options close returns the margin of the closed part
      plus its settlement profit: the margin left on the instrument plus the
      cash after the close equals the margin before plus the cash before plus
      the settlement profit booked. */
  lemma CloseMargin(L: Ledger, today: Date, id: BookId, c: Instrument, vol: Volume, price: real,
                    reason: Option<string>)
    requires L.Valid() && c in L.books[id].lots && id != StockBook
    ensures var r := CloseHeld(L, today, id, c, vol, price, reason);
      var left := if c in r.books[id].lots then Margin(r.books[id].lots[c]) else 0.0;
      r.cash + left == L.cash + Margin(L.books[id].lots[c]) + (r.profitSettle - L.profitSettle)
  {
    var lots := L.books[id].lots[c];
    var q := Min(Held(lots), vol);
    CloseHeldParts(L, today, id, c, vol, price, reason);
    ConsumeMargin(lots, q, price, Positive(id));
  }

  /** A close of everything held, in terms of the fill of all units. */
  lemma CloseEverything(L: Ledger, today: Date, id: BookId, c: Instrument, vol: Volume, price: real,
                        reason: Option<string>)
    requires L.Valid() && c in L.books[id].lots && id != StockBook
    requires vol >= Held(L.books[id].lots[c])
    ensures var r := CloseHeld(L, today, id, c, vol, price, reason);
      var lots := L.books[id].lots[c];
      var f := Consume(lots, Held(lots), price, Positive(id));
      && c !in r.books[id].lots
      && r.cash == L.cash + f.released
      && r.profit == L.profit + f.realized
  {
    CloseHeldParts(L, today, id, c, vol, price, reason);
    CloseVolume(L, today, id, c, vol, price, reason);
  }

  /** A full close of a single futures lot returns its margin plus the
      settlement profit `Gain(price, pre_settle)` to cash, books the profit
      `Gain(price, entry)` (the source's `(price - x) * vol * LS`, see
      `GainIsProduct`), and removes the contract. */
  lemma CloseSingleLot(L: Ledger, today: Date, side: Side, c: Instrument, vol: Volume, price: real,
                       reason: Option<string>)
    requires L.Valid() && c in L.books[FutureBook(side)].lots
    requires |L.books[FutureBook(side)].lots[c]| == 1
    requires vol >= L.books[FutureBook(side)].lots[c][0].vol
    ensures var r := CloseHeld(L, today, FutureBook(side), c, vol, price, reason);
      var l := L.books[FutureBook(side)].lots[c][0];
      && c !in r.books[FutureBook(side)].lots
      && r.cash == L.cash + l.margin + Gain(price, l.preSettle, l.vol, side == Long)
      && r.profit == L.profit + Gain(price, l.price, l.vol, side == Long)
  {
    var id := FutureBook(side);
    var lots := L.books[id].lots[c];
    ConsumeSingle(lots, price, Positive(id));
    CloseEverything(L, today, id, c, vol, price, reason);
  }
}

=== FILE: settlement.dfy ===
/** Daily mark-to-market of open futures and options lots
    (`calculate_future_profit`, `calculate_option_profit`): each lot is
    revalued at the day's settlement price; the difference is added to the
    lot's margin and to the settlement profit, and the settlement price
    becomes the lot's reference.  A lot's first mark is taken against its
    entry price instead of the bar's previous settlement price. */
module Settlement {
  import opened Types
  import opened Books
  import opened Fifo
  import opened Positions

  /** A marked lot and the settlement profit its mark produced. */
  datatype Mark = Mark(lot: Lot, delta: real)

  /** A marked lot list and the total settlement profit. */
  datatype Marks = Marks(lots: seq<Lot>, delta: real)

  /** A marked book and the total settlement profit. */
  datatype BookMark = BookMark(book: Book, delta: real)

  /** The price a lot is marked against: its entry price on its first day,
      otherwise the bar's previous settlement price. */
  function Reference(l: Lot, bar: Bar): real {
    if l.firstDay then l.price else bar.preSettle
  }

  function MarkLot(l: Lot, bar: Bar, positive: bool): Mark {
    var delta := Gain(bar.settle, Reference(l, bar), l.vol, positive);
    Mark(l.(margin := l.margin + delta, preSettle := bar.settle, firstDay := false), delta)
  }

  /** One mark in the source's terms: the profit is `(settle - reference) *
      vol * LS`; margin grows by it; the reference becomes the settle; the
      first-day flag is gone; volume, entry price and limits are kept. */
  lemma MarkLotEffect(l: Lot, bar: Bar, positive: bool)
    ensures var m := MarkLot(l, bar, positive);
      var ls := if positive then 1.0 else -1.0;
      && m.delta == (bar.settle - (if l.firstDay then l.price else bar.preSettle)) * (l.vol as real) * ls
      && m.lot.margin == l.margin + m.delta
      && m.lot.preSettle == bar.settle
      && !m.lot.firstDay
      && m.lot.(margin := l.margin, preSettle := l.preSettle, firstDay := l.firstDay) == l
  {
    GainIsProduct(bar.settle, Reference(l, bar), l.vol, positive);
  }

  /** The source has no once-per-day guard: marking a lot that is past its
      first day twice against the same bar books the same profit twice. */
  lemma RemarkRepeats(l: Lot, bar: Bar, positive: bool)
    requires !l.firstDay
    ensures var m := MarkLot(l, bar, positive);
      && MarkLot(m.lot, bar, positive).delta == m.delta
      && MarkLot(m.lot, bar, positive).lot.margin == l.margin + 2.0 * m.delta
  {
  }

  function MarkLots(lots: seq<Lot>, bar: Bar, positive: bool): (r: Marks)
    ensures |r.lots| == |lots|
  {
    if lots == [] then Marks([], 0.0)
    else
      var m := MarkLot(lots[0], bar, positive);
      var rest := MarkLots(lots[1..], bar, positive);
      Marks([m.lot] + rest.lots, m.delta + rest.delta)
  }

  /** Marking keeps every unit and its entry price, and conserves value: the
      margin attached to the lots grows by exactly the settlement profit, and
      every lot's reference becomes the settle. */
  lemma {:induction false} MarkLotsConserve(lots: seq<Lot>, bar: Bar, positive: bool)
    ensures var r := MarkLots(lots, bar, positive);
      && Held(r.lots) == Held(lots)
      && Units(r.lots, Entry) == Units(lots, Entry)
      && Margin(r.lots) == Margin(lots) + r.delta
      && (forall k :: 0 <= k < |lots| ==> r.lots[k].preSettle == bar.settle && !r.lots[k].firstDay)
  {
    if lots != [] {
      var r := MarkLots(lots, bar, positive);
      var rest := MarkLots(lots[1..], bar, positive);
      MarkLotsConserve(lots[1..], bar, positive);
      assert r.lots[1..] == rest.lots;
      assert Units(r.lots, Entry) == Repeat(lots[0].price, lots[0].vol) + Units(rest.lots, Entry);
      forall k | 0 <= k < |lots|
        ensures r.lots[k].preSettle == bar.settle && !r.lots[k].firstDay
      {
        if k > 0 {
          assert r.lots[k] == rest.lots[k - 1];
        }
      }
    }
  }

  /** Marks the listed instruments of a book that have a bar today; the
      others keep their lots unchanged. */
  function MarkAll(b: Book, cs: seq<Instrument>, feed: Feed, today: Date, positive: bool): (r: BookMark)
    requires b.Valid()
    ensures r.book.Valid()
    ensures r.book.order == b.order && r.book.lots.Keys == b.lots.Keys
    decreases |cs|
  {
    if cs == [] then BookMark(b, 0.0)
    else
      var c := cs[0];
      if c in b.lots && (c, today) in feed then
        var m := MarkLots(b.lots[c], feed[(c, today)], positive);
        var next := MarkAll(Book(b.lots[c := m.lots], b.order), cs[1..], feed, today, positive);
        BookMark(next.book, m.delta + next.delta)
      else MarkAll(b, cs[1..], feed, today, positive)
  }

  /** The daily mark of book `id` (futures or options). */
  function Settle(L: Ledger, feed: Feed, today: Date, id: BookId): (r: Ledger)
    requires L.Valid()
    ensures r.Valid()
  {
    var m := MarkAll(L.books[id], L.books[id].order, feed, today, Positive(id));
    L.(books := L.books[id := m.book], profitSettle := L.profitSettle + m.delta)
  }

  /** What the daily mark does to one instrument: without a bar today, or
      when not among those marked, it keeps its lots; otherwise its lots are
      marked against today's bar; either way it keeps its units. */
  lemma {:induction false} MarkAllEffect(b: Book, cs: seq<Instrument>, feed: Feed, today: Date, positive: bool,
                                         c: Instrument)
    requires b.Valid() && c in b.lots
    requires Distinct(cs)
    ensures var r := MarkAll(b, cs, feed, today, positive);
      && Units(r.book.lots[c], Entry) == Units(b.lots[c], Entry)
      && ((c, today) !in feed || c !in cs ==> r.book.lots[c] == b.lots[c])
      && ((c, today) in feed && c in cs ==>
            r.book.lots[c] == MarkLots(b.lots[c], feed[(c, today)], positive).lots)
    decreases |cs|
  {
    if cs != [] {
      var c0 := cs[0];
      assert Distinct(cs[1..]) by {
        forall i, j | 0 <= i < j < |cs[1..]| ensures cs[1..][i] != cs[1..][j] {
          assert cs[1..][i] == cs[i + 1] && cs[1..][j] == cs[j + 1];
        }
      }
      if c0 in b.lots && (c0, today) in feed {
        var m := MarkLots(b.lots[c0], feed[(c0, today)], positive);
        var b' := Book(b.lots[c0 := m.lots], b.order);
        MarkAllEffect(b', cs[1..], feed, today, positive, c);
        if c == c0 {
          MarkLotsConserve(b.lots[c0], feed[(c0, today)], positive);
          assert c !in cs[1..] by {
            forall k | 0 <= k < |cs[1..]| ensures cs[1..][k] != c { assert cs[1..][k] == cs[k + 1]; }
          }
        }
      } else {
        MarkAllEffect(b, cs[1..], feed, today, positive, c);
      }
    }
  }

  /** The margin held by the listed instruments of a book. */
  function BookMargin(b: Book, cs: seq<Instrument>): real
    decreases |cs|
  {
    if cs == [] then 0.0
    else (if cs[0] in b.lots then Margin(b.lots[cs[0]]) else 0.0) + BookMargin(b, cs[1..])
  }

  lemma {:induction false} BookMarginFrame(b1: Book, b2: Book, cs: seq<Instrument>)
    requires forall c :: c in cs ==> (c in b1.lots <==> c in b2.lots)
    requires forall c :: c in cs && c in b1.lots ==> b1.lots[c] == b2.lots[c]
    ensures BookMargin(b1, cs) == BookMargin(b2, cs)
    decreases |cs|
  {
    if cs != [] {
      assert forall c :: c in cs[1..] ==> c in cs;
      BookMarginFrame(b1, b2, cs[1..]);
    }
  }

  lemma DistinctTail(cs: seq<Instrument>)
    requires Distinct(cs) && cs != []
    ensures Distinct(cs[1..]) && cs[0] !in cs[1..]
  {
    forall i, j | 0 <= i < j < |cs[1..]| ensures cs[1..][i] != cs[1..][j] {
      assert cs[1..][i] == cs[i + 1] && cs[1..][j] == cs[j + 1];
    }
    forall k | 0 <= k < |cs[1..]| ensures cs[1..][k] != cs[0] {
      assert cs[1..][k] == cs[k + 1];
    }
  }

  /** Value is conserved by the daily mark of a book: the margin held by the
      marked instruments grows by exactly the settlement profit booked. */
  lemma {:induction false} MarkAllConserve(b: Book, cs: seq<Instrument>, feed: Feed, today: Date, positive: bool)
    requires b.Valid() && Distinct(cs)
    ensures var r := MarkAll(b, cs, feed, today, positive);
      BookMargin(r.book, cs) == BookMargin(b, cs) + r.delta
    decreases |cs|
  {
    if cs != [] {
      var c0 := cs[0];
      DistinctTail(cs);
      if c0 in b.lots && (c0, today) in feed {
        var m := MarkLots(b.lots[c0], feed[(c0, today)], positive);
        var b' := Book(b.lots[c0 := m.lots], b.order);
        var next := MarkAll(b', cs[1..], feed, today, positive);
        MarkAllConserve(b', cs[1..], feed, today, positive);
        MarkAllEffect(b', cs[1..], feed, today, positive, c0);
        MarkLotsConserve(b.lots[c0], feed[(c0, today)], positive);
        BookMarginFrame(b', b, cs[1..]);
        assert next.book.lots[c0] == m.lots;
      } else {
        var next := MarkAll(b, cs[1..], feed, today, positive);
        MarkAllConserve(b, cs[1..], feed, today, positive);
        if c0 in b.lots {
          MarkAllEffect(b, cs[1..], feed, today, positive, c0);
        }
      }
    }
  }

  /** `calculate_future_profit` / `calculate_option_profit` book exactly the
      book's marks: `profit_settle` grows by the growth of the margin held
      in the book; cash, realized profit, records and the other books are
      untouched, and every instrument keeps its units. */
  lemma SettleConserve(L: Ledger, feed: Feed, today: Date, id: BookId)
    requires L.Valid()
    ensures var r := Settle(L, feed, today, id);
      var order := L.books[id].order;
      && r.profitSettle - L.profitSettle == BookMargin(r.books[id], order) - BookMargin(L.books[id], order)
      && r.books[id].order == order && r.books[id].lots.Keys == L.books[id].lots.Keys
      && (forall c :: c in L.books[id].lots ==> Units(r.books[id].lots[c], Entry) == Units(L.books[id].lots[c], Entry))
      && (forall d :: d != id ==> r.books[d] == L.books[d])
      && r.cash == L.cash && r.profit == L.profit
      && r.stockRecord == L.stockRecord && r.futureRecord == L.futureRecord && r.optionRecord == L.optionRecord
  {
    var b := L.books[id];
    MarkAllConserve(b, b.order, feed, today, Positive(id));
    forall c | c in b.lots
      ensures Units(Settle(L, feed, today, id).books[id].lots[c], Entry) == Units(b.lots[c], Entry)
    {
      MarkAllEffect(b, b.order, feed, today, Positive(id), c);
    }
  }

  /** Marks a lot on consecutive days, in order. */
  function MarkDays(l: Lot, bars: seq<Bar>, positive: bool): (m: Mark)
    decreases |bars|
  {
    if bars == [] then Mark(l, 0.0)
    else
      var first := MarkLot(l, bars[0], positive);
      var rest := MarkDays(first.lot, bars[1..], positive);
      Mark(rest.lot, first.delta + rest.delta)
  }

  /** Consecutive bars of one instrument: each day's previous settlement price
      is the settlement price of the day before. */
  ghost predicate Chained(bars: seq<Bar>) {
    forall k :: 0 < k < |bars| ==> bars[k].preSettle == bars[k - 1].settle
  }

  /** Over consecutive bars the daily marks telescope: their total is the move
      from the first reference to the last settle, and the last settle becomes
      the lot's reference. */
  lemma {:induction false} MarkDaysTelescope(l: Lot, bars: seq<Bar>, positive: bool)
    requires bars != [] && Chained(bars)
    ensures var m := MarkDays(l, bars, positive);
      && m.delta == Gain(bars[|bars| - 1].settle, Reference(l, bars[0]), l.vol, positive)
      && m.lot.preSettle == bars[|bars| - 1].settle
      && m.lot.vol == l.vol && m.lot.price == l.price
      && !m.lot.firstDay
    decreases |bars|
  {
    var first := MarkLot(l, bars[0], positive);
    if |bars| > 1 {
      assert Chained(bars[1..]) by {
        forall k | 0 < k < |bars[1..]| ensures bars[1..][k].preSettle == bars[1..][k - 1].settle {
          assert bars[1..][k] == bars[k + 1] && bars[1..][k - 1] == bars[k];
        }
      }
      MarkDaysTelescope(first.lot, bars[1..], positive);
      assert Reference(first.lot, bars[1]) == bars[0].settle;
    } else {
      assert bars[1..] == [];
    }
  }

  /** Realized profit reconciles with settlement profit: a lot opened at
      `price`, marked over consecutive days and then closed in full, realizes
      exactly the sum of its daily marks plus the settlement profit of the
      close. */
  lemma MarkThenClose(l: Lot, bars: seq<Bar>, close: real, positive: bool)
    requires bars != [] && Chained(bars) && l.firstDay
    ensures var m := MarkDays(l, bars, positive);
      var f := Consume([m.lot], m.lot.vol, close, positive);
      f.realized == m.delta + f.settled
  {
    var m := MarkDays(l, bars, positive);
    MarkDaysTelescope(l, bars, positive);
    var s := bars[|bars| - 1].settle;
    assert [m.lot][1..] == [];
    assert Consume([m.lot][1..], 0, close, positive) == Fill([], 0.0, 0.0, 0.0);
    var f := Consume([m.lot], m.lot.vol, close, positive);
    assert f.realized == Gain(close, l.price, l.vol, positive) + 0.0;
    assert f.settled == Gain(close, s, l.vol, positive) + 0.0;
  }

  /** The inner loop of the daily mark: every lot of one instrument. */
  method MarkLotsLoop(lots: seq<Lot>, bar: Bar, positive: bool) returns (out: seq<Lot>, delta: real)
    ensures Marks(out, delta) == MarkLots(lots, bar, positive)
  {
    out, delta := [], 0.0;
    var i := 0;
    while i < |lots|
      invariant 0 <= i <= |lots|
      invariant var rest := MarkLots(lots[i..], bar, positive);
        MarkLots(lots, bar, positive) == Marks(out + rest.lots, delta + rest.delta)
    {
      assert lots[i..][1..] == lots[i + 1..];
      var m := MarkLot(lots[i], bar, positive);
      out := out + [m.lot];
      delta := delta + m.delta;
      i := i + 1;
    }
    assert lots[|lots|..] == [];
  }

  /** The outer loop of the daily mark: every instrument of the book, in the
      book's order, that has a bar today. */
  method MarkBookLoop(b: Book, feed: Feed, today: Date, positive: bool) returns (r: Book, delta: real)
    requires b.Valid()
    ensures BookMark(r, delta) == MarkAll(b, b.order, feed, today, positive)
  {
    r, delta := b, 0.0;
    var i := 0;
    while i < |b.order|
      invariant 0 <= i <= |b.order|
      invariant r.Valid()
      invariant var rest := MarkAll(r, b.order[i..], feed, today, positive);
        MarkAll(b, b.order, feed, today, positive) == BookMark(rest.book, delta + rest.delta)
    {
      var c := b.order[i];
      assert b.order[i..][1..] == b.order[i + 1..];
      if c in r.lots && (c, today) in feed {
        var lots, d := MarkLotsLoop(r.lots[c], feed[(c, today)], positive);
        r := Book(r.lots[c := lots], r.order);
        delta := delta + d;
      }
      i := i + 1;
    }
    assert b.order[|b.order|..] == [];
  }
}

=== FILE: types.dfy ===
/** Shared vocabulary of the backtest engine: instruments, books, lots,
    daily bars, pending orders and trade records. */
module Types {

  datatype Option<+T> = None | Some(value: T) {
    function GetOr(default: T): T {
      match this
      case Some(v) => v
      case None => default
    }
  }

  /** A fault that aborts the current engine call (a Python exception in the source). */
  datatype Fault = MissingPosition(instrument: Instrument)

  datatype Outcome = Pass | Fail(fault: Fault)

  datatype Result<+T> = Ok(value: T) | Err(fault: Fault)

  /** Contract, option or stock code. */
  type Instrument = string

  /** Trading dates, as day numbers in calendar order. */
  type Date = int

  /** Order and lot volumes are positive whole numbers of contracts or shares. */
  type Volume = v: int | 0 < v witness 1

  datatype Side = Long | Short          // futures `order_type`
  datatype Right = Call | Put           // options `order_type`
  datatype Leg = Buy | Sell             // options `order_BS`

  /** The seven position books of the engine. */
  datatype BookId = StockBook | FutureBook(side: Side) | OptionBook(right: Right, leg: Leg)

  /** The three asset classes, each with its own counter and trade record. */
  datatype Asset = Equities | Futures | Options

  const ALL_BOOKS: set<BookId> :=
    {StockBook, FutureBook(Long), FutureBook(Short),
     OptionBook(Call, Buy), OptionBook(Call, Sell), OptionBook(Put, Buy), OptionBook(Put, Sell)}

  lemma AllBooksListed(id: BookId)
    ensures id in ALL_BOOKS
  {
    match id
    case StockBook =>
    case FutureBook(s) => if s == Long {} else {}
    case OptionBook(r, l) =>
      if r == Call { if l == Buy {} else {} } else { if l == Buy {} else {} }
  }

  function AssetOf(id: BookId): Asset {
    match id
    case StockBook => Equities
    case FutureBook(_) => Futures
    case OptionBook(_, _) => Options
  }

  /** Whether the LS / BS coefficient is +1 (long futures, bought options and
      stocks) rather than -1. */
  predicate Positive(id: BookId) {
    match id
    case StockBook => true
    case FutureBook(side) => side == Long
    case OptionBook(_, leg) => leg == Buy
  }

  /** `x` multiplied by the LS / BS coefficient. */
  function Signed(positive: bool, x: real): real {
    if positive then x else -x
  }

  /** Python truthiness of an optional price limit: both None and 0 are false. */
  predicate IsSet(limit: Option<real>) {
    limit.Some? && limit.value != 0.0
  }

  /** One entry batch of a position.  `firstDay` is the one-shot `FirstDaySettle` key:
      present until the lot's first mark-to-market. */
  datatype Lot = Lot(
    price: real,              // entry price
    preSettle: real,          // reference settlement price
    margin: real,             // margin attributed to this slice
    strike: Option<real>,     // options only
    minPrice: Option<real>,   // lower exit limit
    maxPrice: Option<real>,   // upper exit limit
    maxDate: Option<Date>,    // forced-close date
    vol: Volume,
    firstDay: bool)

  /** One day's market data for one instrument, as the gateway returns it. */
  datatype Bar = Bar(
    high: real, low: real, close: real,
    settle: real, preSettle: real,
    endDate: Date,            // last trading day of the contract / option expiry
    level: real)              // moneyness of an option: negative when out of the money

  /** The market-data gateway: the answer of every `session.run` query, keyed by instrument and date. */
  type Feed = map<(Instrument, Date), Bar>

  datatype OrderState = OpenOrder | CloseOrder

  /** A pending order in a counter.  Fields that the source stores only on open orders
      (`pre_settle`, `margin`, `strike`, limits, `max_date`, `commission`) hold None / 0
      on close orders; `preSettle` is absent on close orders until the first daily roll. */
  datatype Order = Order(
    state: OrderState,
    book: BookId,
    created: Date,
    minOrderDate: Date,
    maxOrderDate: Date,
    instrument: Instrument,
    vol: Volume,
    price: real,
    preSettle: Option<real>,
    margin: real,
    strike: Option<real>,
    minPrice: Option<real>,
    maxPrice: Option<real>,
    maxDate: Option<Date>,
    commission: Option<real>,
    reason: Option<string>)

  /** The `state` column of a trade record: options log their opens as 'buy'/'sell'. */
  datatype Action = Opened | Closed | Bought | Sold

  /** The `order_type` column of a trade record: absent for stocks, long/short for
      futures, call/put (never buy/sell) for options. */
  datatype Tag = NoTag | SideTag(side: Side) | RightTag(right: Right)

  datatype Record = Record(
    state: Action,
    reason: Option<string>,
    date: Date,
    instrument: Instrument,
    tag: Tag,
    price: real,
    vol: int,
    pnl: real)

  function TagOf(id: BookId): Tag {
    match id
    case StockBook => NoTag
    case FutureBook(side) => SideTag(side)
    case OptionBook(right, _) => RightTag(right)
  }

  function Min(a: int, b: int): int {
    if a <= b then a else b
  }
}
